=== FILE: README.md ===
# jujubigdata core, modelled in Dafny

jujubigdata is the helper library behind the Juju charms that deploy Apache
Hadoop (HDFS and YARN). This project models the decision logic at its core:
`jujubigdata/utils.py` and `jujubigdata/handlers.py`. Most of that code is
file and subprocess plumbing. Underneath is a set of pure, sequential
transformations of strings, maps and line lists, and those are what the
model covers:

- **The distribution descriptor** (`DistConfig`, module `DistConfigs`).
  - It validates the required top-level keys.
  - It resolves directory path templates. Resolution repeatedly substitutes
    `{dirs[..]}` and `{config[..]}` fields and gives up after 100 passes.
  - It looks up ports, and filters them by their `exposed_on` tag.
- **The structured-file edit sessions.**
  - The XML property-map session (`PropMaps`, with the host-level wrapper in
    `Services`). A `<configuration>` document is a sequence of
    `(name, value, description)` elements. The session snapshots the elements,
    lets the caller change the map, applies the added/modified/removed
    difference, and normalises every text.
  - The `/etc/environment` parse-and-rewrite, and `read_etc_env` (`EtcEnv`).
  - The `/etc/hosts` upsert, `update_etc_hosts`, with its leading dotted-quad
    check (`EtcHosts`).
  - The single-quoting and environment merge of `run_as` (`RunAs`).
- **The handlers** (`HadoopBase`, `HadoopEnv`, `Services`, `Hdfs`, `Yarn`).
  They work over an immutable unit state `Host`. It holds:
  - the set of raised kv flags and the other kv values;
  - a log of issued actions;
  - text files and XML documents by path.

  What the outside world answers is a `World` value: the private address,
  the host names, the Java installer's output, the daemons `jps` would list,
  and the commands that would exit non-zero. A handler returns
  `Done(host)` or `Failed(error, host)`. A failure keeps the state reached so
  far, so the model can state "the completion flag is not set after a
  failure".

Python's semantics are written out where the code relies on them:

- `str.strip`, `split`, `startswith`, `in` and `join` (module `Text`);
- `int()` and `str()` on integers;
- `str.format` rendering `None` as `None`;
- `path.py`'s `/` operator (`HadoopEnv.Slash`);
- the arbitrary iteration order of dicts and sets. This is an explicit `order`
  parameter, so a property holds for every order Python might pick.

## Model

| member | source | states |
|---|---|---|
| DistConfigs.New | jujubigdata/utils.py:78-91 | With no key list, construction fails at the `for` loop (`TypeError`). Otherwise it succeeds exactly when every required key is in the document. On failure the error names exactly the missing keys, and that set is non-empty. On success there is one attribute per required key, equal to the document's section. |
| DistConfigs.Templates | jujubigdata/utils.py:95 | The `{name: path}` table exists exactly when every `dirs` entry has a `path`. It has the same names, each mapped to its entry's path. |
| DistConfigs.FormatPlain | jujubigdata/utils.py:104 | A template without braces formats to itself. |
| DistConfigs.FormatDirRef | jujubigdata/utils.py:104 | `{dirs[b]}` formats to `b`'s own template. |
| DistConfigs.FormatPlainPrefix | jujubigdata/utils.py:104 | Brace-free text in front of a template passes through formatting unchanged. |
| DistConfigs.PassesErrors | jujubigdata/utils.py:104 | Repeated formatting fails only the way `str.format` does: a key error or a format error. |
| DistConfigs.ResolveTooDeepIff | jujubigdata/utils.py:93-105 | `path` raises the nesting error exactly when each of the first 101 passes is unsettled. A pass is unsettled when it succeeds, leaves a `{`, and changes the text. |
| DistConfigs.AllUnsettledGivesUp | jujubigdata/utils.py:99-102 | If 101 passes in a row stay unsettled, the 101st iteration raises. |
| DistConfigs.SomeSettledSucceedsOrFails | jujubigdata/utils.py:99-102 | If some pass within the limit settles, `path` does not raise the nesting error. |
| DistConfigs.SettledStops | jujubigdata/utils.py:99-105 | The first settled pass ends the loop, and `path` returns that pass's text. |
| DistConfigs.FailedPassStops | jujubigdata/utils.py:99-104 | A pass whose formatting fails ends the loop with that failure. |
| DistConfigs.SettledIsFixedPoint | jujubigdata/utils.py:99 | A settled text that still holds `{` is a fixed point of formatting. |
| DistConfigs.FirstSettled | jujubigdata/utils.py:99-102 | If any pass within the limit settles, there is a first one. |
| DistConfigs.FirstSettledResult | jujubigdata/utils.py:93-105 | A successful resolution returns the text of a pass within the limit that is settled. |
| DistConfigs.ResolveOkSettled | jujubigdata/utils.py:93-105 | A resolved path is reached by at most 100 passes. It holds no `{`, or one more pass leaves it unchanged. |
| DistConfigs.ResolveLoop | jujubigdata/utils.py:96-105 | The counted `while` loop computes what the recursive definition does. A success holds no `{` or is a fixed point. Every error is the nesting error, a key error or a format error. |
| DistConfigs.PassesAlternate | jujubigdata/utils.py:104 | Two templates that format into each other alternate from pass to pass. |
| DistConfigs.TwoCycleGivesUp | jujubigdata/utils.py:99-102 | Two distinct templates that expand into each other make `path` raise. |
| DistConfigs.MutualReferenceRaises | jujubigdata/utils.py:93-105 | With `a: {dirs[b]}` and `b: {dirs[a]}`, `path('a')` raises the nesting error. |
| DistConfigs.SelfReferenceIsFixedPoint | jujubigdata/utils.py:93-105 | A direct self-reference `a: {dirs[a]}` is returned unchanged, not raised. |
| DistConfigs.GrowingSelfReferenceRaises | jujubigdata/utils.py:93-105 | The growing self-expansion `a: x{dirs[a]}` raises the nesting error. |
| DistConfigs.GrowingPasses | jujubigdata/utils.py:104 | After `n` passes, the growing template carries `n` extra `x`s. |
| DistConfigs.GrowingUnsettled | jujubigdata/utils.py:99 | No pass over the growing template settles. |
| DistConfigs.PortLookup | jujubigdata/utils.py:107-108 | With unique entry names, `port(k)` is `n` exactly when entry `k` has port `n`. It is `None` exactly when no entry named `k` has a port, including when `k` is absent. |
| DistConfigs.TaggedMembers | jujubigdata/utils.py:112-113 | The selected entries are exactly those whose `exposed_on` equals the service. With `None`, that means the untagged entries. |
| DistConfigs.TaggedAppend | jujubigdata/utils.py:112-114 | Selection commutes with concatenation, so the selected ports come in the order of the enumeration of `ports` they were selected from. |
| DistConfigs.ExposedPorts | jujubigdata/utils.py:110-115 | The result is the selected entries' ports, one per entry and in order. A selected entry without a `port` raises `KeyError('port')`. A descriptor without a `ports` attribute raises. |
| PropMaps.SnapshotNames | jujubigdata/utils.py:220-222 | The snapshot's keys are exactly the element names in the document. |
| PropMaps.SnapshotUnique | jujubigdata/utils.py:221-222 | With unique names, each element's value is what the snapshot holds for its name. |
| PropMaps.Appended | jujubigdata/utils.py:235-238 | One new element per added name, in the given iteration order. Each has value `str(v)` and no description. |
| PropMaps.AppendedNames | jujubigdata/utils.py:235-238 | The appended elements carry exactly the added names. |
| PropMaps.SurvivorsAppend | jujubigdata/utils.py:229-234 | The modify/remove loop distributes over concatenation. Surviving original elements keep their relative order. |
| PropMaps.SurvivorNames | jujubigdata/utils.py:229-234 | The surviving elements are named by the original names that are still keys. Removed names are deleted. |
| PropMaps.ReviseKeepsOnNone | jujubigdata/utils.py:231-232 | An existing name whose new value is `None` keeps its element, and its old value, unchanged. |
| PropMaps.ApplyDiffNames | jujubigdata/utils.py:223-238 | After the session, the names on disk equal the keys of the yielded dict. |
| PropMaps.SessionRoundTrip | jujubigdata/utils.py:223-238 | Re-reading the revised elements gives one entry per key of the dict. Most entries read back as `str(v)`. An existing name set to `None` keeps its previous value, while a new name set to `None` reads back as the text `'None'`. |
| PropMaps.AddedMap | jujubigdata/utils.py:235-238 | The added elements contribute exactly the added names, each read back as `str(v)`. |
| PropMaps.NormText | jujubigdata/utils.py:241 | A normalised text is absent, or non-empty with nothing left to strip. |
| PropMaps.NormTextIdempotent | jujubigdata/utils.py:241 | Normalising a text twice is normalising it once. |
| PropMaps.Normalize | jujubigdata/utils.py:239-241 | Normalisation keeps the number and order of elements and normalises each text. |
| PropMaps.NormalizeIdempotent | jujubigdata/utils.py:239-241 | Normalising a written document again changes nothing. |
| PropMaps.NormalizeNormal | jujubigdata/utils.py:239-241 | A written document is in written form. |
| PropMaps.SnapshotNormalize | jujubigdata/utils.py:239-241 | Re-reading a normalised document gives the normalised values of the original snapshot. |
| PropMaps.UnchangedSessionIsIdentity | jujubigdata/utils.py:218-243 | Take a written document with unique names. A session that changes nothing writes it back unchanged. |
| PropMaps.SessionReadBack | jujubigdata/utils.py:218-243 | Re-reading the written document gives the expected mapping of the session, normalised. |
| EtcEnv.ParseLine | jujubigdata/utils.py:260-261 | A line parses exactly when its stripped form holds exactly one `=`. Otherwise it is the unpacking error. The key has no surrounding whitespace, and the value no surrounding spaces or quotes. |
| EtcEnv.Parse | jujubigdata/utils.py:260-261 | Every key and value the session yields is clean in that sense. |
| EtcEnv.ParseClean | jujubigdata/utils.py:260-261 | Every entry read through the session's line parser is clean. |
| EtcEnv.Collect | jujubigdata/utils.py:260-261 | Reading succeeds exactly when every line parses. A failure is the error of the first bad line. On success the keys are exactly the keys of the lines. |
| EtcEnv.CollectLastWins | jujubigdata/utils.py:261 | A key takes the value of the last line that names it. |
| EtcEnv.Rewrite | jujubigdata/utils.py:263 | The rewrite emits one `k="v"` line per key, in iteration order. |
| EtcEnv.OneLinePerKey | jujubigdata/utils.py:263 | There are as many lines as keys, and every entry has its line. |
| EtcEnv.Session | jujubigdata/utils.py:259-263 | A session writes the file exactly when the file parses and the caller's edit succeeds. |
| EtcEnv.ParseLineOfLine | jujubigdata/utils.py:260-263 | A written `k="v"` line with a clean key and value parses back into `(k, v)`. |
| EtcEnv.ReadsBackAs | jujubigdata/utils.py:260-263 | A rewritten map reads back as itself through any line parser that inverts the line format. |
| EtcEnv.CollectRewrite | jujubigdata/utils.py:260-263 | Reading back a rewrite gives exactly the enumerated keys, each with its value. |
| EtcEnv.SessionRoundTrip | jujubigdata/utils.py:259-263 | Re-reading the file a session wrote gives the dict the caller left, when its keys and values are clean. |
| EtcEnv.UnchangedSessionStable | jujubigdata/utils.py:259-263 | A session that changes nothing writes a file that reads back as before. |
| EtcEnv.ReadLine | jujubigdata/utils.py:295-296 | `read_etc_env` accepts a line exactly when it holds one `=`. Otherwise it is the unpacking error. |
| EtcEnv.ReadEtcEnv | jujubigdata/utils.py:287-297 | A missing `/etc/environment` reads as the empty dict. |
| EtcEnv.ReadLineOfLine | jujubigdata/utils.py:295-296 | `read_etc_env` reads a written line back as its key and value. |
| EtcEnv.SessionThenRead | jujubigdata/utils.py:259-263 | What an edit session writes, `read_etc_env` reads back as the same dict. |
| EtcHosts.Octet | jujubigdata/utils.py:344 | One `\d{1,3}\.` group matches only at a leading digit, and what is left after it is strictly shorter. |
| EtcHosts.QuadOver | jujubigdata/utils.py:344 | Three 1-3 digit groups with their dots, then a digit, pass the address check. |
| EtcHosts.DottedQuadPasses | jujubigdata/utils.py:344-345 | Every rendered IPv4 address passes the address check, whatever follows it, since `re.match` anchors only at the start. |
| EtcHosts.NonDigitFails | jujubigdata/utils.py:344-345 | Text that does not start with a digit, such as a host name, fails the address check. |
| EtcHosts.HostLine | jujubigdata/utils.py:343-346 | A valid address gives exactly `addr fqdn host`. Otherwise the line is `# addr fqdn host  # INVALID IP`. |
| EtcHosts.HostLineFields | jujubigdata/utils.py:343-346 | For a valid address and fields without spaces, the written line splits at its spaces back into the address, the fqdn and the host name. |
| EtcHosts.Upsert | jujubigdata/utils.py:348-354 | Every matching line is replaced by the new line and every other line is untouched. The new line is appended exactly when no line matched. |
| EtcHosts.UpsertPlaces | jujubigdata/utils.py:348-354 | The new line is present afterwards, and non-matching lines keep their positions. |
| EtcHosts.UpsertIdempotent | jujubigdata/utils.py:348-354 | Once the written line itself matches, a second upsert changes nothing. |
| EtcHosts.UpsertReappends | jujubigdata/utils.py:345-354 | A written line that does not match its own address is appended again on every call. |
| EtcHosts.UpdateHostAsWritten | jujubigdata/utils.py:342-354 | One entry's update, as written, never loses lines and always leaves the entry's line in the file. |
| EtcHosts.UpdateEtcHostsAsWritten | jujubigdata/utils.py:341-357 | Updating all entries never shortens the file. |
| EtcHosts.UpdateHostAsWrittenIdempotent | jujubigdata/utils.py:341-357 | For a valid address, updating the same entry twice is updating it once. |
| EtcHosts.InvalidReappended | jujubigdata/utils.py:345-354 | An entry failing the address check gets its `# … # INVALID IP` line appended again on every call. |
| EtcHosts.PrefixClobbers | jujubigdata/utils.py:349-350 | As written: when one address extends another (`10.0.0.12` and `10.0.0.1`), the shorter one's update overwrites the longer one's line. |
| EtcHosts.PrefixClobbersExample | jujubigdata/utils.py:341-357 | Concretely, updating `10.0.0.12` and then `10.0.0.1` loses the `10.0.0.12` line. Field matching keeps it. |
| EtcHosts.UpdateHost | jujubigdata/utils.py:342-354 | Corrected update that matches on the address field: it never loses lines and always leaves the entry's line. |
| EtcHosts.UpdateEtcHosts | jujubigdata/utils.py:341-357 | The corrected update of all entries never shortens the file. |
| EtcHosts.UpdateHostIdempotent | jujubigdata/utils.py:341-357 | With the corrected match, updating a valid entry twice is updating it once. |
| EtcHosts.OtherHostLineKept | jujubigdata/utils.py:349 | With the corrected match, the line of one host is never taken for the line of another. |
| EtcHosts.OtherHostSurvives | jujubigdata/utils.py:348-354 | With the corrected match, one host's update keeps the line of any other host. |
| EtcHosts.UpdateKeepsEveryHost | jujubigdata/utils.py:341-357 | With the corrected match and distinct plain addresses, every entry's line is in the final file. |
| RunAs.WrapAll | jujubigdata/utils.py:314 | Each word is wrapped in single quotes, in order. |
| RunAs.QuoteCons | jujubigdata/utils.py:314 | The quoted command line is the first quoted word, a space, then the rest quoted. |
| RunAs.SplitQuote | jujubigdata/utils.py:313-314 | Cut at its quote marks, the command line has the words at the odd positions, provided no word holds a quote. |
| RunAs.QuoteRoundTrip | jujubigdata/utils.py:313-314 | Without quotes in the words, the quoted command line splits back into exactly the words. |
| RunAs.ApostropheBreaksQuoting | jujubigdata/utils.py:314 | Quotes are not escaped: the word `it's` comes back as two pieces. |
| RunAs.Run | jujubigdata/utils.py:300-319 | `run_as` fails exactly when `/etc/environment` cannot be read, and then with that error. The argument vector is `su user -c <quoted command line>`. The environment is `/etc/environment` updated by the caller's overrides. `capture_output` selects the capturing call. |
| RunAs.RunPassesWords | jujubigdata/utils.py:313-319 | The command `su` runs is exactly the command and its arguments, provided none of them holds a quote. |
| HadoopEnv.ExtendPathPrefix | jujubigdata/handlers.py:152-157 | The old `PATH` is a prefix of the new one. |
| HadoopEnv.ExtendPathContains | jujubigdata/handlers.py:152-157 | Afterwards `PATH` contains each of the three directories. |
| HadoopEnv.ExtendPathUnchanged | jujubigdata/handlers.py:152-157 | When every directory is already a substring, `PATH` is left alone. |
| HadoopEnv.ExtendPathIdempotent | jujubigdata/handlers.py:152-157 | Extending `PATH` twice is extending it once. |
| HadoopEnv.FirstMatch | jujubigdata/handlers.py:176 | Finds the leftmost position where `export JAVA_HOME *=` matches, or reports that none does. |
| HadoopEnv.EditLineMeaning | jujubigdata/handlers.py:175-177 | A line without a match is unchanged. Otherwise everything from the leftmost match to the end of the line becomes `export JAVA_HOME=<home>`. |
| HadoopEnv.EditLineIdempotent | jujubigdata/handlers.py:175-177 | Editing an edited line again changes nothing. |
| HadoopEnv.EditFile | jujubigdata/utils.py:183-187 | `re_edit_in_place` edits each line on its own and keeps the number of lines. |
| HadoopEnv.EditFileIdempotent | jujubigdata/handlers.py:174-177 | Editing `hadoop-env.sh` twice is editing it once. |
| HadoopEnv.Assign | jujubigdata/handlers.py:151-172 | Item assignment adds exactly the assigned names to the dict. |
| HadoopEnv.AssignLastWins | jujubigdata/handlers.py:151-172 | The last assignment to a name decides its value. |
| HadoopEnv.AssignKeeps | jujubigdata/handlers.py:151-172 | A name that nothing assigns keeps its value. |
| HadoopEnv.AssignDistinct | jujubigdata/handlers.py:151-172 | With distinct names, each name takes its value and every other key keeps its own. |
| HadoopEnv.AssignTwice | jujubigdata/handlers.py:151-172 | Repeating distinct assignments changes nothing. |
| HadoopEnv.Assignments | jujubigdata/handlers.py:151-172 | The 17 variables are set in source order. `JAVA_HOME` gets the Java home, `PATH` gets the extended value, and each directory variable gets its directory. |
| HadoopEnv.SetVars | jujubigdata/handlers.py:150-172 | The keys become the old keys plus the 17 variables, and the other keys are untouched. `JAVA_HOME` is the Java home. The new `PATH` starts with the old one, is its extension, and contains all three directories. The directory variables hold their paths. |
| HadoopEnv.SetVarsIdempotent | jujubigdata/handlers.py:150-172 | Setting the variables again changes nothing. |
| HadoopEnv.AssignmentsStable | jujubigdata/handlers.py:150-172 | The assignments computed from an already extended `PATH` are the same as from the original. |
| HadoopBase.New | jujubigdata/handlers.py:37-47 | Construction succeeds exactly when `dirs` names all of `hadoop`, `hadoop_conf`, `hdfs_log_dir` and `yarn_log_dir` and `hadoop_version` is present. A missing directory raises an error naming exactly the missing ones. The built object resolves paths with `DistConfig.path`. |
| HadoopBase.Run | jujubigdata/handlers.py:179-188 | Only the log changes, by at most one action. An unresolved Hadoop directory or an unreadable `/etc/environment` fails with that error and issues nothing. Otherwise exactly one `su user -c` action runs the Hadoop-relative command with its arguments, and it fails exactly when the world rejects that command line, with `CalledProcessError`. |
| HadoopBase.RunBlockerStable | jujubigdata/handlers.py:179-188 | What stops `run` depends only on the directories and `/etc/environment`, so a unit that differs only in its log is stopped by the same thing. |
| HadoopBase.ConfigureHostsFile | jujubigdata/handlers.py:87-103 | Corrected version. A missing file raises an I/O error and an empty file raises `IndexError`. Afterwards the unit's line is first. The file is unchanged exactly when the line already was first. Otherwise the line is prepended and the rest keeps its order. Nothing else changes. |
| HadoopBase.ConfigureHostsFileIdempotent | jujubigdata/handlers.py:87-103 | With the corrected comparison, running `configure_hosts_file` twice is running it once. |
| HadoopBase.ConfigureHostsFileAsWritten | jujubigdata/handlers.py:96-103 | As written. A missing file raises an I/O error and an empty file `IndexError`, and both leave the unit alone. Every other call prepends the unit's line, because `hosts[0]` keeps its newline and never equals it. Nothing else changes. |
| HadoopBase.RetainedNeverUnitLine | jujubigdata/handlers.py:96-101 | A line read with its terminator never equals the unit's line, which ends in a host name, a space or the comment text. |
| HadoopBase.HostsLineDuplicated | jujubigdata/handlers.py:87-103 | As written, running twice leaves two copies of the unit's line in front of the original file, so the call is not idempotent. |
| HadoopBase.HostsLineAlreadyFirst | jujubigdata/handlers.py:96-103 | On a file already headed by the unit's line, the corrected version changes nothing, while the code as written puts a second copy on top. |
| HadoopBase.InstallJava | jujubigdata/handlers.py:121-127 | Succeeds exactly when `/etc/environment` reads and the stripped installer output has exactly one newline. It then stores the stripped first line as `java.home` and the second as `java.version`. |
| HadoopBase.InstallJavaReadsReport | jujubigdata/handlers.py:124-127 | A two-line report `home\nversion\n` stores exactly `home` and `version`. |
| HadoopBase.EnvEdit | jujubigdata/handlers.py:150-172 | The edit raises `KeyError('PATH')` without a `PATH`. Otherwise it succeeds exactly when the directories resolve, and then sets the variables. |
| HadoopBase.EnvEditIdempotent | jujubigdata/handlers.py:150-172 | Editing an edited environment again changes nothing. |
| HadoopBase.EnvSession | jujubigdata/handlers.py:150-172 | The `/etc/environment` session succeeds exactly when the file parses and the edit succeeds. |
| HadoopBase.EnvSessionRoundTrip | jujubigdata/handlers.py:150-172 | The written `/etc/environment` reads back as the edited environment. |
| HadoopBase.EnvSessionStable | jujubigdata/handlers.py:150-172 | A second session over the written file writes it again unchanged. |
| HadoopBase.WriteEnvironment | jujubigdata/handlers.py:150-172 | A missing `/etc/environment` raises an I/O error. On success only that file changes. A failure leaves the unit alone. |
| HadoopBase.WriteEnvironmentAgain | jujubigdata/handlers.py:150-172 | A session whose output equals the file leaves the unit unchanged. |
| HadoopBase.EditJavaHome | jujubigdata/handlers.py:174-177 | A missing `hadoop-env.sh` raises an I/O error. Otherwise only that file changes, and it keeps its number of lines. |
| HadoopBase.EditJavaHomeAgain | jujubigdata/handlers.py:174-177 | Editing an already edited `hadoop-env.sh` leaves the unit unchanged. |
| HadoopBase.ConfigureHadoop | jujubigdata/handlers.py:145-177 | A missing `java.home` raises `TypeError`. Success needs the Hadoop directory, a parsable `/etc/environment` with `PATH`, the other directories, and `hadoop-env.sh`. On success `/etc/environment` holds what the edit session writes, and no file but it and `hadoop-env.sh` changes. Flags, kv, log and XML are untouched. |
| HadoopBase.ConfigureWith | jujubigdata/handlers.py:145-177 | With the Java home known and the Hadoop directory resolved, `configure_hadoop` succeeds exactly when `/etc/environment` exists, its edit session succeeds and `hadoop-env.sh` exists. `/etc/environment` then holds the session's output, and no file but it and `hadoop-env.sh` changes. |
| HadoopBase.HadoopEnvElsewhere | jujubigdata/handlers.py:174 | `hadoop-env.sh` under any configuration directory is neither `/etc/environment` nor `/etc/hosts`. |
| HadoopBase.ConfigureHadoopEnvironment | jujubigdata/handlers.py:145-172 | After `configure_hadoop`, `/etc/environment` reads back as the edited environment. |
| HadoopBase.ConfigureHadoopIdempotent | jujubigdata/handlers.py:145-177 | Running `configure_hadoop` twice is running it once. |
| HadoopBase.InstallBasePackages | jujubigdata/handlers.py:105-133 | Succeeds exactly when `/etc/environment` reads, the Java installer reports exactly two lines, and the Hadoop directory resolves. On success `java.home` and `java.version` are set, and the files are those of the unit with the Hadoop archive unpacked into the Hadoop directory. A failure leaves files and XML alone. The flags never change, and the log only grows. |
| HadoopBase.SetupHadoopConfig | jujubigdata/handlers.py:135-143 | An unresolved Hadoop directory fails with its error, and then an unresolved configuration directory with its own; either failure leaves the unit alone. Flags, kv and log never change. |
| HadoopBase.SetupHadoopConfigOutcome | jujubigdata/handlers.py:137-143 | With both directories resolved, the step succeeds exactly when the stock `mapred-site.xml` or its template exists outside the configuration directory (which `rmtree_p` empties before the copy). Otherwise it fails with the I/O error of copying the template. |
| HadoopBase.SetupHadoopConfigRestocks | jujubigdata/handlers.py:137-143 | After success nothing outside the configuration directory has changed. Inside it, `slaves` is gone, and every other name but `mapred-site.xml` is present exactly when the stock file of that name existed outside the directory, and then holds that file. `mapred-site.xml` is a copy of the stock file, or of the stock template when there is no stock file. |
| HadoopBase.SetupKeepsOutside | jujubigdata/handlers.py:137-143 | A file outside the configuration directory comes through the step as it was, in presence and content. |
| HadoopBase.SetupHadoopConfigForgets | jujubigdata/handlers.py:138-143 | The step reads nothing inside the configuration directory: two units that agree everywhere else get the same result, so a forced reinstall discards every edit made there. |
| HadoopBase.SetupHadoopConfigIdempotent | jujubigdata/handlers.py:135-143 | Running the step again on its own result changes nothing. |
| HadoopBase.RestockFacts | jujubigdata/handlers.py:138-139 | After `rmtree_p` and `copytree`, a path holds a file exactly when the path it is copied from (itself outside the configuration directory, the same relative path in the stock directory inside it) held one the removal spared, and then holds that file. |
| HadoopBase.CopyFile | jujubigdata/handlers.py:143 | `copy` raises an I/O error exactly when the source does not exist, and then leaves the unit alone. Flags, kv and log never change. |
| HadoopBase.CopyFileCopies | jujubigdata/handlers.py:143 | A successful copy makes the destination hold what the source holds, of either kind of file, and leaves every other path as it was. |
| HadoopBase.WithHadoopUnpacks | jujubigdata/handlers.py:129-133 | Unpacking the archive puts each member at its path below the Hadoop directory with the member's content. A path is present afterwards exactly when it was before or is a member's path, and every other file keeps its content. |
| HadoopBase.UnpackedStagesConf | jujubigdata/handlers.py:129-143 | An archive that ships `etc/hadoop/hadoop-env.sh` and the `mapred-site.xml` template, both outside the configuration directory, makes the copy succeed and leaves the shipped `hadoop-env.sh` in the configuration directory, whatever that directory held before. |
| HadoopBase.SetupAgreeBut | jujubigdata/handlers.py:135-143 | Two units that differ only in files whose names end in a character `c` (not `/`, `l` or `e`, which end the directories and names the step looks up) succeed alike, and their results still differ only in such files. |
| HadoopBase.Configure | jujubigdata/handlers.py:82-83 | `setup_hadoop_config` then `configure_hadoop` succeed exactly when `java.home` is stored, the copy succeeds, and on its result every directory resolves, `/etc/environment` parses and holds `PATH`, and `hadoop-env.sh` exists. Success writes the edit session's output over the `/etc/environment` the copy left, keeps the set of paths the copy left, and keeps the `/etc/hosts` the copy left. Flags and kv are unchanged. |
| HadoopBase.ConfigureKeeps | jujubigdata/handlers.py:82-83 | When the configuration directory does not hold them, success writes the environment over the unit's own `/etc/environment` and leaves `/etc/hosts` as it was. |
| HadoopBase.ConfigureReadyAgreeBut | jujubigdata/handlers.py:82-83 | Whether `setup_hadoop_config` and `configure_hadoop` can run does not depend on files whose names end in `s`, such as `/etc/hosts`. |
| HadoopBase.InstallSteps | jujubigdata/handlers.py:78-83 | The install steps after `configure_hosts_file` succeed exactly when `/etc/environment` reads, the installer reports two lines, the Hadoop directory resolves, and the copy and `configure_hadoop` can run on the unit with the Hadoop archive unpacked. Success stores the Java settings. The flags are unchanged. |
| HadoopBase.InstallStepsKeeps | jujubigdata/handlers.py:78-83 | When neither the archive nor the configuration directory covers them, success leaves the Hadoop variables written over the unit's own `/etc/environment`, and `/etc/hosts` as it was. |
| HadoopBase.Install | jujubigdata/handlers.py:74-85 | Unforced and already installed, nothing happens. A forced or first install succeeds exactly when `/etc/hosts` exists and is non-empty, `/etc/environment` reads, the installer reports two lines, and the copy and `configure_hadoop` can run once the archive is unpacked. Success raises exactly the installed flag and stores the Java settings. A failure leaves the flags as they were. |
| HadoopBase.InstallLeaves | jujubigdata/handlers.py:74-85 | When neither the archive nor the configuration directory covers them, a forced or first install that finishes leaves the unit's line first in `/etc/hosts` and the Hadoop variables in `/etc/environment`, written over the unit's own file. |
| HadoopBase.ConfigureHostsFileAgrees | jujubigdata/handlers.py:87-103 | `configure_hosts_file` changes no file but one whose name ends in `s`, and no flag, kv value or log entry. |
| HadoopBase.InstallFilesElsewhere | jujubigdata/handlers.py:77-83 | Two units that differ only in files whose names end in `s`, as `configure_hosts_file` leaves them, hold the same `/etc/environment` and are equally ready for the later install steps. |
| HadoopBase.InstallOnce | jujubigdata/handlers.py:74-85 | After a successful install, an unforced install changes nothing. |
| Services.Daemon | jujubigdata/handlers.py:334-338 | Only the log changes. An unresolved configuration directory, or whatever stops `run`, fails with that error and issues nothing. Otherwise exactly one action runs `su <user> -c '<hadoop>/<script>' '--config' '<conf>' '<command>' '<service>'`, and it fails exactly when the world rejects that command line, with `CalledProcessError`. |
| Services.RunEach | jujubigdata/handlers.py:340-341 | Only the log changes. When `run` is stopped, the first error and no action. Otherwise the commands are issued in order, each as `<hadoop>/<command> args`, and every one but the last issued succeeded. The run succeeds exactly when the world rejects none of them, and then all were issued. A failure is `CalledProcessError` of the last command issued, which the world rejects. |
| Services.RanEachCons | jujubigdata/handlers.py:340-341 | One successful command followed by a run of the rest is a run of all of them. |
| Services.RunEachAppend | jujubigdata/handlers.py:300-319 | Running two command lists one after the other is running their concatenation. The second list runs only when the first succeeded. |
| Services.DaemonIsRunEach | jujubigdata/handlers.py:334-341 | A daemon command is the one-command sequence of its script with `--config <conf> <command> <service>` as arguments. |
| Services.OneShot | jujubigdata/handlers.py:290-319 | With the flag set, nothing happens. Otherwise the commands run as `RunEach` runs them, and success raises exactly the flag. A failure leaves the flags unchanged. Only the log and the flags change. |
| Services.OneShotOnce | jujubigdata/handlers.py:290-319 | After a successful one-shot run, running it again issues nothing. |
| Services.Setting | jujubigdata/handlers.py:239-244 | `charm_config[key]` is the setting, or `KeyError(key)`. |
| Services.ToInt | jujubigdata/handlers.py:244 | `int(v)` keeps an integer and parses text, with the sign optionally followed by whitespace. On `None` it raises `TypeError`. |
| Text.SpaceAfterSign | jujubigdata/handlers.py:244 | Text made of a minus, a space and digits, such as `- 5`, parses to the negated digits. |
| Services.IntTextClean | jujubigdata/handlers.py:244 | The decimal text of an integer is already in written form and parses back to the integer. |
| Services.AddedOrder | jujubigdata/utils.py:226 | The added names, each once: assigned, and not in the document before. |
| Services.EditXml | jujubigdata/utils.py:218-243 | A missing file raises an I/O error. Otherwise only that document changes, and it is left in written form. |
| Services.SessionAssigns | jujubigdata/utils.py:223-243 | After assigning distinct names, the re-read document has the old names plus the assigned ones. Untouched names keep their values. An assigned name reads back as the normalised `str(v)`, or as its previous value when it existed and `v` is `None`. |
| Services.ExpectedAssigns | jujubigdata/utils.py:223-238 | The mapping a re-read should give after a sequence of assignments, entry by entry. |
| Services.EditXmlReadBack | jujubigdata/utils.py:218-243 | What the session on a host's file reads back as, in the terms of `SessionAssigns`. |
| Services.EditXmlValue | jujubigdata/utils.py:231-238 | One assignment of a session, read back. |
| Services.EditXmlStr | jujubigdata/utils.py:238-241 | An assigned text reads back as that text in written form. |
| Services.EditXmlInt | jujubigdata/utils.py:238 | An assigned integer reads back as its decimal text `str(n)`. |
| Services.EditXmlText | jujubigdata/utils.py:238-241 | An assigned text that is already in written form reads back unchanged. |
| Services.EditXmlKeeps | jujubigdata/utils.py:229-234 | A name that no assignment touches reads back as before. |
| Hdfs.HadoopDaemon | jujubigdata/handlers.py:334-338 | Unless a directory or `/etc/environment` stops it, issues exactly `sbin/hadoop-daemon.sh --config <conf> <command> <service>` as `hdfs`, and fails exactly when the world rejects it. |
| Hdfs.StartUnlessRunning | jujubigdata/handlers.py:198-222 | While `jps` lists the process, nothing happens. Otherwise exactly one start is issued unless something stops it first, and it fails exactly when the world rejects it. |
| Hdfs.StopNamenode | jujubigdata/handlers.py:195-196 | Issues exactly the namenode stop, unless a directory or `/etc/environment` stops it first. |
| Hdfs.StartNamenode | jujubigdata/handlers.py:198-204 | Nothing happens while a `NameNode` process runs. Otherwise it issues exactly the namenode start, unless something stops it first. |
| Hdfs.StopSecondaryNamenode | jujubigdata/handlers.py:206-207 | Issues exactly the secondary namenode stop, unless something stops it first. |
| Hdfs.StartSecondaryNamenode | jujubigdata/handlers.py:209-215 | Nothing happens while a `SecondaryNameNode` process runs. Otherwise it issues exactly the start, unless something stops it first. |
| Hdfs.StopDatanode | jujubigdata/handlers.py:217-218 | Issues exactly the datanode stop, unless something stops it first. |
| Hdfs.StartDatanode | jujubigdata/handlers.py:220-222 | Nothing happens while a `DataNode` process runs. Otherwise it issues exactly the start, unless something stops it first. |
| Hdfs.FormatNamenode | jujubigdata/handlers.py:290-298 | With the flag set, nothing happens. When a directory or `/etc/environment` stops the commands, that error and nothing issued. Otherwise the namenode stop is issued, then, only if it succeeded, `hdfs namenode -format -noninteractive`. The whole succeeds exactly when the world rejects neither, and a failure is `CalledProcessError` of the one it rejected. Success raises exactly the flag. A failure leaves the flags unchanged. |
| Hdfs.FormatNamenodeOnce | jujubigdata/handlers.py:290-298 | After a successful format, formatting again issues nothing. |
| Hdfs.CreateHdfsDirs | jujubigdata/handlers.py:300-319 | With the flag set, nothing happens. Otherwise the fourteen `hdfs dfs` commands are issued in order until one fails, as `RunEach` states. Success means all were issued and raises exactly the flag. A failure leaves the flags unchanged. |
| Hdfs.RegisterSlaves | jujubigdata/handlers.py:321-332 | The slaves file becomes the two header comments followed by the host names, and its ownership change is recorded. |
| Hdfs.SlavesReadBack | jujubigdata/handlers.py:321-331 | Reading the slaves file without its comments gives exactly the registered host names, in order. |
| Hdfs.ConfigureHdfsBase | jujubigdata/handlers.py:274-288 | Succeeds exactly when the configuration directory resolves, both site files exist and `hdfs_dir_base` resolves. Only those two documents change, and both are left in written form. |
| Hdfs.ConfigureHdfsBaseValues | jujubigdata/handlers.py:274-288 | Afterwards `fs.defaultFS` is `hdfs://host:port`. `dfs.webhdfs.enabled` is `true` and `dfs.permissions` is `false`. Both the name and the data dir are `<hdfs_dir_base>/cache/hadoop/dfs/name`. |
| Hdfs.CoreSiteValues | jujubigdata/handlers.py:277-278 | The `core-site.xml` session sets `fs.defaultFS` to `hdfs://host:port`. |
| Hdfs.HdfsSiteValues | jujubigdata/handlers.py:283-288 | The `hdfs-site.xml` session sets the four base values. |
| Hdfs.DefaultFSParts | jujubigdata/handlers.py:278 | `hdfs://host:port` splits at `:` into the scheme, `//host` and the port. |
| Hdfs.NamenodeSite | jujubigdata/handlers.py:239-246 | The namenode settings exist exactly when `dfs_replication` and `dfs_blocksize` are configured, the block size is an integer, and the web port resolves. A missing replication raises `KeyError`. |
| Hdfs.ConfigureNamenode | jujubigdata/handlers.py:237-248 | Succeeds exactly when the namenode port resolves, the base configuration with the unit's address succeeds, and the namenode settings exist. Only XML documents change. |
| Hdfs.NamenodeValues | jujubigdata/handlers.py:237-246 | Afterwards `dfs.blocksize` parses back to `int(dfs_blocksize)`, the hostname check is `true`, and the namenode web address is `0.0.0.0:<nn_webapp_http>`. |
| Hdfs.NamenodeSiteValues | jujubigdata/handlers.py:242-246 | The namenode session on a written file gives those three values. |
| Hdfs.NamenodeBlocksize | jujubigdata/handlers.py:244 | An integer block size is written as its decimal text. |
| Hdfs.NamenodeCheck | jujubigdata/handlers.py:245 | The registration hostname check is written as `true`. |
| Hdfs.NamenodeHttp | jujubigdata/handlers.py:246 | The namenode web address listens on every interface at the given port. |
| Hdfs.ConfigureDatanode | jujubigdata/handlers.py:262-269 | Succeeds exactly when the base configuration succeeds and the datanode web port resolves. Only XML documents change. |
| Hdfs.DatanodeValues | jujubigdata/handlers.py:262-267 | Afterwards the datanode web address is `0.0.0.0:<dn_webapp_http>`. |
| Yarn.YarnDaemon | jujubigdata/handlers.py:434-438 | Unless something stops it first, issues exactly `sbin/yarn-daemon.sh --config <conf> <command> <service>` as `yarn`, and fails exactly when the world rejects it. |
| Yarn.JobhistoryDaemon | jujubigdata/handlers.py:440-445 | Unless something stops it first, issues exactly `sbin/mr-jobhistory-daemon.sh --config <conf> <command> <service>` as `mapred`, and fails exactly when the world rejects it. |
| Yarn.StopResourcemanager | jujubigdata/handlers.py:348-349 | Issues exactly the resource manager stop, unless something stops it first. |
| Yarn.StartResourcemanager | jujubigdata/handlers.py:351-353 | Nothing happens while a `ResourceManager` process runs. Otherwise it issues exactly the start, unless something stops it first. |
| Yarn.StopNodemanager | jujubigdata/handlers.py:363-364 | Issues exactly the node manager stop, unless something stops it first. |
| Yarn.StartNodemanager | jujubigdata/handlers.py:366-368 | Nothing happens while a `NodeManager` process runs. Otherwise it issues exactly the start, unless something stops it first. |
| Yarn.StopJobhistory | jujubigdata/handlers.py:355-356 | Issues exactly the history server stop, unless something stops it first. |
| Yarn.StartJobhistory | jujubigdata/handlers.py:358-361 | Without a running `JobHistoryServer`, it is exactly the history server start. With one, the stop comes first: a failed stop is the result, and otherwise the start follows, so success issues two commands. |
| Yarn.StartAfterStop | jujubigdata/handlers.py:358-361 | A successful stop changes only the log, so the start after it is stopped by exactly what would have stopped it before. |
| Yarn.LogServerUrlHost | jujubigdata/handlers.py:414-415 | The log server URL never names `0.0.0.0`. Its host is `localhost` exactly when the host is `0.0.0.0` or `localhost`, and otherwise it is the host itself. |
| Yarn.LocalUrl | jujubigdata/handlers.py:414-415 | For the wildcard host the URL is `localhost:<rm_log>/jobhistory/logs/`. |
| Yarn.ConfigureYarnBase | jujubigdata/handlers.py:407-419 | Succeeds exactly when the configuration directory resolves, both site files exist and both ports resolve. Only those two documents change, and both are left in written form. |
| Yarn.YarnSiteValues | jujubigdata/handlers.py:409-415 | The `yarn-site.xml` session gives `mapreduce_shuffle`, the host, `host:port`, and the log server URL. |
| Yarn.YarnSiteAt | jujubigdata/handlers.py:410-415 | Each of the four `yarn-site.xml` assignments reads back as its written form. |
| Yarn.MapredSiteValues | jujubigdata/handlers.py:416-419 | The `mapred-site.xml` session gives `host:<jobhistory>` and the framework `yarn`. |
| Yarn.ConfigureYarnBaseValues | jujubigdata/handlers.py:407-419 | Afterwards the log server URL, the job history address and the framework name hold their derived values. |
| Yarn.ConfigureResourcemanager | jujubigdata/handlers.py:382-389 | Succeeds exactly when the resource manager port resolves, the base configuration on `0.0.0.0` succeeds, and the web port resolves. |
| Yarn.ResourcemanagerValues | jujubigdata/handlers.py:382-388 | Afterwards the log server URL uses `localhost`, and the web address is `0.0.0.0:<rm_webapp_http>`. |
| Yarn.ResourcemanagerKeepsUrl | jujubigdata/handlers.py:386-388 | The resource manager session keeps the log server URL the base wrote. |
| Yarn.ResourcemanagerUrl | jujubigdata/handlers.py:383 | The base configuration on `0.0.0.0` writes the `localhost` log server URL. |
| Yarn.ResourcemanagerWeb | jujubigdata/handlers.py:388 | The web address listens on every interface. |
| Yarn.ConfigureJobhistory | jujubigdata/handlers.py:392-399 | Succeeds exactly when the resource manager port resolves, the base configuration on `0.0.0.0` succeeds, and the history web port resolves. |
| Yarn.JobhistoryValues | jujubigdata/handlers.py:392-399 | Afterwards both history addresses are `0.0.0.0:<port>`, overriding what the base wrote, and the framework name is `yarn`. |
| Yarn.JobhistoryKeepsFramework | jujubigdata/handlers.py:396-399 | The history session keeps the framework name the base wrote. |
| Yarn.JobhistoryFramework | jujubigdata/handlers.py:393 | The base configuration writes framework `yarn`. |
| Yarn.JobhistoryAddresses | jujubigdata/handlers.py:398-399 | Both history addresses listen on every interface. |
| Yarn.InstallDemo | jujubigdata/handlers.py:421-432 | With the flag set, nothing happens. A missing demo source raises an I/O error and leaves the unit alone. Success copies the script, sets mode 0755 and owner `ubuntu:hadoop`, then raises exactly the flag. |
| Yarn.InstallDemoOnce | jujubigdata/handlers.py:421-432 | After a successful install, installing the demo again changes nothing. |
| Yarn.InstallDemoCopies | jujubigdata/handlers.py:428 | The target holds the demo's content, and every other file is untouched. |

## Left out

- Subprocesses are not run. Only commands with effects are logged: `su` invocations, the Java installer, and the chmod, chown and copy steps. The `hostname` and `hostname -f` queries are answered by `World` fields, and so is `pgrep` behind `jps`, which becomes the set of processes the world reports as running; none of these adds a log entry. A failing `hostname` (`CalledProcessError`) is not modelled. The world also lists the command lines that would fail. `ufw` is left out with `disable_firewall`, below.
- `disable_firewall`, the `jps` pattern construction, `time.sleep` settle delays and the `wait_for_hdfs` polling loop are left out. They depend on the firewall, the process table or wall-clock time.
- XML parsing and `minidom` pretty-printing are left out. A document is its sequence of `<property>` elements. The text normalisation the writer applies (strip; empty becomes absent) is modelled.
- YAML loading is left out. The descriptor is the loaded mapping, and only `dirs` and `ports` are given structure.
- The unitdata kv store is an in-memory flag set and string map on `Host`. `get_kv_hosts`, `update_kv_host`, the JSON round trip through `ast.literal_eval`, and `spec()` are left out.
- `add_users`, `add_dirs` and `add_packages` are recorded as opaque steps. `install_hadoop` unpacks the archive the world holds (`World.hadoopFiles` and `hadoopXml`, keyed by member path with the top-level directory already stripped). `verify_resources` and all `jujuresources`/`charmhelpers` fetching are left out.
- Directories are not tracked, only the files and XML documents by path. A path holding both a text file and an XML document is copied in both.
- The `remove_*` methods only log, and `normalize_strbool` is a thin wrapper over `strtobool`. Both are left out.
- Relation data (`_remote`, `helpers.any_ready_unit`, `all_ready_units`) becomes parameters. `configure_secondarynamenode`, both `configure_client`s and `configure_nodemanager` only call the base configuration with that data. `Hdfs.ConfigureHdfsBase` and `Yarn.ConfigureYarnBase` cover them for arbitrary host and port.
- Python's dict and set iteration order is a parameter (`order`). The rewrite and the added-element order are stated for every enumeration.
- `DistConfigs.Format`: the `{{` and `}}` escapes and the `{dirs[..]}` and `{config[..]}` replacement fields are interpreted. Any other replacement field (attribute access, conversions, format specs, nested fields) is a format error, so `str.format`'s full grammar is not modelled.
- `HadoopEnv.EditLine`: `re_edit_in_place` is modelled only for the one pattern the core passes it, `export JAVA_HOME *=.*`, on lines without terminators. General regular expressions are not modelled.
- `EtcHosts.LeadingDottedQuad`: `re.match` of `\d{1,3}\.\d{1,3}\.\d{1,3}\.\d{1,3}` is modelled as an ASCII-digit prefix matcher. `re` is not modelled in general.
- `HadoopBase.ConfigureHadoop`: a missing `java.home` is modelled as `TypeError`, which is what `Path(None)` raises.
- `HadoopBase.InstallBasePackages`: unpacking never fails. A failed fetch or a corrupt archive is not modelled.
- `HadoopBase.SetupHadoopConfig`: `copytree` of a missing stock directory raises `OSError` in the code. Without tracked directories, a stock directory holding no file copies nothing, and the step then fails with the I/O error of copying the template instead.
- `HadoopBase.Configure`: the final `/etc/environment` and `/etc/hosts` are stated (in `ConfigureKeeps`) only when the configuration directory does not hold those paths. The copy replaces them otherwise, and the model promises nothing about what the edit then writes.
- `HadoopBase.InstallSteps`: the same holds, and in `InstallStepsKeeps` the archive must not cover those paths either.
- `HadoopBase.Install`: the same holds for `InstallLeaves`.
- `Hdfs.CoreSiteValues`: states only `fs.defaultFS`. The four `hadoop.proxyuser.*` settings (`*`) are written but not restated.
- `Hdfs.NamenodeValues`: does not state what `dfs.replication` reads back as. The configured value may be any Python value, and it is written through `str()` like any other.
- `Hdfs.ConfigureHdfsBaseValues`: requires both site files to be in written form, as any earlier session leaves them. A hand-written file with stray whitespace reads back normalised, which is covered by `PropMaps.SessionReadBack`.
- `Yarn.ConfigureYarnBaseValues`: requires both site files to be in written form, for the same reason.
- `Yarn.ResourcemanagerValues`: requires `yarn-site.xml` to be in written form.
- `Yarn.JobhistoryValues`: requires `mapred-site.xml` to be in written form.
- `RunAs.Run`: the quoting does not escape `'`. A word holding one is not recovered, as `RunAs.ApostropheBreaksQuoting` shows.
- `DistConfigs.PortLookup`: assumes unique entry names, as the keys of a YAML mapping are.
- `EtcHosts.UpdateKeepsEveryHost`: assumes distinct plain addresses, meaning non-empty, not starting with `#`, and without whitespace.
- `HadoopBase.ConfigureHostsFileAsWritten`: every line of `/etc/hosts` is taken to end in a newline, as `write_lines` leaves it. A one-line file whose only line lacks the newline and is already the unit's line is left alone by the code, and that case is not modelled.
- `PropMaps.Snapshot`: a `<property>` without a `<name>` or `<value>` child makes the code raise `AttributeError`. A document here is its sequence of well-formed elements, so that error is not modelled.
- `PropMaps.Str`: `str()` of a non-ASCII unicode value raises `UnicodeEncodeError` under Python 2. Values are modelled as byte strings, integers and `None`, so that error is not modelled.
- `HadoopEnv.EditLine`: `re.sub` treats its replacement as a template, so a Java home holding `\` or `\g<..>` is rewritten before it is written. The model writes the Java home literally.
- `EtcHosts.UpdateEtcHostsAsWritten`: an entry missing `private-address`, `hostfqdn` or `hostname` makes the code raise `KeyError`. An entry here is a typed triple, so that error is not modelled. The same holds for `EtcHosts.UpdateEtcHosts`.
- `Services.ToInt`: text is parsed as ASCII decimal digits with an optional sign. Unicode digits, a trailing `L` and other bases are not modelled.
- `EtcEnv.SessionRoundTrip`: the round trip is stated for keys and values without line breaks, since a value holding one is written as two lines. `EtcEnv.SessionThenRead`, `HadoopBase.EnvSessionRoundTrip`, `HadoopBase.EnvSessionStable`, `HadoopBase.ConfigureHadoopEnvironment` and `HadoopBase.ConfigureHadoopIdempotent` share that premise.

## Findings

| source | as written | input that shows it | evidently intended | confidence | as-written member | corrected member |
|---|---|---|---|---|---|---|
| jujubigdata/utils.py:349 | `update_etc_hosts` replaces every line that merely starts with the address text | Hosts `10.0.0.12` and then `10.0.0.1`. The second update overwrites the first host's line, which is then missing from `/etc/hosts`. | Replace only the lines whose first field is the address. Every host's line then survives. | high; not executed | EtcHosts.PrefixClobbers | EtcHosts.UpdateKeepsEveryHost |
| jujubigdata/handlers.py:96-103 | `configure_hosts_file` compares `hosts[0]`, which `lines()` returns with its newline, against the unit's line, which has none | A forced install on a unit whose `/etc/hosts` already starts with its own line. The code puts a second copy of the line on top, and one more on every later forced install. | Prepend the line only when it is not already first, which makes the call idempotent. | high; not executed | HadoopBase.HostsLineAlreadyFirst | HadoopBase.ConfigureHostsFile |

=== FILE: distconfig.dfy ===
/** The distribution descriptor (`DistConfig`): validation of the required
    top-level keys, resolution of directory path templates, and port lookups.

    The descriptor document is the already-loaded YAML mapping. Only the two
    sections the core interprets are given structure (`dirs`, `ports`); every
    other section is carried as an opaque value.
 */
module DistConfigs {
  import opened Results
  import opened Text

  /** One entry of the `dirs` section; `owner`, `group` and `perms` only matter
      to directory creation and are not modelled. */
  datatype DirSpec = DirSpec(path: Option<string>)

  /** One entry of the `ports` section, listed as one enumeration of the mapping gives them. */
  datatype PortSpec = PortSpec(name: string, port: Option<int>, exposedOn: Option<string>)

  datatype Section =
    | DirTable(dirs: map<string, DirSpec>)
    | PortTable(ports: seq<PortSpec>)
    | Opaque

  /** A constructed descriptor: the required sections become attributes. */
  datatype DistConfig = DistConfig(yamlFile: string, attrs: map<string, Section>)

  /** Keys of `required` that the document lacks. */
  function Missing(doc: map<string, Section>, required: seq<string>): set<string> {
    set k | k in required && k !in doc
  }

  /** `DistConfig(filename, required_keys)` over an already-parsed document.
      `required = None` passes the missing-keys test (`required_keys or []`)
      and then fails iterating `None`. */
  function New(filename: string, doc: map<string, Section>, required: Option<seq<string>>): (r: Result<DistConfig>)
    ensures required.None? ==> r == Err(NotIterable)
    ensures required.Some? ==>
              (r.Ok? <==> forall i :: 0 <= i < |required.value| ==> required.value[i] in doc)
    ensures required.Some? && r.Err? ==>
              r.error == MissingKeys(Missing(doc, required.value)) && Missing(doc, required.value) != {}
    ensures r.Ok? ==> r.value.yamlFile == filename
                      && (forall k :: k in r.value.attrs <==> k in required.value)
                      && (forall k :: k in r.value.attrs ==> k in doc && r.value.attrs[k] == doc[k])
  {
    var wanted := if required.Some? then required.value else [];
    var missing := Missing(doc, wanted);
    if missing != {} then Err(MissingKeys(missing))
    else if required.None? then Err(NotIterable)
    else
      assert forall k :: k in wanted ==> k in doc by {
        forall k | k in wanted ensures k in doc {
          assert k in doc || k in missing;
        }
      }
      Ok(DistConfig(filename, map k | k in required.value :: doc[k]))
  }

  /** The `dirs` attribute, present only when `dirs` was a required key. */
  function Dirs(dc: DistConfig): Result<map<string, DirSpec>> {
    if "dirs" in dc.attrs && dc.attrs["dirs"].DirTable? then Ok(dc.attrs["dirs"].dirs)
    else Err(AttributeError("dirs"))
  }

  /** The `ports` attribute, present only when `ports` was a required key. */
  function Ports(dc: DistConfig): Result<seq<PortSpec>> {
    if "ports" in dc.attrs && dc.attrs["ports"].PortTable? then Ok(dc.attrs["ports"].ports)
    else Err(AttributeError("ports"))
  }

  /** `{name: dirs[name]['path'] for name in dirs}`: every entry needs a `path`. */
  function Templates(dirs: map<string, DirSpec>): (r: Result<map<string, string>>)
    ensures r.Ok? <==> forall k :: k in dirs ==> dirs[k].path.Some?
    ensures r.Ok? ==> r.value.Keys == dirs.Keys
                      && forall k :: k in dirs ==> r.value[k] == dirs[k].path.value
  {
    if forall k :: k in dirs ==> dirs[k].path.Some? then Ok(map k | k in dirs :: dirs[k].path.value)
    else Err(KeyError("path"))
  }

  /** Value of one `{dirs[name]}` / `{config[name]}` index. `str.format`
      rejects an empty index and one its field-name parser cuts short (a
      `:` or `!` ends the field name before the closing `]`), turns an
      all-digit index into an integer key (which a string-keyed mapping
      never holds) and otherwise looks it up. */
  function Index(m: map<string, string>, name: string): Result<string> {
    if name == [] || ']' in name || '{' in name || ':' in name || '!' in name then Err(FormatError(name))
    else if AllDigits(name) then Err(KeyError(name))
    else if name in m then Ok(m[name])
    else Err(KeyError(name))
  }

  /** Value of the replacement field `{field}`. */
  function Field(field: string, config: map<string, string>, dirs: map<string, string>): Result<string> {
    if StartsWith(field, "dirs[") && |field| >= 6 && field[|field| - 1] == ']' then
      Index(dirs, field[5..|field| - 1])
    else if StartsWith(field, "config[") && |field| >= 8 && field[|field| - 1] == ']' then
      Index(config, field[7..|field| - 1])
    else Err(FormatError(field))
  }

  function Prepend(head: string, rest: Result<string>): Result<string> {
    if rest.Ok? then Ok(head + rest.value) else rest
  }

  /** `template.format(config=config, dirs=dirs)`, restricted to `{{`, `}}`
      and the two indexed field forms. */
  function Format(s: string, config: map<string, string>, dirs: map<string, string>): (r: Result<string>)
    ensures r.Err? ==> r.error.FormatError? || r.error.KeyError?
    decreases |s|
  {
    if |s| == 0 then Ok("")
    else if s[0] == '{' then
      if |s| >= 2 && s[1] == '{' then Prepend("{", Format(s[2..], config, dirs))
      else
        match IndexOf(s, '}', 1)
        case None => Err(FormatError(s))
        case Some(j) =>
          var v := Field(s[1..j], config, dirs);
          if v.Err? then v else Prepend(v.value, Format(s[j + 1..], config, dirs))
    else if s[0] == '}' then
      if |s| >= 2 && s[1] == '}' then Prepend("}", Format(s[2..], config, dirs))
      else Err(FormatError(s))
    else Prepend([s[0]], Format(s[1..], config, dirs))
  }

  /** A template without braces formats to itself. */
  lemma {:induction false} FormatPlain(s: string, config: map<string, string>, dirs: map<string, string>)
    requires '{' !in s && '}' !in s
    ensures Format(s, config, dirs) == Ok(s)
    decreases |s|
  {
    if |s| > 0 {
      FormatPlain(s[1..], config, dirs);
      assert [s[0]] + s[1..] == s;
    }
  }

  /** Upper bound on substitution passes before `path` gives up. */
  const MaxLevels: nat := 100

  /** The loop of `DistConfig.path`, one iteration per call: stop when no `{`
      is left or the last pass changed nothing, give up once the pass count
      would exceed `MaxLevels`. */
  function ResolveFrom(path: string, prev: Option<string>, levels: nat, key: string,
                       config: map<string, string>, dirs: map<string, string>): Result<string>
    requires levels <= MaxLevels
    decreases MaxLevels - levels
  {
    if !('{' in path) || prev == Some(path) then Ok(path)
    else if levels + 1 > MaxLevels then Err(NestingTooDeep(key))
    else
      var next := Format(path, config, dirs);
      if next.Err? then next else ResolveFrom(next.value, Some(path), levels + 1, key, config, dirs)
  }

  /** `dist_config.path(key)`. */
  function Path(dc: DistConfig, config: map<string, string>, key: string): Result<string> {
    var dirs :- Dirs(dc);
    var templates :- Templates(dirs);
    if key !in dirs then Err(KeyError(key))
    else ResolveFrom(templates[key], None, 0, key, config, templates)
  }

  /** `n` formatting passes over `p`, stopping at the first failure. */
  function Passes(p: string, n: nat, config: map<string, string>, dirs: map<string, string>): Result<string> {
    if n == 0 then Ok(p)
    else
      var q := Passes(p, n - 1, config, dirs);
      if q.Err? then q else Format(q.value, config, dirs)
  }

  /** After `n` passes the loop would still go on: every pass so far succeeded,
      a `{` is left, and the last pass changed something. */
  ghost predicate Unsettled(p: string, n: nat, config: map<string, string>, dirs: map<string, string>) {
    Passes(p, n, config, dirs).Ok?
    && '{' in Passes(p, n, config, dirs).value
    && (n == 0 || Passes(p, n - 1, config, dirs) != Passes(p, n, config, dirs))
  }

  /** Where the loop stands after `k` passes: the current path and the one before. */
  function PrevAfter(p: string, k: nat, config: map<string, string>, dirs: map<string, string>): Option<string> {
    if k == 0 then None
    else
      var q := Passes(p, k - 1, config, dirs);
      if q.Ok? then Some(q.value) else None
  }

  /** One more pass after `k` successful ones. */
  lemma PassesStep(p: string, k: nat, config: map<string, string>, dirs: map<string, string>)
    requires Passes(p, k, config, dirs).Ok?
    ensures Passes(p, k + 1, config, dirs) == Format(Passes(p, k, config, dirs).value, config, dirs)
  {
  }

  /** One iteration of the loop body when the loop does not stop. */
  lemma ResolveStep(path: string, prev: Option<string>, levels: nat, key: string,
                    config: map<string, string>, dirs: map<string, string>)
    requires levels < MaxLevels && '{' in path && prev != Some(path)
    ensures ResolveFrom(path, prev, levels, key, config, dirs)
         == (var next := Format(path, config, dirs);
             if next.Err? then next else ResolveFrom(next.value, Some(path), levels + 1, key, config, dirs))
  {
  }

  /** The loop state after `k` unsettled passes, as the recursion sees it. */
  lemma {:induction false} ResolveAfter(p: string, k: nat, key: string,
                                       config: map<string, string>, dirs: map<string, string>)
    requires k <= MaxLevels
    requires forall i :: 0 <= i < k ==> Unsettled(p, i, config, dirs)
    requires Passes(p, k, config, dirs).Ok?
    ensures ResolveFrom(p, None, 0, key, config, dirs)
         == ResolveFrom(Passes(p, k, config, dirs).value, PrevAfter(p, k, config, dirs), k, key, config, dirs)
  {
    if k > 0 {
      var j := k - 1;
      assert Unsettled(p, j, config, dirs);
      var cur := Passes(p, j, config, dirs).value;
      var prev := PrevAfter(p, j, config, dirs);
      assert ResolveFrom(p, None, 0, key, config, dirs) == ResolveFrom(cur, prev, j, key, config, dirs) by {
        ResolveAfter(p, j, key, config, dirs);
      }
      assert ResolveFrom(cur, prev, j, key, config, dirs)
          == ResolveFrom(Passes(p, k, config, dirs).value, Some(cur), k, key, config, dirs) by {
        PrevDiffers(p, j, config, dirs);
        PassesStep(p, j, config, dirs);
        ResolveStep(cur, prev, j, key, config, dirs);
      }
      assert PrevAfter(p, k, config, dirs) == Some(cur);
    }
  }

  /** While the loop is unsettled, the previous path differs from the current one. */
  lemma PrevDiffers(p: string, j: nat, config: map<string, string>, dirs: map<string, string>)
    requires forall i :: 0 <= i <= j ==> Unsettled(p, i, config, dirs)
    ensures Passes(p, j, config, dirs).Ok?
    ensures PrevAfter(p, j, config, dirs) != Some(Passes(p, j, config, dirs).value)
  {
    assert Unsettled(p, j, config, dirs);
    if j > 0 {
      assert Unsettled(p, j, config, dirs);
      assert Unsettled(p, j - 1, config, dirs);
    }
  }

  /** Resolution gives up exactly when 100 passes all leave an unsettled
      path behind: it never needs a 101st pass and never loops. */
  lemma ResolveTooDeepIff(p: string, key: string, config: map<string, string>, dirs: map<string, string>)
    ensures ResolveFrom(p, None, 0, key, config, dirs) == Err(NestingTooDeep(key))
            <==> forall i :: 0 <= i <= MaxLevels ==> Unsettled(p, i, config, dirs)
  {
    if forall i :: 0 <= i <= MaxLevels ==> Unsettled(p, i, config, dirs) {
      AllUnsettledGivesUp(p, key, config, dirs);
    } else {
      SomeSettledSucceedsOrFails(p, key, config, dirs);
    }
  }

  lemma AllUnsettledGivesUp(p: string, key: string, config: map<string, string>, dirs: map<string, string>)
    requires forall i :: 0 <= i <= MaxLevels ==> Unsettled(p, i, config, dirs)
    ensures ResolveFrom(p, None, 0, key, config, dirs) == Err(NestingTooDeep(key))
  {
    PrevDiffers(p, MaxLevels, config, dirs);
    ResolveAfter(p, MaxLevels, key, config, dirs);
    var cur := Passes(p, MaxLevels, config, dirs).value;
    assert '{' in cur by {
      assert Unsettled(p, MaxLevels, config, dirs);
    }
  }

  lemma SomeSettledSucceedsOrFails(p: string, key: string, config: map<string, string>, dirs: map<string, string>)
    requires exists k :: 0 <= k <= MaxLevels && !Unsettled(p, k, config, dirs)
    ensures ResolveFrom(p, None, 0, key, config, dirs) != Err(NestingTooDeep(key))
  {
    FirstSettled(p, config, dirs);
    var k :| 0 <= k <= MaxLevels && !Unsettled(p, k, config, dirs)
             && forall i :: 0 <= i < k ==> Unsettled(p, i, config, dirs);
    if Passes(p, k, config, dirs).Ok? {
      SettledStops(p, k, key, config, dirs);
    } else {
      FailedPassStops(p, k, key, config, dirs);
      PassesErrors(p, k, config, dirs);
    }
  }

  /** Passes only ever fail the way `str.format` does. */
  lemma {:induction false} PassesErrors(p: string, k: nat, config: map<string, string>, dirs: map<string, string>)
    ensures Passes(p, k, config, dirs).Err? ==>
              Passes(p, k, config, dirs).error.FormatError? || Passes(p, k, config, dirs).error.KeyError?
  {
    if k > 0 {
      PassesErrors(p, k - 1, config, dirs);
    }
  }

  /** The first settled state ends the loop with that path. */
  lemma SettledStops(p: string, k: nat, key: string, config: map<string, string>, dirs: map<string, string>)
    requires k <= MaxLevels && forall i :: 0 <= i < k ==> Unsettled(p, i, config, dirs)
    requires Passes(p, k, config, dirs).Ok? && !Unsettled(p, k, config, dirs)
    ensures ResolveFrom(p, None, 0, key, config, dirs) == Passes(p, k, config, dirs)
  {
    ResolveAfter(p, k, key, config, dirs);
    var cur := Passes(p, k, config, dirs).value;
    if '{' in cur {
      assert k > 0 && Passes(p, k - 1, config, dirs) == Passes(p, k, config, dirs);
      assert PrevAfter(p, k, config, dirs) == Some(cur);
    }
  }

  /** A pass that fails ends the loop with that failure. */
  lemma FailedPassStops(p: string, k: nat, key: string, config: map<string, string>, dirs: map<string, string>)
    requires k <= MaxLevels && forall i :: 0 <= i < k ==> Unsettled(p, i, config, dirs)
    requires Passes(p, k, config, dirs).Err?
    ensures ResolveFrom(p, None, 0, key, config, dirs) == Passes(p, k, config, dirs)
  {
    assert k > 0;
    var j := k - 1;
    PrevDiffers(p, j, config, dirs);
    ResolveAfter(p, j, key, config, dirs);
    PassesStep(p, j, config, dirs);
    assert Unsettled(p, j, config, dirs);
    ResolveStep(Passes(p, j, config, dirs).value, PrevAfter(p, j, config, dirs), j, key, config, dirs);
  }

  /** If some pass settles, there is a first one. */
  lemma FirstSettled(p: string, config: map<string, string>, dirs: map<string, string>)
    requires exists k :: 0 <= k <= MaxLevels && !Unsettled(p, k, config, dirs)
    ensures exists k :: 0 <= k <= MaxLevels && !Unsettled(p, k, config, dirs)
                        && forall i :: 0 <= i < k ==> Unsettled(p, i, config, dirs)
  {
    var k :| 0 <= k <= MaxLevels && !Unsettled(p, k, config, dirs);
    var j := 0;
    while j < k && Unsettled(p, j, config, dirs)
      invariant 0 <= j <= k
      invariant forall i :: 0 <= i < j ==> Unsettled(p, i, config, dirs)
    {
      j := j + 1;
    }
  }

  /** A settled state that still holds a `{` is a fixed point of formatting. */
  lemma SettledIsFixedPoint(p: string, k: nat, config: map<string, string>, dirs: map<string, string>)
    requires Passes(p, k, config, dirs).Ok? && !Unsettled(p, k, config, dirs)
    requires '{' in Passes(p, k, config, dirs).value
    ensures Format(Passes(p, k, config, dirs).value, config, dirs) == Passes(p, k, config, dirs)
  {
    assert k > 0 && Passes(p, k - 1, config, dirs) == Passes(p, k, config, dirs);
    PassesStep(p, k - 1, config, dirs);
  }

  /** How a resolution that does not give up ends: at the first settled pass. */
  lemma FirstSettledResult(p: string, key: string, config: map<string, string>, dirs: map<string, string>)
    requires ResolveFrom(p, None, 0, key, config, dirs).Ok?
    ensures exists k :: 0 <= k <= MaxLevels && Passes(p, k, config, dirs).Ok? && !Unsettled(p, k, config, dirs)
                        && ResolveFrom(p, None, 0, key, config, dirs) == Passes(p, k, config, dirs)
  {
    if forall i :: 0 <= i <= MaxLevels ==> Unsettled(p, i, config, dirs) {
      AllUnsettledGivesUp(p, key, config, dirs);
    } else {
      FirstSettled(p, config, dirs);
      var k :| 0 <= k <= MaxLevels && !Unsettled(p, k, config, dirs)
               && forall i :: 0 <= i < k ==> Unsettled(p, i, config, dirs);
      if Passes(p, k, config, dirs).Err? {
        FailedPassStops(p, k, key, config, dirs);
      } else {
        SettledStops(p, k, key, config, dirs);
      }
    }
  }

  /** A successful resolution is reached within 100 passes and is final:
      either no `{` is left or one more pass would change nothing. */
  lemma ResolveOkSettled(p: string, key: string, config: map<string, string>, dirs: map<string, string>)
    ensures ResolveFrom(p, None, 0, key, config, dirs).Ok? ==>
              var r := ResolveFrom(p, None, 0, key, config, dirs).value;
              (exists k :: 0 <= k <= MaxLevels && Passes(p, k, config, dirs) == Ok(r))
              && ('{' !in r || Format(r, config, dirs) == Ok(r))
  {
    if ResolveFrom(p, None, 0, key, config, dirs).Ok? {
      FirstSettledResult(p, key, config, dirs);
      var k :| 0 <= k <= MaxLevels && Passes(p, k, config, dirs).Ok? && !Unsettled(p, k, config, dirs)
               && ResolveFrom(p, None, 0, key, config, dirs) == Passes(p, k, config, dirs);
      if '{' in Passes(p, k, config, dirs).value {
        SettledIsFixedPoint(p, k, config, dirs);
      }
    }
  }

  /** `DistConfig.path` as written: a `while` loop counting passes. */
  method ResolveLoop(template: string, key: string, config: map<string, string>, dirs: map<string, string>)
    returns (r: Result<string>)
    ensures r == ResolveFrom(template, None, 0, key, config, dirs)
    ensures r.Ok? ==> '{' !in r.value || Format(r.value, config, dirs) == Ok(r.value)
    ensures r.Err? ==> r.error.NestingTooDeep? || r.error.FormatError? || r.error.KeyError?
  {
    var levels: nat := 0;
    var prev: Option<string> := None;
    var path := template;
    while '{' in path && prev != Some(path)
      invariant levels <= MaxLevels
      invariant ResolveFrom(path, prev, levels, key, config, dirs) == ResolveFrom(template, None, 0, key, config, dirs)
      decreases MaxLevels - levels
    {
      if levels + 1 > MaxLevels {
        r := Err(NestingTooDeep(key));
        ResolveOkSettled(template, key, config, dirs);
        return;
      }
      levels := levels + 1;
      prev := Some(path);
      var next := Format(path, config, dirs);
      if next.Err? {
        r := next;
        return;
      }
      path := next.value;
    }
    r := Ok(path);
    ResolveOkSettled(template, key, config, dirs);
  }

  /** Passes over two templates that expand into each other alternate. */
  lemma {:induction false} PassesAlternate(x: string, y: string, n: nat, config: map<string, string>, dirs: map<string, string>)
    requires Format(x, config, dirs) == Ok(y) && Format(y, config, dirs) == Ok(x)
    ensures Passes(x, n, config, dirs) == Ok(if n % 2 == 0 then x else y)
  {
    if n > 0 {
      PassesAlternate(x, y, n - 1, config, dirs);
      PassesStep(x, n - 1, config, dirs);
      if n % 2 == 0 {
        assert (n - 1) % 2 == 1;
        assert Passes(x, n - 1, config, dirs) == Ok(y);
      } else {
        assert (n - 1) % 2 == 0;
        assert Passes(x, n - 1, config, dirs) == Ok(x);
      }
    }
  }

  /** Two distinct templates that expand into each other (`a` names `b`,
      `b` names `a`) exhaust the 100 passes and raise. */
  lemma TwoCycleGivesUp(x: string, y: string, key: string, config: map<string, string>, dirs: map<string, string>)
    requires Format(x, config, dirs) == Ok(y) && Format(y, config, dirs) == Ok(x)
    requires x != y && '{' in x && '{' in y
    ensures ResolveFrom(x, None, 0, key, config, dirs) == Err(NestingTooDeep(key))
  {
    forall i | 0 <= i <= MaxLevels
      ensures Unsettled(x, i, config, dirs)
    {
      PassesAlternate(x, y, i, config, dirs);
      if i > 0 {
        PassesAlternate(x, y, i - 1, config, dirs);
      }
    }
    AllUnsettledGivesUp(x, key, config, dirs);
  }

  /** A descriptor holding only a `dirs` section. */
  function DirsDescriptor(dirs: map<string, DirSpec>): DistConfig {
    DistConfig("dist.yaml", map["dirs" := DirTable(dirs)])
  }

  /** `{dirs[b]}` formats to the template of `b`. */
  lemma FormatDirRef(name: string, config: map<string, string>, dirs: map<string, string>)
    requires name in dirs && name != [] && ']' !in name && '{' !in name && '}' !in name
    requires ':' !in name && '!' !in name && !AllDigits(name)
    ensures Format("{dirs[" + name + "]}", config, dirs) == Ok(dirs[name])
  {
    var s := "{dirs[" + name + "]}";
    var j := |s| - 1;
    assert s[j] == '}';
    forall i | 1 <= i < j
      ensures s[i] != '}'
    {
      if 6 <= i < j - 1 {
        assert s[i] == name[i - 6];
      }
    }
    assert IndexOf(s, '}', 1) == Some(j);
    var field := s[1..j];
    assert field == "dirs[" + name + "]";
    assert field[5..|field| - 1] == name;
    assert field[..5] == "dirs[";
    assert Field(field, config, dirs) == Ok(dirs[name]);
    assert s[j + 1..] == "";
    assert Format(s[j + 1..], config, dirs) == Ok("");
    assert dirs[name] + "" == dirs[name];
  }

  /** `a: {dirs[b]}`, `b: {dirs[a]}`: resolving `a` raises. */
  lemma MutualReferenceRaises()
    ensures Path(DirsDescriptor(map["a" := DirSpec(Some("{dirs[b]}")), "b" := DirSpec(Some("{dirs[a]}"))]), map[], "a")
         == Err(NestingTooDeep("a"))
  {
    var dirs := map["a" := DirSpec(Some("{dirs[b]}")), "b" := DirSpec(Some("{dirs[a]}"))];
    var templates := map["a" := "{dirs[b]}", "b" := "{dirs[a]}"];
    var t := Templates(dirs);
    assert t.Ok? && t.value.Keys == templates.Keys;
    assert t.value == templates;
    assert !IsDigit("a"[0]) && !IsDigit("b"[0]);
    FormatDirRef("b", map[], templates);
    FormatDirRef("a", map[], templates);
    assert "{dirs[" + "b" + "]}" == "{dirs[b]}";
    assert "{dirs[" + "a" + "]}" == "{dirs[a]}";
    assert "{dirs[b]}"[0] == '{' && "{dirs[a]}"[0] == '{';
    assert "{dirs[b]}"[6] != "{dirs[a]}"[6];
    TwoCycleGivesUp("{dirs[b]}", "{dirs[a]}", "a", map[], templates);
  }

  /** `a: {dirs[a]}` names only itself: one pass changes nothing, so the
      template comes back as it is instead of raising. */
  lemma SelfReferenceIsFixedPoint()
    ensures Path(DirsDescriptor(map["a" := DirSpec(Some("{dirs[a]}"))]), map[], "a") == Ok("{dirs[a]}")
  {
    var dirs := map["a" := DirSpec(Some("{dirs[a]}"))];
    var templates := map["a" := "{dirs[a]}"];
    var t := Templates(dirs);
    assert t.Ok? && t.value.Keys == templates.Keys;
    assert t.value == templates;
    assert !IsDigit("a"[0]);
    FormatDirRef("a", map[], templates);
    assert "{dirs[" + "a" + "]}" == "{dirs[a]}";
    assert "{dirs[a]}"[0] == '{';
    ResolveStep("{dirs[a]}", None, 0, "a", map[], templates);
  }

  /** Brace-free text in front of a template passes through formatting. */
  lemma {:induction false} FormatPlainPrefix(pre: string, rest: string, config: map<string, string>, dirs: map<string, string>)
    requires '{' !in pre && '}' !in pre
    ensures Format(pre + rest, config, dirs) == Prepend(pre, Format(rest, config, dirs))
  {
    if |pre| > 0 {
      FormatPlainPrefix(pre[1..], rest, config, dirs);
      assert (pre + rest)[1..] == pre[1..] + rest;
      assert [pre[0]] + pre[1..] == pre;
      var f := Format(rest, config, dirs);
      if f.Ok? {
        assert [pre[0]] + (pre[1..] + f.value) == pre + f.value;
      }
    } else {
      assert pre + rest == rest;
      var f := Format(rest, config, dirs);
      if f.Ok? {
        assert pre + f.value == f.value;
      }
    }
  }

  /** `a: x{dirs[a]}` grows by one `x` on every pass and never settles, so
      resolving `a` raises after 100 passes. */
  lemma GrowingSelfReferenceRaises()
    ensures Path(DirsDescriptor(map["a" := DirSpec(Some("x{dirs[a]}"))]), map[], "a") == Err(NestingTooDeep("a"))
  {
    var t := "x{dirs[a]}";
    var templates := map["a" := t];
    GrowingTemplates();
    GrowingFormat(t, templates);
    forall n: nat | n <= MaxLevels
      ensures Unsettled(t, n, map[], templates)
    {
      GrowingUnsettled(t, n, templates);
    }
    AllUnsettledGivesUp(t, "a", map[], templates);
  }

  lemma GrowingTemplates()
    ensures Templates(map["a" := DirSpec(Some("x{dirs[a]}"))]) == Ok(map["a" := "x{dirs[a]}"])
  {
    var dirs := map["a" := DirSpec(Some("x{dirs[a]}"))];
    var templates := map["a" := "x{dirs[a]}"];
    var tm := Templates(dirs);
    assert tm.Ok? && tm.value.Keys == templates.Keys;
    assert tm.value == templates;
  }

  /** One pass over the growing template puts one `x` in front. */
  lemma GrowingFormat(t: string, templates: map<string, string>)
    requires t == "x{dirs[a]}" && templates == map["a" := t]
    ensures Format(t, map[], templates) == Ok("x" + t)
  {
    assert !IsDigit("a"[0]);
    FormatDirRef("a", map[], templates);
    assert "{dirs[" + "a" + "]}" == "{dirs[a]}";
    assert "x" + "{dirs[a]}" == t;
    FormatPlainPrefix("x", "{dirs[a]}", map[], templates);
  }

  /** The growing template never settles within the pass limit. */
  lemma GrowingUnsettled(t: string, n: nat, templates: map<string, string>)
    requires t == "x{dirs[a]}" && Format(t, map[], templates) == Ok("x" + t)
    ensures Unsettled(t, n, map[], templates)
  {
    GrowingPasses(t, n, templates);
    if n > 0 {
      GrowingPasses(t, n - 1, templates);
    }
    assert (Xs(n) + t)[n] == 'x';
    assert (Xs(n) + t)[n + 1] == '{';
  }

  /** `n` letters `x`. */
  function Xs(n: nat): (r: string)
    ensures |r| == n && forall i :: 0 <= i < n ==> r[i] == 'x'
  {
    if n == 0 then "" else Xs(n - 1) + "x"
  }

  /** After `n` passes the growing template carries `n` extra `x`s. */
  lemma {:induction false} GrowingPasses(t: string, n: nat, dirs: map<string, string>)
    requires t == "x{dirs[a]}" && Format(t, map[], dirs) == Ok("x" + t)
    ensures Passes(t, n, map[], dirs) == Ok(Xs(n) + t)
  {
    if n == 0 {
      assert Xs(0) + t == t;
    } else {
      GrowingPasses(t, n - 1, dirs);
      PassesStep(t, n - 1, map[], dirs);
      var xs := Xs(n - 1);
      assert '{' !in xs && '}' !in xs;
      FormatPlainPrefix(xs, t, map[], dirs);
      assert xs + ("x" + t) == Xs(n) + t;
    }
  }

  /** First declared `port` of the entry named `key` (`ports.get(key, {}).get('port')`). */
  function PortOf(ports: seq<PortSpec>, key: string): Option<int> {
    if |ports| == 0 then None
    else if ports[0].name == key then ports[0].port
    else PortOf(ports[1..], key)
  }

  /** Entry names are unique, as the keys of a YAML mapping are. */
  ghost predicate DistinctNames(ports: seq<PortSpec>) {
    forall i, j :: 0 <= i < j < |ports| ==> ports[i].name != ports[j].name
  }

  /** `dist_config.port(key)`. */
  function Port(dc: DistConfig, key: string): Result<Option<int>> {
    var ports :- Ports(dc);
    Ok(PortOf(ports, key))
  }

  /** `port(k)` is the `port` of entry `k`, and `None` when there is no
      entry `k` or it has no `port`. */
  lemma {:induction false} PortLookup(ports: seq<PortSpec>, key: string)
    requires DistinctNames(ports)
    ensures forall n :: PortOf(ports, key) == Some(n) <==>
              exists i :: 0 <= i < |ports| && ports[i].name == key && ports[i].port == Some(n)
    ensures PortOf(ports, key) == None <==>
              forall i :: 0 <= i < |ports| && ports[i].name == key ==> ports[i].port.None?
  {
    if |ports| > 0 {
      assert DistinctNames(ports[1..]);
      PortLookup(ports[1..], key);
      forall n ensures PortOf(ports, key) == Some(n) <==>
                       exists i :: 0 <= i < |ports| && ports[i].name == key && ports[i].port == Some(n)
      {
        if exists i :: 0 <= i < |ports| && ports[i].name == key && ports[i].port == Some(n) {
          var i :| 0 <= i < |ports| && ports[i].name == key && ports[i].port == Some(n);
          if i > 0 {
            assert ports[1..][i - 1] == ports[i];
          }
        }
      }
      if ports[0].name == key {
        assert forall i :: 0 < i < |ports| ==> ports[i].name != key;
      } else {
        assert forall i :: 0 < i < |ports| ==> ports[i] == ports[1..][i - 1];
      }
    }
  }

  /** The entries whose `exposed_on` equals `service`, in the order of the enumeration of the mapping;
      `None` selects the entries without a tag. */
  function Tagged(ports: seq<PortSpec>, service: Option<string>): seq<PortSpec> {
    if |ports| == 0 then []
    else (if ports[0].exposedOn == service then [ports[0]] else []) + Tagged(ports[1..], service)
  }

  /** Selection commutes with concatenation, so it keeps the order of the enumeration of the mapping. */
  lemma {:induction false} TaggedAppend(a: seq<PortSpec>, b: seq<PortSpec>, service: Option<string>)
    ensures Tagged(a + b, service) == Tagged(a, service) + Tagged(b, service)
  {
    if |a| > 0 {
      TaggedAppend(a[1..], b, service);
      assert (a + b)[1..] == a[1..] + b;
    } else {
      assert a + b == b;
    }
  }

  /** Exactly the entries carrying the tag are selected. */
  lemma {:induction false} TaggedMembers(ports: seq<PortSpec>, service: Option<string>)
    ensures forall e :: e in Tagged(ports, service) <==> e in ports && e.exposedOn == service
  {
    if |ports| > 0 {
      TaggedMembers(ports[1..], service);
      assert ports == [ports[0]] + ports[1..];
    }
  }

  /** `dist_config.exposed_ports(service)` as written: a loop appending the
      `port` of every entry tagged `service`; an entry with the tag but no
      `port` raises KeyError. */
  method ExposedPorts(dc: DistConfig, service: Option<string>) returns (r: Result<seq<int>>)
    ensures Ports(dc).Err? ==> r == Err(AttributeError("ports"))
    ensures Ports(dc).Ok? ==>
              var tagged := Tagged(Ports(dc).value, service);
              (r.Ok? <==> forall i :: 0 <= i < |tagged| ==> tagged[i].port.Some?)
              && (r.Ok? ==> |r.value| == |tagged|
                            && forall i :: 0 <= i < |tagged| ==> r.value[i] == tagged[i].port.value)
              && (r.Err? ==> r.error == KeyError("port"))
  {
    if Ports(dc).Err? {
      return Err(AttributeError("ports"));
    }
    var ports := Ports(dc).value;
    var exposed: seq<int> := [];
    var k := 0;
    while k < |ports|
      invariant 0 <= k <= |ports|
      invariant var done := Tagged(ports[..k], service);
                |exposed| == |done|
                && (forall i :: 0 <= i < |done| ==> done[i].port.Some? && exposed[i] == done[i].port.value)
    {
      TaggedAppend(ports[..k], [ports[k]], service);
      assert ports[..k + 1] == ports[..k] + [ports[k]];
      if ports[k].exposedOn == service {
        if ports[k].port.None? {
          TaggedAppend(ports[..k + 1], ports[k + 1..], service);
          assert ports[..k + 1] + ports[k + 1..] == ports;
          var tagged := Tagged(ports, service);
          assert tagged[|exposed|] == ports[k];
          return Err(KeyError("port"));
        }
        exposed := exposed + [ports[k].port.value];
      }
      k := k + 1;
    }
    assert ports[..|ports|] == ports;
    r := Ok(exposed);
  }
}

=== FILE: etcenv.dfy ===
/** `/etc/environment` as the configuration helpers see it: a list of
    `KEY=value` lines.  Two readers exist — the edit session, which strips
    quotes of either kind and rewrites every entry as `KEY="value"`, and the
    plain reader used when running commands as another user.  Lines are
    given without their terminators; both readers strip them anyway.
 */
module EtcEnv {
  import opened Results
  import opened Text

  /** What the edit session strips off a value: spaces and both quote marks. */
  const QuoteChars: set<char> := {' ', '\'', '"'}

  /** What the plain reader strips off a value once it is whitespace-trimmed. */
  const DoubleQuote: set<char> := {'"'}

  /** A key the rewrite can carry through unchanged; a line break would
      split its `k="v"` line in two. */
  predicate CleanKey(k: string) {
    '=' !in k && Trimmed(k, Whitespace) && Unbroken(k)
  }

  /** A value the edit session can carry through unchanged. */
  predicate CleanValue(v: string) {
    '=' !in v && Trimmed(v, QuoteChars) && Unbroken(v)
  }

  /** Every line of a file, as `lines()` cuts it, is free of line breaks. */
  predicate LineFile(lines: seq<string>) {
    forall i :: 0 <= i < |lines| ==> Unbroken(lines[i])
  }

  /** `'{}="{}"'.format(k, v)`. */
  function Line(k: string, v: string): string {
    k + "=\"" + v + "\""
  }

  /** The edit session's reading of one line: strip it, split at `=`,
      unpack exactly two pieces, strip the key and the value's quotes. */
  function ParseLine(line: string): (r: Result<(string, string)>)
    ensures r.Ok? <==> Count(Strip(line), '=') == 1
    ensures r.Err? ==> r.error == UnpackError(line)
    ensures r.Ok? && Unbroken(line) ==> CleanKey(r.value.0) && CleanValue(r.value.1)
  {
    var parts := Split(Strip(line), '=');
    SplitTwo(Strip(line), '=');
    SplitPiecesClean(Strip(line), '=');
    if |parts| != 2 then Err(UnpackError(line))
    else
      var k := Strip(parts[0]);
      var v := StripChars(parts[1], QuoteChars);
      StripCharsAbsent(parts[0], Whitespace, '=');
      StripCharsAbsent(parts[1], QuoteChars, '=');
      if Unbroken(line) then
        PiecesUnbroken(line, parts);
        Ok((k, v))
      else Ok((k, v))
  }

  /** The pieces of a line without line breaks have none either, nor do
      their stripped forms. */
  lemma PiecesUnbroken(line: string, parts: seq<string>)
    requires Unbroken(line) && parts == Split(Strip(line), '=') && |parts| == 2
    ensures Unbroken(Strip(parts[0])) && Unbroken(StripChars(parts[1], QuoteChars))
  {
    StripCharsAbsent(line, Whitespace, '\n');
    StripCharsAbsent(line, Whitespace, '\r');
    SplitPiecesWithin(Strip(line), '=', '\n');
    SplitPiecesWithin(Strip(line), '=', '\r');
    StripCharsAbsent(parts[0], Whitespace, '\n');
    StripCharsAbsent(parts[0], Whitespace, '\r');
    StripCharsAbsent(parts[1], QuoteChars, '\n');
    StripCharsAbsent(parts[1], QuoteChars, '\r');
  }

  /** `read_etc_env`'s reading of one line: split at `=` (without stripping
      the line first), unpack exactly two pieces, strip the key, strip the
      value and then its double quotes. */
  function ReadLine(line: string): (r: Result<(string, string)>)
    ensures r.Ok? <==> Count(line, '=') == 1
    ensures r.Err? ==> r.error == UnpackError(line)
  {
    var parts := Split(line, '=');
    SplitTwo(line, '=');
    if |parts| != 2 then Err(UnpackError(line))
    else Ok((Strip(parts[0]), StripChars(Strip(parts[1]), DoubleQuote)))
  }

  /** A dict built from the lines in file order, so a later duplicate key
      overrides an earlier one; the first line that does not unpack aborts. */
  function Collect(lines: seq<string>, parse: string -> Result<(string, string)>): (r: Result<map<string, string>>)
    ensures r.Ok? <==> forall i :: 0 <= i < |lines| ==> parse(lines[i]).Ok?
    ensures r.Err? ==> exists i :: 0 <= i < |lines| && parse(lines[i]).Err? && r.error == parse(lines[i]).error
                                   && forall j :: 0 <= j < i ==> parse(lines[j]).Ok?
    ensures r.Ok? ==> forall k :: k in r.value <==> exists i :: 0 <= i < |lines| && parse(lines[i]).value.0 == k
  {
    if |lines| == 0 then Ok(map[])
    else
      var n := |lines| - 1;
      var init := lines[..n];
      assert forall i :: 0 <= i < n ==> init[i] == lines[i];
      var d :- Collect(init, parse);
      var kv :- parse(lines[n]);
      Ok(d[kv.0 := kv.1])
  }

  /** A key takes the value of the last line that names it. */
  lemma {:induction false} CollectLastWins(lines: seq<string>, parse: string -> Result<(string, string)>, i: int)
    requires Collect(lines, parse).Ok? && 0 <= i < |lines|
    requires forall j :: i < j < |lines| ==> parse(lines[j]).value.0 != parse(lines[i]).value.0
    ensures parse(lines[i]).value.0 in Collect(lines, parse).value
    ensures Collect(lines, parse).value[parse(lines[i]).value.0] == parse(lines[i]).value.1
  {
    var n := |lines| - 1;
    if i < n {
      var init := lines[..n];
      assert init[i] == lines[i];
      assert forall j :: i < j < n ==> init[j] == lines[j];
      CollectLastWins(init, parse, i);
    }
  }

  /** The mapping the edit session yields for the file's lines. */
  function Parse(lines: seq<string>): (r: Result<map<string, string>>)
    ensures r.Ok? && LineFile(lines) ==> forall k :: k in r.value ==> CleanKey(k) && CleanValue(r.value[k])
  {
    var r := Collect(lines, ParseLine);
    if r.Ok? && LineFile(lines) then ParseClean(lines); r else r
  }

  lemma {:induction false} ParseClean(lines: seq<string>)
    requires Collect(lines, ParseLine).Ok? && LineFile(lines)
    ensures forall k :: k in Collect(lines, ParseLine).value ==>
              CleanKey(k) && CleanValue(Collect(lines, ParseLine).value[k])
  {
    if |lines| > 0 {
      var n := |lines| - 1;
      ParseClean(lines[..n]);
    }
  }

  /** Python's iteration order over a dict: each key exactly once. */
  ghost predicate Enumerates(order: seq<string>, keys: set<string>) {
    (forall i, j :: 0 <= i < j < |order| ==> order[i] != order[j])
    && forall k :: k in order <==> k in keys
  }

  /** The lines written back: one `k="v"` line per key of `order` that the
      dict holds, in that order. */
  function Rewrite(data: map<string, string>, order: seq<string>): (r: seq<string>)
    ensures (forall i :: 0 <= i < |order| ==> order[i] in data) ==>
              |r| == |order| && forall i :: 0 <= i < |order| ==> r[i] == Line(order[i], data[order[i]])
  {
    if |order| == 0 then []
    else
      var n := |order| - 1;
      var init := Rewrite(data, order[..n]);
      if order[n] in data then init + [Line(order[n], data[order[n]])] else init
  }

  /** `environment_edit_in_place`: read the mapping, hand it to the caller's
      block `edit`, and write back whatever dict the block leaves, in that
      dict's iteration order `order`.  A line that does not unpack, or an
      exception inside the block, aborts before the file is touched. */
  function Session(lines: seq<string>, edit: map<string, string> -> Result<map<string, string>>,
                   order: map<string, string> -> seq<string>): (r: Result<seq<string>>)
    ensures r.Ok? <==> Parse(lines).Ok? && edit(Parse(lines).value).Ok?
  {
    var data :- Parse(lines);
    var out :- edit(data);
    Ok(Rewrite(out, order(out)))
  }

  /** A distinct enumeration of a set is as long as the set is large. */
  lemma {:induction false} DistinctCard(order: seq<string>, keys: set<string>)
    requires Enumerates(order, keys)
    ensures |keys| == |order|
  {
    if |order| > 0 {
      var n := |order| - 1;
      var init := order[..n];
      assert Enumerates(init, keys - {order[n]}) by {
        forall k ensures k in init <==> k in keys - {order[n]} {
          if k in init {
            var i :| 0 <= i < n && init[i] == k;
          }
          if k in keys - {order[n]} {
            var i :| 0 <= i < |order| && order[i] == k;
          }
        }
      }
      DistinctCard(init, keys - {order[n]});
    }
  }

  /** The rewrite writes exactly one `k="v"` line for every key of the mapping. */
  lemma OneLinePerKey(data: map<string, string>, order: seq<string>)
    requires Enumerates(order, data.Keys)
    ensures |Rewrite(data, order)| == |data|
    ensures forall k :: k in data ==> Line(k, data[k]) in Rewrite(data, order)
  {
    DistinctCard(order, data.Keys);
    forall k | k in data ensures Line(k, data[k]) in Rewrite(data, order) {
      var i :| 0 <= i < |order| && order[i] == k;
      assert Rewrite(data, order)[i] == Line(k, data[k]);
    }
  }

  /** The data the caller leaves reads back, entry by entry, through `parse`
      when `parse` recovers each written line's key and value. */
  lemma {:induction false} CollectRewrite(data: map<string, string>, order: seq<string>,
                                          parse: string -> Result<(string, string)>)
    requires forall i :: 0 <= i < |order| ==> order[i] in data
    requires forall i :: 0 <= i < |order| ==> parse(Line(order[i], data[order[i]])) == Ok((order[i], data[order[i]]))
    ensures Collect(Rewrite(data, order), parse).Ok?
    ensures forall k :: k in Collect(Rewrite(data, order), parse).value <==> k in order
    ensures forall k :: k in Collect(Rewrite(data, order), parse).value ==>
              Collect(Rewrite(data, order), parse).value[k] == data[k]
  {
    if |order| > 0 {
      var n := |order| - 1;
      var init := order[..n];
      var key := order[n];
      CollectRewrite(data, init, parse);
      var prev := Collect(Rewrite(data, init), parse).value;
      var lines := Rewrite(data, order);
      assert lines[..n] == Rewrite(data, init);
      assert lines[n] == Line(key, data[key]);
      CollectSnoc(lines, parse);
      var r := Collect(lines, parse).value;
      assert r == prev[key := data[key]];
      assert forall k :: k in order <==> k in init || k == key;
      forall k | k in r ensures r[k] == data[k] {
        if k != key {
          assert k in prev;
        }
      }
    }
  }

  /** Reading one line more: its pair is stored over what came before. */
  lemma CollectSnoc(lines: seq<string>, parse: string -> Result<(string, string)>)
    requires |lines| > 0
    requires Collect(lines[..|lines| - 1], parse).Ok? && parse(lines[|lines| - 1]).Ok?
    ensures Collect(lines, parse)
         == Ok(Collect(lines[..|lines| - 1], parse).value[parse(lines[|lines| - 1]).value.0 := parse(lines[|lines| - 1]).value.1])
  {
  }

  /** A rewritten map reads back as itself through `parse`. */
  lemma ReadsBackAs(data: map<string, string>, order: seq<string>, parse: string -> Result<(string, string)>)
    requires Enumerates(order, data.Keys)
    requires forall i :: 0 <= i < |order| ==> parse(Line(order[i], data[order[i]])) == Ok((order[i], data[order[i]]))
    ensures Collect(Rewrite(data, order), parse) == Ok(data)
  {
    CollectRewrite(data, order, parse);
    var c := Collect(Rewrite(data, order), parse);
    var r := c.value;
    assert r.Keys == data.Keys;
    forall k | k in r ensures r[k] == data[k] {
      assert k in order;
    }
    assert r == data;
    assert c == Ok(r);
  }

  /** The quoted half of a written line. */
  function Quoted(v: string): string {
    ['"'] + v + ['"']
  }

  /** A written line splits at its one `=` into the key and the quoted value. */
  lemma LineSplits(k: string, v: string)
    requires '=' !in k && '=' !in v
    ensures Line(k, v) == k + ['='] + Quoted(v)
    ensures Split(Line(k, v), '=') == [k, Quoted(v)]
  {
    assert Line(k, v) == k + ['='] + Quoted(v);
    assert forall i :: 0 <= i < |Quoted(v)| ==> Quoted(v)[i] == '"' || Quoted(v)[i] == v[i - 1];
    SplitAround(k, Quoted(v), '=');
  }

  /** A written line has nothing to strip at its ends. */
  lemma LineStripped(k: string, v: string)
    requires CleanKey(k)
    ensures Strip(Line(k, v)) == Line(k, v)
  {
    var line := Line(k, v);
    assert line[|line| - 1] == '"';
    if k != [] {
      assert line[0] == k[0];
    } else {
      assert line[0] == '=';
    }
    assert Trimmed(line, Whitespace);
    StripCharsFixed(line, Whitespace);
  }

  /** The quotes around a clean value come off again. */
  lemma QuotedStrips(v: string, cs: set<char>)
    requires Trimmed(v, QuoteChars)
    requires '"' in cs && cs <= QuoteChars
    ensures StripChars(Quoted(v), cs) == v
  {
    StripWrapped(v, '"', cs);
  }

  /** A written line parses back into its key and value. */
  lemma ParseLineOfLine(k: string, v: string)
    requires CleanKey(k) && CleanValue(v)
    ensures ParseLine(Line(k, v)) == Ok((k, v))
  {
    LineShape(k, v);
    PiecesStrip(k, v);
    ParseLineOfParts(Line(k, v), k, v);
  }

  lemma LineShape(k: string, v: string)
    requires CleanKey(k) && CleanValue(v)
    ensures Strip(Line(k, v)) == Line(k, v)
    ensures Split(Line(k, v), '=') == [k, Quoted(v)]
  {
    LineStripped(k, v);
    LineSplits(k, v);
  }

  lemma PiecesStrip(k: string, v: string)
    requires CleanKey(k) && CleanValue(v)
    ensures StripChars(Quoted(v), QuoteChars) == v
    ensures Strip(k) == k
  {
    QuotedStrips(v, QuoteChars);
    StripCharsFixed(k, Whitespace);
  }

  lemma ParseLineOfParts(line: string, k: string, v: string)
    requires Strip(line) == line
    requires Split(line, '=') == [k, Quoted(v)]
    requires StripChars(Quoted(v), QuoteChars) == v
    requires Strip(k) == k
    ensures ParseLine(line) == Ok((k, v))
  {
  }

  /** Re-reading what a session writes gives back the dict the caller left,
      whenever its keys and values survive the format (which a dict read by
      the session and left unchanged always does). */
  lemma SessionRoundTrip(lines: seq<string>, edit: map<string, string> -> Result<map<string, string>>,
                         order: map<string, string> -> seq<string>)
    requires Parse(lines).Ok?
    requires edit(Parse(lines).value).Ok?
    requires Enumerates(order(edit(Parse(lines).value).value), edit(Parse(lines).value).value.Keys)
    requires forall k :: k in edit(Parse(lines).value).value ==> CleanKey(k) && CleanValue(edit(Parse(lines).value).value[k])
    ensures Session(lines, edit, order).Ok?
    ensures Parse(Session(lines, edit, order).value) == edit(Parse(lines).value)
  {
    var out := edit(Parse(lines).value).value;
    var o := order(out);
    assert Enumerates(o, out.Keys);
    forall i | 0 <= i < |o| ensures ParseLine(Line(o[i], out[o[i]])) == Ok((o[i], out[o[i]])) {
      ParseLineOfLine(o[i], out[o[i]]);
    }
    ReadsBackAs(out, o, ParseLine);
  }

  /** An untouched session is stable: the file it writes reads as before. */
  lemma UnchangedSessionStable(lines: seq<string>, order: map<string, string> -> seq<string>)
    requires Parse(lines).Ok? && LineFile(lines)
    requires Enumerates(order(Parse(lines).value), Parse(lines).value.Keys)
    ensures Parse(Session(lines, m => Ok(m), order).value) == Parse(lines)
  {
    SessionRoundTrip(lines, m => Ok(m), order);
  }

  /** `read_etc_env`: a missing file reads as the empty mapping. */
  function ReadEtcEnv(file: Option<seq<string>>): (r: Result<map<string, string>>)
    ensures file.None? ==> r == Ok(map[])
  {
    match file
    case None => Ok(map[])
    case Some(lines) => Collect(lines, ReadLine)
  }

  /** A written line is read back by the plain reader too. */
  lemma ReadLineOfLine(k: string, v: string)
    requires CleanKey(k) && CleanValue(v)
    ensures ReadLine(Line(k, v)) == Ok((k, v))
  {
    LineSplits(k, v);
    var parts := Split(Line(k, v), '=');
    assert parts == [k, Quoted(v)];
    assert Quoted(v)[0] == '"' && Quoted(v)[|Quoted(v)| - 1] == '"';
    var q := Quoted(v);
    assert q[0] !in Whitespace && q[|q| - 1] !in Whitespace;
    StripCharsFixed(q, Whitespace);
    assert Strip(q) == q;
    QuotedStrips(v, DoubleQuote);
    assert StripChars(q, DoubleQuote) == v;
    StripCharsFixed(k, Whitespace);
    assert Strip(parts[0]) == k;
  }

  /** What an edit session writes, `read_etc_env` reads as the same dict. */
  lemma SessionThenRead(lines: seq<string>, edit: map<string, string> -> Result<map<string, string>>,
                        order: map<string, string> -> seq<string>)
    requires Parse(lines).Ok?
    requires edit(Parse(lines).value).Ok?
    requires Enumerates(order(edit(Parse(lines).value).value), edit(Parse(lines).value).value.Keys)
    requires forall k :: k in edit(Parse(lines).value).value ==> CleanKey(k) && CleanValue(edit(Parse(lines).value).value[k])
    ensures Session(lines, edit, order).Ok?
    ensures ReadEtcEnv(Some(Session(lines, edit, order).value)) == edit(Parse(lines).value)
  {
    var out := edit(Parse(lines).value).value;
    var o := order(out);
    assert Enumerates(o, out.Keys);
    forall i | 0 <= i < |o| ensures ReadLine(Line(o[i], out[o[i]])) == Ok((o[i], out[o[i]])) {
      ReadLineOfLine(o[i], out[o[i]]);
    }
    ReadsBackAs(out, o, ReadLine);
  }
}

=== FILE: etchosts.dfy ===
/** `/etc/hosts` maintenance: the upsert of one `address fqdn hostname` line
    per known host, and the leading dotted-quad check that decides whether
    the line is live or commented out.  Lines are given without terminators.
 */
module EtcHosts {
  import opened Results
  import opened Text

  /** One host as published on the relation: address, FQDN, short name. */
  datatype HostEntry = HostEntry(address: string, fqdn: string, hostname: string)

  /** Number of consecutive decimal digits at the start of `s`. */
  function DigitRun(s: string): (n: nat)
    ensures n <= |s|
    ensures forall j :: 0 <= j < n ==> IsDigit(s[j])
    ensures n == |s| || !IsDigit(s[n])
  {
    if |s| > 0 && IsDigit(s[0]) then 1 + DigitRun(s[1..]) else 0
  }

  /** `\d{1,3}\.` matched at the start of `s`: what is left after the dot. */
  function Octet(s: string): (r: Option<string>)
    ensures r.Some? ==> |r.value| < |s| && IsDigit(s[0])
  {
    var n := DigitRun(s);
    if 1 <= n <= 3 && n < |s| && s[n] == '.' then Some(s[n + 1..]) else None
  }

  /** `re.match(r'\d{1,3}\.\d{1,3}\.\d{1,3}\.\d{1,3}', s)`: the pattern is
      anchored at the start only, so anything may follow the fourth group's
      first digit. */
  predicate LeadingDottedQuad(s: string) {
    match Octet(s)
    case None => false
    case Some(ra) =>
      match Octet(ra)
      case None => false
      case Some(rb) =>
        match Octet(rb)
        case None => false
        case Some(rc) => |rc| > 0 && IsDigit(rc[0])
  }

  /** A decimal number below 1000 has at most three digits. */
  lemma {:induction false} ShortNumeral(n: nat)
    requires n < 1000
    ensures |NatToString(n)| <= 3
  {
    if n >= 10 {
      ShortNumeral(n / 10);
      if n < 100 {
        assert |NatToString(n / 10)| == 1;
      }
    }
  }

  /** The digit run over a block of digits stops exactly at its end. */
  lemma {:induction false} DigitRunOver(x: string, t: string)
    requires forall j :: 0 <= j < |x| ==> IsDigit(x[j])
    requires t == [] || !IsDigit(t[0])
    ensures DigitRun(x + t) == |x|
  {
    if |x| > 0 {
      assert (x + t)[0] == x[0];
      assert (x + t)[1..] == x[1..] + t;
      DigitRunOver(x[1..], t);
    } else {
      assert x + t == t;
    }
  }

  /** A run of one to three digits followed by a dot is one `\d{1,3}\.` group,
      and matching resumes just past the dot. */
  lemma OctetOver(x: string, t: string)
    requires 1 <= |x| <= 3 && forall j :: 0 <= j < |x| ==> IsDigit(x[j])
    ensures Octet(x + "." + t) == Some(t)
  {
    var s := x + "." + t;
    assert s == x + ("." + t);
    DigitRunOver(x, "." + t);
    assert s[|x|] == '.';
    assert s[|x| + 1..] == t;
  }

  /** Three digit groups with their dots, then a digit. */
  lemma QuadOver(x: string, y: string, z: string, w: string)
    requires 1 <= |x| <= 3 && forall j :: 0 <= j < |x| ==> IsDigit(x[j])
    requires 1 <= |y| <= 3 && forall j :: 0 <= j < |y| ==> IsDigit(y[j])
    requires 1 <= |z| <= 3 && forall j :: 0 <= j < |z| ==> IsDigit(z[j])
    requires 1 <= |w| && IsDigit(w[0])
    ensures LeadingDottedQuad(x + "." + y + "." + z + "." + w)
  {
    var rb := z + "." + w;
    var ra := y + "." + rb;
    assert x + "." + y + "." + z + "." + w == x + "." + ra;
    OctetOver(x, ra);
    OctetOver(y, rb);
    OctetOver(z, w);
  }

  function DottedQuad(a: nat, b: nat, c: nat, d: nat): string {
    NatToString(a) + "." + NatToString(b) + "." + NatToString(c) + "." + NatToString(d)
  }

  /** Every rendered IPv4 address passes the address check, whatever follows it. */
  lemma DottedQuadPasses(a: nat, b: nat, c: nat, d: nat, rest: string)
    requires a < 256 && b < 256 && c < 256
    ensures LeadingDottedQuad(DottedQuad(a, b, c, d) + rest)
  {
    ShortNumeral(a);
    ShortNumeral(b);
    ShortNumeral(c);
    var w := NatToString(d) + rest;
    assert w[0] == NatToString(d)[0];
    QuadOver(NatToString(a), NatToString(b), NatToString(c), w);
    assert DottedQuad(a, b, c, d) + rest
        == NatToString(a) + "." + NatToString(b) + "." + NatToString(c) + "." + w;
  }

  /** A host name cannot pass for an address. */
  lemma NonDigitFails(s: string)
    requires s == [] || !IsDigit(s[0])
    ensures !LeadingDottedQuad(s)
  {
  }

  /** The line written for a host: its address, FQDN and short name
      separated by single spaces; an address failing the address check is written
      commented out and marked invalid. */
  function HostLine(e: HostEntry): (line: string)
    ensures LeadingDottedQuad(e.address) ==> StartsWith(line, e.address + " ")
    ensures LeadingDottedQuad(e.address) ==> line == e.address + " " + e.fqdn + " " + e.hostname
    ensures !LeadingDottedQuad(e.address) ==> StartsWith(line, "# ")
    ensures !LeadingDottedQuad(e.address) ==> line == "# " + e.address + " " + e.fqdn + " " + e.hostname + "  # INVALID IP"
  {
    var live := (e.address + " ") + (e.fqdn + " " + e.hostname);
    if LeadingDottedQuad(e.address) then
      assert live[..|e.address| + 1] == e.address + " ";
      live
    else
      var dead := "# " + (live + "  # INVALID IP");
      assert dead[..2] == "# ";
      dead
  }

  /** A live line reads back, field by field, as the host it was written
      for, provided no field holds a space. */
  lemma HostLineFields(e: HostEntry)
    requires LeadingDottedQuad(e.address)
    requires ' ' !in e.address && ' ' !in e.fqdn && ' ' !in e.hostname
    ensures Split(HostLine(e), ' ') == [e.address, e.fqdn, e.hostname]
  {
    var rest := e.fqdn + " " + e.hostname;
    assert HostLine(e) == e.address + [' '] + rest;
    assert rest == e.fqdn + [' '] + e.hostname;
    SplitAround(e.fqdn, e.hostname, ' ');
    SplitAtFirst(e.address, rest, ' ');
  }

  /** Replace every line `m` accepts by `line`; if none does, append
      `line`.  The loop body of `update_etc_hosts`. */
  function Upsert(lines: seq<string>, line: string, m: Matcher): (r: seq<string>)
    ensures |r| == |lines| || |r| == |lines| + 1
    ensures |r| == |lines| + 1 <==> forall i :: 0 <= i < |lines| ==> !Accepts(m, lines[i])
    ensures forall i :: 0 <= i < |lines| ==> r[i] == (if Accepts(m, lines[i]) then line else lines[i])
    ensures |r| == |lines| + 1 ==> r[|lines|] == line
  {
    var replaced := seq(|lines|, i requires 0 <= i < |lines| => if Accepts(m, lines[i]) then line else lines[i]);
    if exists i :: 0 <= i < |lines| && Accepts(m, lines[i]) then replaced else replaced + [line]
  }

  /** The line afterwards is present, and every line the predicate rejects
      keeps its place. */
  lemma UpsertPlaces(lines: seq<string>, line: string, m: Matcher)
    ensures line in Upsert(lines, line, m)
    ensures forall i :: 0 <= i < |lines| && !Accepts(m, lines[i]) ==> Upsert(lines, line, m)[i] == lines[i]
  {
    var r := Upsert(lines, line, m);
    if |r| == |lines| {
      var i :| 0 <= i < |lines| && Accepts(m, lines[i]);
      assert r[i] == line;
    } else {
      assert r[|lines|] == line;
    }
  }

  /** Once the written line itself is a match, a second upsert changes nothing. */
  lemma UpsertIdempotent(lines: seq<string>, line: string, m: Matcher)
    requires Accepts(m, line)
    ensures Upsert(Upsert(lines, line, m), line, m) == Upsert(lines, line, m)
  {
    var once := Upsert(lines, line, m);
    UpsertPlaces(lines, line, m);
    var twice := Upsert(once, line, m);
    assert |twice| == |once|;
    forall i | 0 <= i < |once| ensures twice[i] == once[i] {
      if i < |lines| && !Accepts(m, lines[i]) {
        assert once[i] == lines[i];
      }
    }
  }

  /** A written line the predicate rejects is appended again on every call. */
  lemma UpsertReappends(lines: seq<string>, line: string, m: Matcher)
    requires !Accepts(m, line)
    requires forall i :: 0 <= i < |lines| ==> !Accepts(m, lines[i])
    ensures Upsert(Upsert(lines, line, m), line, m) == lines + [line, line]
  {
    var once := Upsert(lines, line, m);
    assert once == lines + [line];
    var twice := Upsert(once, line, m);
    assert forall i :: 0 <= i < |once| ==> !Accepts(m, once[i]);
    assert twice == once + [line];
  }

  /** How a line is recognised as belonging to an address. */
  datatype Matcher =
    | ByPrefix(address: string)  // the line merely starts with the address, as written
    | ByField(address: string)   // the line's first field is the address, as intended

  predicate Accepts(m: Matcher, l: string) {
    match m
    case ByPrefix(a) => StartsWith(l, a)
    case ByField(a) => StartsWith(l, a) && (|l| == |a| || l[|a|] in Whitespace)
  }

  /** One entry of `update_etc_hosts`, matching lines by prefix as written. */
  function UpdateHostAsWritten(lines: seq<string>, e: HostEntry): (r: seq<string>)
    ensures |r| >= |lines| && HostLine(e) in r
  {
    UpsertPlaces(lines, HostLine(e), ByPrefix(e.address));
    Upsert(lines, HostLine(e), ByPrefix(e.address))
  }

  /** One entry of `update_etc_hosts`, matching lines by their address field. */
  function UpdateHost(lines: seq<string>, e: HostEntry): (r: seq<string>)
    ensures |r| >= |lines| && HostLine(e) in r
  {
    UpsertPlaces(lines, HostLine(e), ByField(e.address));
    Upsert(lines, HostLine(e), ByField(e.address))
  }

  /** `update_etc_hosts` over the relation's hosts in iteration order. */
  function UpdateEtcHostsAsWritten(lines: seq<string>, entries: seq<HostEntry>): (r: seq<string>)
    ensures |r| >= |lines|
  {
    if |entries| == 0 then lines
    else UpdateHostAsWritten(UpdateEtcHostsAsWritten(lines, entries[..|entries| - 1]), entries[|entries| - 1])
  }

  function UpdateEtcHosts(lines: seq<string>, entries: seq<HostEntry>): (r: seq<string>)
    ensures |r| >= |lines|
  {
    if |entries| == 0 then lines
    else UpdateHost(UpdateEtcHosts(lines, entries[..|entries| - 1]), entries[|entries| - 1])
  }

  /** Updating a host with a valid address twice is the same as once. */
  lemma UpdateHostIdempotent(lines: seq<string>, e: HostEntry)
    requires LeadingDottedQuad(e.address)
    ensures UpdateHost(UpdateHost(lines, e), e) == UpdateHost(lines, e)
  {
    var line := HostLine(e);
    assert line[..|e.address| + 1] == e.address + " ";
    assert line[..|e.address|] == e.address;
    assert Accepts(ByField(e.address), line);
    UpsertIdempotent(lines, line, ByField(e.address));
  }

  lemma UpdateHostAsWrittenIdempotent(lines: seq<string>, e: HostEntry)
    requires LeadingDottedQuad(e.address)
    ensures UpdateHostAsWritten(UpdateHostAsWritten(lines, e), e) == UpdateHostAsWritten(lines, e)
  {
    var line := HostLine(e);
    assert line[..|e.address| + 1] == e.address + " ";
    assert line[..|e.address|] == e.address;
    UpsertIdempotent(lines, line, ByPrefix(e.address));
  }

  /** An address that fails the address check and matches no line yields a fresh
      commented line on every call. */
  lemma InvalidReappended(lines: seq<string>, e: HostEntry)
    requires !LeadingDottedQuad(e.address)
    requires e.address != [] && e.address[0] != '#'
    requires forall i :: 0 <= i < |lines| ==> !StartsWith(lines[i], e.address)
    ensures UpdateHostAsWritten(UpdateHostAsWritten(lines, e), e) == lines + [HostLine(e), HostLine(e)]
    ensures UpdateHost(UpdateHost(lines, e), e) == lines + [HostLine(e), HostLine(e)]
  {
    var line := HostLine(e);
    assert line[0] == '#';
    assert !StartsWith(line, e.address);
    UpsertReappends(lines, line, ByPrefix(e.address));
    UpsertReappends(lines, line, ByField(e.address));
  }

  /** An address that can stand as the first field of a line. */
  predicate PlainAddress(a: string) {
    a != [] && a[0] != '#' && forall i :: 0 <= i < |a| ==> a[i] !in Whitespace
  }

  /** The line of one host is never taken for the line of another. */
  lemma OtherHostLineKept(e: HostEntry, f: HostEntry)
    requires PlainAddress(e.address) && PlainAddress(f.address) && e.address != f.address
    ensures !Accepts(ByField(e.address), HostLine(f))
  {
    var line := HostLine(f);
    var a, b := e.address, f.address;
    if LeadingDottedQuad(b) {
      assert line[..|b| + 1] == b + " ";
      if |a| < |b| {
        assert line[|a|] == b[|a|];
        assert line[|a|] !in Whitespace;
      } else if |a| == |b| {
        assert line[..|a|] == b;
      } else if |a| <= |line| {
        assert line[..|a|][|b|] == ' ';
        assert a[|b|] != ' ';
        assert line[..|a|] != a;
      }
    } else {
      assert line[..2] == "# ";
      if |a| <= |line| {
        assert line[..|a|][0] == '#';
        assert line[..|a|] != a;
      }
    }
  }

  /** With distinct plain addresses, every host's line survives the whole
      update: later hosts never overwrite earlier ones. */
  lemma {:induction false} UpdateKeepsEveryHost(lines: seq<string>, entries: seq<HostEntry>)
    requires forall i :: 0 <= i < |entries| ==> PlainAddress(entries[i].address)
    requires forall i, j :: 0 <= i < j < |entries| ==> entries[i].address != entries[j].address
    ensures forall i :: 0 <= i < |entries| ==> HostLine(entries[i]) in UpdateEtcHosts(lines, entries)
  {
    if |entries| > 0 {
      var n := |entries| - 1;
      var init, e := entries[..n], entries[n];
      var before := UpdateEtcHosts(lines, init);
      assert forall i :: 0 <= i < n ==> HostLine(init[i]) in before by {
        UpdateKeepsEveryHost(lines, init);
      }
      UpdateLast(lines, entries);
      forall i | 0 <= i < n ensures HostLine(entries[i]) in UpdateEtcHosts(lines, entries) {
        assert init[i] == entries[i];
        OtherHostSurvives(before, e, entries[i]);
      }
    }
  }

  lemma UpdateLast(lines: seq<string>, entries: seq<HostEntry>)
    requires |entries| > 0
    ensures UpdateEtcHosts(lines, entries)
         == UpdateHost(UpdateEtcHosts(lines, entries[..|entries| - 1]), entries[|entries| - 1])
  {
  }

  /** One host's update keeps the line of any other host. */
  lemma OtherHostSurvives(before: seq<string>, e: HostEntry, f: HostEntry)
    requires PlainAddress(e.address) && PlainAddress(f.address) && e.address != f.address
    requires HostLine(f) in before
    ensures HostLine(f) in UpdateHost(before, e)
  {
    var k :| 0 <= k < |before| && before[k] == HostLine(f);
    OtherHostLineKept(e, f);
    UpsertPlaces(before, HostLine(e), ByField(e.address));
    assert UpdateHost(before, e)[k] == before[k];
  }

  /** As written, a host whose address is a proper prefix of an earlier
      host's address overwrites that host's line. */
  lemma PrefixClobbers(e: HostEntry, f: HostEntry)
    requires StartsWith(e.address, f.address) && |e.address| > |f.address|
    requires e.address[|f.address|] != ' '
    requires LeadingDottedQuad(e.address)
    ensures UpdateEtcHostsAsWritten([], [e, f]) == [HostLine(f)]
    ensures HostLine(e) !in UpdateEtcHostsAsWritten([], [e, f])
  {
    var le, lf := HostLine(e), HostLine(f);
    AsWrittenPair(e, f);
    UpsertEmpty(le, ByPrefix(e.address));
    PrefixAccepts(e, f);
    UpsertSingle(le, lf, ByPrefix(f.address));
    LinesDiffer(e, f);
  }

  lemma UpsertEmpty(line: string, m: Matcher)
    ensures Upsert([], line, m) == [line]
  {
  }

  lemma UpsertSingle(prior: string, line: string, m: Matcher)
    requires Accepts(m, prior)
    ensures Upsert([prior], line, m) == [line]
  {
    assert Upsert([prior], line, m)[0] == line;
  }

  /** The line of an address extending `f`'s address starts with `f`'s. */
  lemma PrefixAccepts(e: HostEntry, f: HostEntry)
    requires StartsWith(e.address, f.address) && |e.address| > |f.address|
    requires LeadingDottedQuad(e.address)
    ensures Accepts(ByPrefix(f.address), HostLine(e))
  {
    var le := HostLine(e);
    assert le[..|e.address| + 1] == e.address + " ";
    assert le[..|f.address|] == f.address;
  }

  /** Two updates from an empty file, one after the other. */
  lemma AsWrittenPair(e: HostEntry, f: HostEntry)
    ensures UpdateEtcHostsAsWritten([], [e, f]) == UpdateHostAsWritten(UpdateHostAsWritten([], e), f)
  {
    AsWrittenLast([], [e, f]);
    assert [e, f][..1] == [e];
    AsWrittenLast([], [e]);
    assert [e][..0] == [];
  }

  lemma AsWrittenLast(lines: seq<string>, entries: seq<HostEntry>)
    requires |entries| > 0
    ensures UpdateEtcHostsAsWritten(lines, entries)
         == UpdateHostAsWritten(UpdateEtcHostsAsWritten(lines, entries[..|entries| - 1]), entries[|entries| - 1])
  {
  }

  /** The line of the longer address differs from the line of its prefix. */
  lemma LinesDiffer(e: HostEntry, f: HostEntry)
    requires StartsWith(e.address, f.address) && |e.address| > |f.address|
    requires e.address[|f.address|] != ' '
    requires LeadingDottedQuad(e.address)
    ensures HostLine(e) != HostLine(f)
  {
    var le, lf := HostLine(e), HostLine(f);
    assert le[..|e.address| + 1] == e.address + " ";
    assert le[0] == e.address[0];
    assert le[|f.address|] == e.address[|f.address|];
    if LeadingDottedQuad(f.address) {
      assert lf[..|f.address| + 1] == f.address + " ";
      assert lf[|f.address|] == ' ';
    } else {
      assert lf[..2] == "# ";
      assert IsDigit(e.address[0]);
    }
  }

  lemma ExamplesPlain()
    ensures PlainAddress("10.0.0.12") && PlainAddress("10.0.0.1")
  {
    var a := "10.0.0.12";
    forall i | 0 <= i < |a| ensures a[i] !in Whitespace {
      assert a[i] == '.' || IsDigit(a[i]);
    }
  }

  lemma TwelveValid()
    ensures LeadingDottedQuad("10.0.0.12")
  {
    assert "10" + "." + "0" + "." + "0" + "." + "12" == "10.0.0.12";
    QuadOver("10", "0", "0", "12");
  }

  /** Matching on the address field keeps the line prefix matching loses. */
  lemma FieldMatchKeeps(e: HostEntry, f: HostEntry)
    requires PlainAddress(e.address) && PlainAddress(f.address) && e.address != f.address
    ensures HostLine(e) in UpdateEtcHosts([], [e, f])
  {
    UpdateLast([], [e, f]);
    assert [e, f][..1] == [e];
    UpdateLast([], [e]);
    assert [e][..0] == [];
    OtherHostSurvives(UpdateEtcHosts([], [e]), f, e);
  }

  /** The concrete case: registering `10.0.0.1` after `10.0.0.12` loses the
      line of `10.0.0.12`, while matching on the address field keeps both. */
  lemma PrefixClobbersExample()
    ensures var e12 := HostEntry("10.0.0.12", "b.example", "b");
            var e1 := HostEntry("10.0.0.1", "a.example", "a");
            HostLine(e12) !in UpdateEtcHostsAsWritten([], [e12, e1])
            && HostLine(e12) in UpdateEtcHosts([], [e12, e1])
  {
    var e12 := HostEntry("10.0.0.12", "b.example", "b");
    var e1 := HostEntry("10.0.0.1", "a.example", "a");
    TwelveValid();
    ExamplesPlain();
    assert "10.0.0.12"[..|"10.0.0.1"|] == "10.0.0.1";
    PrefixClobbers(e12, e1);
    FieldMatchKeeps(e12, e1);
  }
}

=== FILE: hadoop.dfy ===
/** The shared Hadoop plumbing of a unit (`HadoopBase`): validating the
    descriptor's directories, the one-shot base install, the unit's own
    `/etc/hosts` line, reading the Java installer's report, and the
    environment and `hadoop-env.sh` edits of `configure_hadoop`.

    The unit is an immutable `Host` record; what the outside world answers
    (addresses, host names, installer output, running daemons, failing
    commands) is a `World` value.
 */
module HadoopBase {
  import opened Results
  import opened Text
  import DistConfigs
  import EtcEnv
  import EtcHosts
  import RunAs
  import PropMaps
  import opened HadoopEnv

  /** Effects the model records instead of performing. */
  datatype Action =
    | Exec(argv: seq<string>)              // a program started directly
    | Su(inv: RunAs.Invocation)            // a command run through `run_as`
    | Step(what: string)                   // a step outside the model (users, directories, packages)
    | Chmod(path: string, mode: int)
    | Chown(path: string, user: string, group: string)
    | Copy(src: string, dst: string)

  /** The unit: persisted flags (`unitdata` keys set to `True`), persisted
      strings, the actions issued so far, and the files the core edits —
      line files and XML property files. */
  datatype Host = Host(flags: set<string>, kv: map<string, string>, log: seq<Action>,
                       files: map<string, seq<string>>, xml: map<string, seq<PropMaps.Property>>)

  /** Answers from outside the unit.  `hostname` and `hostfqdn` are the raw
      outputs of `hostname` and `hostname -f`; `javaOutput` is the Java
      installer's standard output, `None` when it exits non-zero;
      `hadoopFiles` and `hadoopXml` are the members of the Hadoop archive,
      by path below its top-level directory; `running` names the Java
      processes `jps` finds; `failing` lists the command lines that exit
      non-zero. */
  datatype World = World(privateAddress: string, hostname: string, hostfqdn: string,
                         javaOutput: Option<string>,
                         hadoopFiles: map<string, seq<string>>, hadoopXml: map<string, seq<PropMaps.Property>>,
                         running: set<string>, failing: set<seq<string>>)

  /** Outcome of an operation on the unit.  A failure keeps the state reached
      when the exception was raised, so what happened before it stays visible. */
  datatype Outcome = Done(host: Host) | Failed(error: Error, host: Host) {
    predicate IsFailure() {
      Failed?
    }

    function PropagateFailure(): Outcome
      requires Failed?
    {
      this
    }

    function Extract(): Host
      requires Done?
    {
      host
    }
  }

  /** A constructed `HadoopBase`: the descriptor, the charm configuration,
      and `dist_config.path` — which, for a `Base` built by `New`, resolves
      the descriptor's directory templates against that configuration. */
  datatype Base = Base(dc: DistConfigs.DistConfig, config: map<string, PropMaps.PyVal>,
                       path: string -> Result<string>)

  const RequiredDirs: set<string> := {"hadoop", "hadoop_conf", "hdfs_log_dir", "yarn_log_dir"}

  /** `HadoopBase(dist_config)`: the `dirs` section must name the four
      directories every Hadoop unit uses, and the descriptor must carry a
      `hadoop_version`. */
  function New(dc: DistConfigs.DistConfig, config: map<string, PropMaps.PyVal>): (r: Result<Base>)
    ensures r.Ok? <==> DistConfigs.Dirs(dc).Ok? && RequiredDirs <= DistConfigs.Dirs(dc).value.Keys
                       && "hadoop_version" in dc.attrs
    ensures DistConfigs.Dirs(dc).Ok? && !(RequiredDirs <= DistConfigs.Dirs(dc).value.Keys) ==>
              r == Err(MissingKeys(RequiredDirs - DistConfigs.Dirs(dc).value.Keys))
    ensures r.Ok? ==> r.value.dc == dc && r.value.config == config
    ensures r.Ok? ==> forall key :: r.value.path(key) == DistConfigs.Path(dc, ConfigText(config), key)
  {
    var dirs :- DistConfigs.Dirs(dc);
    var missing := RequiredDirs - dirs.Keys;
    EmptyDifference(RequiredDirs, dirs.Keys);
    if missing != {} then Err(MissingKeys(missing))
    else if "hadoop_version" !in dc.attrs then Err(AttributeError("hadoop_version"))
    else Ok(Base(dc, config, key => DistConfigs.Path(dc, ConfigText(config), key)))
  }

  lemma EmptyDifference<T>(a: set<T>, b: set<T>)
    ensures a - b == {} <==> a <= b
  {
    if a - b == {} {
      forall x | x in a ensures x in b {
        assert x !in a - b;
      }
    }
  }

  /** The charm configuration as `str.format` renders it into templates. */
  function ConfigText(config: map<string, PropMaps.PyVal>): map<string, string> {
    map k | k in config :: PropMaps.Str(config[k])
  }

  /** `dist_config.path(key)`. */
  function DirPath(b: Base, key: string): Result<string> {
    b.path(key)
  }

  /** Lift a failed lookup into an outcome that leaves the unit as it was. */
  function Fail<T>(r: Result<T>, h: Host): Outcome
    requires r.Err?
  {
    Failed(r.error, h)
  }

  function Record(h: Host, a: Action): Host {
    h.(log := h.log + [a])
  }

  const EtcEnvironment := "/etc/environment"
  const EtcHostsFile := "/etc/hosts"

  /** `p` lies inside directory `dir`, at any depth. */
  predicate Below(dir: string, p: string) {
    StartsWith(p, DirPrefix(dir))
  }

  /** Where restocking `conf` from `stock` takes the file at `p` from: a
      path inside `conf` from the same relative path inside `stock`, any
      other path from itself. */
  function Origin(stock: string, conf: string, p: string): string {
    if Below(conf, p) then DirPrefix(stock) + p[|DirPrefix(conf)|..] else p
  }

  /** A name inside `conf` is restocked from the same name inside `stock`. */
  lemma OriginSlash(stock: string, conf: string, rel: string)
    ensures Below(conf, Slash(conf, rel)) && Origin(stock, conf, Slash(conf, rel)) == Slash(stock, rel)
  {
    var q := Slash(conf, rel);
    assert q == DirPrefix(conf) + rel;
    assert q[..|DirPrefix(conf)|] == DirPrefix(conf) && q[|DirPrefix(conf)|..] == rel;
  }

  /** A path that does not name a directory keeps its last character
      through `Origin`. */
  lemma OriginLast(stock: string, conf: string, p: string)
    requires p != [] && p[|p| - 1] != '/'
    ensures var o := Origin(stock, conf, p); o != [] && o[|o| - 1] == p[|p| - 1]
  {
    if Below(conf, p) {
      var pre := DirPrefix(conf);
      assert |pre| < |p|;
      var rel := p[|pre|..];
      assert rel[|rel| - 1] == p[|p| - 1];
      var o := DirPrefix(stock) + rel;
      assert o[|o| - 1] == rel[|rel| - 1];
    }
  }

  /** The paths inside `conf` that the copy of `stock` fills. */
  function Copied<T>(m: map<string, T>, stock: string, conf: string): (r: set<string>)
    ensures forall p :: p in r <==> Below(conf, p) && Origin(stock, conf, p) in m && !Below(conf, Origin(stock, conf, p))
  {
    var r := set q | q in m && !Below(conf, q) && Below(stock, q) :: Slash(conf, q[|DirPrefix(stock)|..]);
    forall p
      ensures p in r <==> Below(conf, p) && Origin(stock, conf, p) in m && !Below(conf, Origin(stock, conf, p))
    {
      if p in r {
        var q :| q in m && !Below(conf, q) && Below(stock, q) && p == Slash(conf, q[|DirPrefix(stock)|..]);
        CopiedFromStock(stock, conf, q, q[|DirPrefix(stock)|..]);
      } else if Below(conf, p) && Origin(stock, conf, p) in m && !Below(conf, Origin(stock, conf, p)) {
        CopiedToConf(stock, conf, p, p[|DirPrefix(conf)|..]);
      }
    }
    r
  }

  /** A path inside `dir` is the directory's prefix and the rest. */
  lemma BelowSplit(dir: string, p: string)
    requires Below(dir, p)
    ensures p == DirPrefix(dir) + p[|DirPrefix(dir)|..]
  {
    assert p[..|DirPrefix(dir)|] == DirPrefix(dir);
  }

  /** The rest after a directory's prefix is what was appended. */
  lemma PrefixRest(dir: string, rel: string)
    ensures Below(dir, DirPrefix(dir) + rel) && (DirPrefix(dir) + rel)[|DirPrefix(dir)|..] == rel
  {
    var q := DirPrefix(dir) + rel;
    assert q[..|DirPrefix(dir)|] == DirPrefix(dir);
  }

  /** A file inside `stock` is copied to the path inside `conf` whose
      origin it is. */
  lemma CopiedFromStock(stock: string, conf: string, q: string, rel: string)
    requires Below(stock, q) && rel == q[|DirPrefix(stock)|..]
    ensures Below(conf, Slash(conf, rel))
    ensures Origin(stock, conf, Slash(conf, rel)) == q
  {
    OriginSlash(stock, conf, rel);
    BelowSplit(stock, q);
  }

  /** A path inside `conf` is where its origin inside `stock` is copied. */
  lemma CopiedToConf(stock: string, conf: string, p: string, rel: string)
    requires Below(conf, p) && rel == p[|DirPrefix(conf)|..]
    ensures Below(stock, Origin(stock, conf, p))
    ensures Origin(stock, conf, p)[|DirPrefix(stock)|..] == rel
    ensures p == Slash(conf, rel)
  {
    PrefixRest(stock, rel);
    BelowSplit(conf, p);
  }

  /** `conf.rmtree_p()` then `stock.copytree(conf)` on one kind of file:
      everything inside `conf` goes, and each file inside `stock` that
      outlived the removal reappears at the same relative path in `conf`. */
  function Restock<T>(m: map<string, T>, stock: string, conf: string): map<string, T> {
    var kept := set p | p in m && !Below(conf, p);
    map p | p in kept + Copied(m, stock, conf) :: m[Origin(stock, conf, p)]
  }

  /** After restocking, a path holds a file exactly when its origin held
      one that the removal spared, and then holds that file. */
  lemma RestockFacts<T>(m: map<string, T>, stock: string, conf: string)
    ensures var r := Restock(m, stock, conf);
            && (forall p :: p in r <==> Origin(stock, conf, p) in m && !Below(conf, Origin(stock, conf, p)))
            && (forall p :: p in r ==> r[p] == m[Origin(stock, conf, p)])
  {
  }

  /** The paths below `dir` that unpacking `archive` there writes. */
  function Unpacked<T>(archive: map<string, T>, dir: string): (r: set<string>)
    ensures forall p :: p in r <==> Below(dir, p) && p[|DirPrefix(dir)|..] in archive
  {
    var r := set rel | rel in archive :: DirPrefix(dir) + rel;
    forall p | Below(dir, p) && p[|DirPrefix(dir)|..] in archive
      ensures p in r
    {
      assert p == DirPrefix(dir) + p[|DirPrefix(dir)|..] by {
        assert p[..|DirPrefix(dir)|] == DirPrefix(dir);
      }
    }
    forall p | p in r
      ensures Below(dir, p) && p[|DirPrefix(dir)|..] in archive
    {
      var rel :| rel in archive && p == DirPrefix(dir) + rel;
      assert p[..|DirPrefix(dir)|] == DirPrefix(dir) && p[|DirPrefix(dir)|..] == rel;
    }
    r
  }

  /** Unpacking `archive` into `dir` on one kind of file: each member
      `rel` is written to `<dir>/<rel>`, and every other file is kept. */
  function Unpack<T>(m: map<string, T>, archive: map<string, T>, dir: string): map<string, T> {
    var written := Unpacked(archive, dir);
    map p | p in m.Keys + written :: if p in written then archive[p[|DirPrefix(dir)|..]] else m[p]
  }

  /** Unpacking writes each member at its path and keeps every other file. */
  lemma UnpackFacts<T>(m: map<string, T>, archive: map<string, T>, dir: string)
    ensures Unpacks(m, Unpack(m, archive, dir), archive, dir)
  {
    var written := Unpacked(archive, dir);
    forall rel | rel in archive
      ensures Slash(dir, rel) in written && Slash(dir, rel)[|DirPrefix(dir)|..] == rel
    {
      OriginSlash(dir, dir, rel);
    }
  }

  /** `path.exists()` for the files the model tracks. */
  predicate Exists(h: Host, p: string) {
    p in h.files || p in h.xml
  }

  /** One kind of file after `src` is copied over `dst`. */
  function Put<T>(m: map<string, T>, src: string, dst: string): map<string, T> {
    if src in m then m[dst := m[src]] else m - {dst}
  }

  /** `Path(src).copy(dst)`: IOError when `src` does not exist, otherwise
      `dst` becomes a copy of it and nothing else changes. */
  function CopyFile(h: Host, src: string, dst: string): (r: Outcome)
    ensures r.Failed? <==> !Exists(h, src)
    ensures r.Failed? ==> r == Failed(IOError(src), h)
    ensures r.host.flags == h.flags && r.host.kv == h.kv && r.host.log == h.log
  {
    if !Exists(h, src) then Failed(IOError(src), h)
    else Done(h.(files := Put(h.files, src, dst), xml := Put(h.xml, src, dst)))
  }

  /** A successful copy makes `dst` hold what `src` holds, of either kind,
      and leaves every other path as it was. */
  lemma CopyFileCopies(h: Host, src: string, dst: string)
    requires Exists(h, src)
    ensures var r := CopyFile(h, src, dst);
            && r.Done?
            && (dst in r.host.files <==> src in h.files) && (src in h.files ==> r.host.files[dst] == h.files[src])
            && (dst in r.host.xml <==> src in h.xml) && (src in h.xml ==> r.host.xml[dst] == h.xml[src])
            && (forall p :: p != dst ==> (p in r.host.files <==> p in h.files) && (p in r.host.xml <==> p in h.xml))
            && (forall p :: p != dst && p in h.files ==> r.host.files[p] == h.files[p])
            && (forall p :: p != dst && p in h.xml ==> r.host.xml[p] == h.xml[p])
  {
  }

  /** The content of `/etc/environment`, `None` when it does not exist. */
  function EtcEnvFile(h: Host): Option<seq<string>> {
    if EtcEnvironment in h.files then Some(h.files[EtcEnvironment]) else None
  }

  /** The `su` command line that runs `words` as `user`, quoted word by
      word (`RunAs.QuoteRoundTrip` reads the words back). */
  function SuArgv(user: string, words: seq<string>): seq<string> {
    ["su", user, "-c", RunAs.Quote(words)]
  }

  /** `a` runs the command line `words` as `user` through `su -c`. */
  predicate RunsAs(a: Action, user: string, words: seq<string>) {
    a.Su? && a.inv.argv == SuArgv(user, words)
  }

  /** A command taken relative to the Hadoop directory, with its arguments. */
  function HadoopWords(b: Base, command: string, args: seq<string>): seq<string>
    requires DirPath(b, "hadoop").Ok?
  {
    [Slash(DirPath(b, "hadoop").value, command)] + args
  }

  /** The `su` command line `run(user, command, *args)` issues. */
  function HadoopArgv(b: Base, user: string, command: string, args: seq<string>): seq<string>
    requires DirPath(b, "hadoop").Ok?
  {
    SuArgv(user, HadoopWords(b, command, args))
  }

  /** What stops `run` before it starts anything: the Hadoop directory does
      not resolve, or `/etc/environment` does not read.  `None` when the
      command is started. */
  function RunBlocker(h: Host, b: Base): Option<Error> {
    if DirPath(b, "hadoop").Err? then Some(DirPath(b, "hadoop").error)
    else if EtcEnv.ReadEtcEnv(EtcEnvFile(h)).Err? then Some(EtcEnv.ReadEtcEnv(EtcEnvFile(h)).error)
    else None
  }

  /** `HadoopBase.run(user, command, *args)`: `run_as` with the command taken
      relative to the Hadoop directory.  Unless something stops it first,
      exactly that one command is issued, and it fails when its command line
      is one the world rejects. */
  function Run(h: Host, w: World, b: Base, user: string, command: string, args: seq<string>): (r: Outcome)
    ensures r.host == h.(log := r.host.log)
    ensures |h.log| <= |r.host.log| <= |h.log| + 1 && r.host.log[..|h.log|] == h.log
    ensures RunBlocker(h, b).Some? ==> r == Failed(RunBlocker(h, b).value, h)
    ensures RunBlocker(h, b).None? ==>
              && |r.host.log| == |h.log| + 1
              && RunsAs(r.host.log[|h.log|], user, HadoopWords(b, command, args))
              && (r.Done? <==> HadoopArgv(b, user, command, args) !in w.failing)
              && (r.Failed? ==> r.error == CalledProcessError(HadoopArgv(b, user, command, args)))
  {
    var hadoop := DirPath(b, "hadoop");
    if hadoop.Err? then Fail(hadoop, h)
    else
      var inv := RunAs.Run(user, Slash(hadoop.value, command), args, EtcEnvFile(h), None, false);
      if inv.Err? then Fail(inv, h)
      else
        var h1 := Record(h, Su(inv.value));
        if inv.value.argv in w.failing then Failed(CalledProcessError(inv.value.argv), h1) else Done(h1)
  }

  /** Running a command changes only the log, so whatever stopped or
      allowed the first command does the same for the next. */
  lemma RunBlockerStable(h: Host, h1: Host, b: Base)
    requires h1 == h.(log := h1.log)
    ensures RunBlocker(h1, b) == RunBlocker(h, b)
  {
    assert EtcEnvFile(h1) == EtcEnvFile(h);
  }

  /** The line `configure_hosts_file` wants first in `/etc/hosts`. */
  function UnitLine(address: string, fqdn: string, hostname: string): string {
    var live := address + " " + fqdn + " " + hostname;
    if EtcHosts.LeadingDottedQuad(address) then live
    else "# " + live + "  # private-address did not return an IP"
  }

  function UnitLineOf(w: World): string {
    UnitLine(w.privateAddress, Strip(w.hostfqdn), Strip(w.hostname))
  }

  /** `configure_hosts_file`, as its test is evidently meant: put the unit's
      own line first in `/etc/hosts` unless it already is.  An empty file
      makes `hosts[0]` raise. */
  function ConfigureHostsFile(h: Host, w: World): (r: Outcome)
    ensures EtcHostsFile !in h.files ==> r == Failed(IOError(EtcHostsFile), h)
    ensures EtcHostsFile in h.files && h.files[EtcHostsFile] == [] ==> r == Failed(IndexError, h)
    ensures r.Done? <==> EtcHostsFile in h.files && h.files[EtcHostsFile] != []
    ensures r.host.flags == h.flags && r.host.kv == h.kv && r.host.log == h.log
    ensures r.Done? ==> r.host.xml == h.xml && r.host.files.Keys == h.files.Keys
                        && forall p :: p in h.files && p != EtcHostsFile ==> r.host.files[p] == h.files[p]
    ensures r.Done? ==> var before := h.files[EtcHostsFile];
                        var after := r.host.files[EtcHostsFile];
                        |after| > 0 && after[0] == UnitLineOf(w)
                        && (after == before <==> before[0] == UnitLineOf(w))
                        && (before[0] != UnitLineOf(w) ==> after[1..] == before)
  {
    if EtcHostsFile !in h.files then Failed(IOError(EtcHostsFile), h)
    else
      var hosts := h.files[EtcHostsFile];
      var line := UnitLineOf(w);
      if |hosts| == 0 then Failed(IndexError, h)
      else if hosts[0] != line then Done(h.(files := h.files[EtcHostsFile := [line] + hosts]))
      else Done(h)
  }

  /** Running `configure_hosts_file` again changes nothing. */
  lemma ConfigureHostsFileIdempotent(h: Host, w: World)
    requires ConfigureHostsFile(h, w).Done?
    ensures ConfigureHostsFile(ConfigureHostsFile(h, w).host, w) == ConfigureHostsFile(h, w)
  {
  }

  /** A line as `path.py`'s `lines()` returns it: the terminator is kept.
      Line files are lists of lines that each end in a newline, which is how
      `write_lines` writes them. */
  function Retained(line: string): string {
    line + "\n"
  }

  /** `configure_hosts_file` as written: `hosts[0]` still carries its
      newline while the unit's line has none, so the two never compare
      equal and the line is put first on every call. */
  function ConfigureHostsFileAsWritten(h: Host, w: World): (r: Outcome)
    ensures r.Done? <==> EtcHostsFile in h.files && h.files[EtcHostsFile] != []
    ensures r.Failed? ==> r.host == h
    ensures r.Done? ==> r.host == h.(files := h.files[EtcHostsFile := [UnitLineOf(w)] + h.files[EtcHostsFile]])
  {
    if EtcHostsFile !in h.files then Failed(IOError(EtcHostsFile), h)
    else
      var hosts := h.files[EtcHostsFile];
      var line := UnitLineOf(w);
      if |hosts| == 0 then Failed(IndexError, h)
      else
        RetainedNeverUnitLine(hosts[0], w);
        if Retained(hosts[0]) != line then Done(h.(files := h.files[EtcHostsFile := [line] + hosts]))
        else Done(h)
  }

  /** The unit's line never ends in a newline, so it never equals a line
      `lines()` returns with its terminator. */
  lemma RetainedNeverUnitLine(first: string, w: World)
    ensures Retained(first) != UnitLineOf(w)
  {
    var line := UnitLineOf(w);
    var host := Strip(w.hostname);
    if EtcHosts.LeadingDottedQuad(w.privateAddress) {
      assert line == (w.privateAddress + " " + Strip(w.hostfqdn) + " ") + host;
      if host == [] {
        assert line[|line| - 1] == ' ';
      } else {
        assert line[|line| - 1] == host[|host| - 1];
        assert host[|host| - 1] !in Whitespace;
      }
    } else {
      assert line[|line| - 1] == 'P';
    }
    assert Retained(first)[|Retained(first)| - 1] == '\n';
  }

  /** Run twice, the code as written leaves the unit's line at the top of
      `/etc/hosts` twice over, even when it was already first. */
  lemma HostsLineDuplicated(h: Host, w: World)
    requires EtcHostsFile in h.files && h.files[EtcHostsFile] != []
    ensures var once := ConfigureHostsFileAsWritten(h, w);
            var twice := ConfigureHostsFileAsWritten(once.host, w);
            && twice.Done?
            && twice.host.files[EtcHostsFile] == [UnitLineOf(w), UnitLineOf(w)] + h.files[EtcHostsFile]
            && twice != once
  {
    var line := UnitLineOf(w);
    var before := h.files[EtcHostsFile];
    var once := ConfigureHostsFileAsWritten(h, w);
    var twice := ConfigureHostsFileAsWritten(once.host, w);
    assert once.host.files[EtcHostsFile] == [line] + before;
    assert twice.host.files[EtcHostsFile] == [line] + ([line] + before);
    assert [line] + ([line] + before) == [line, line] + before;
    assert |twice.host.files[EtcHostsFile]| != |once.host.files[EtcHostsFile]|;
  }

  /** The case the test exists for: a file already headed by the unit's
      own line, where the corrected function changes nothing, gains a
      second copy of that line under the code as written. */
  lemma HostsLineAlreadyFirst(h: Host, w: World)
    requires EtcHostsFile in h.files && h.files[EtcHostsFile] != []
    requires h.files[EtcHostsFile][0] == UnitLineOf(w)
    ensures ConfigureHostsFile(h, w) == Done(h)
    ensures var after := ConfigureHostsFileAsWritten(h, w).host.files[EtcHostsFile];
            |after| >= 2 && after[0] == after[1] == UnitLineOf(w)
            && ConfigureHostsFileAsWritten(h, w) != ConfigureHostsFile(h, w)
  {
    var after := ConfigureHostsFileAsWritten(h, w).host.files[EtcHostsFile];
    assert |after| == |h.files[EtcHostsFile]| + 1;
  }

  const JavaInstaller := "java-installer"

  /** `install_java`: run the installer with `/etc/environment` as its
      environment; its output, once stripped, must be exactly two lines —
      the Java home and the Java version — each stored stripped. */
  function InstallJava(h: Host, w: World): (r: Outcome)
    ensures r.Done? <==> EtcEnv.ReadEtcEnv(EtcEnvFile(h)).Ok? && w.javaOutput.Some?
                         && Count(Strip(w.javaOutput.value), '\n') == 1
    ensures r.Done? ==> var parts := Split(Strip(w.javaOutput.value), '\n');
                        |parts| == 2 &&
                        r.host.kv == h.kv["java.home" := Strip(parts[0])]["java.version" := Strip(parts[1])]
    ensures r.host.flags == h.flags && r.host.files == h.files && r.host.xml == h.xml
    ensures |r.host.log| >= |h.log| && r.host.log[..|h.log|] == h.log
  {
    var env := EtcEnv.ReadEtcEnv(EtcEnvFile(h));
    if env.Err? then Fail(env, h)
    else
      var h1 := Record(Record(h, Chmod(JavaInstaller, 0x1ed)), Exec([JavaInstaller]));
      match w.javaOutput
      case None => Failed(CalledProcessError([JavaInstaller]), h1)
      case Some(out) =>
        var parts := Split(Strip(out), '\n');
        SplitTwo(Strip(out), '\n');
        if |parts| != 2 then Failed(UnpackError(out), h1)
        else Done(h1.(kv := h1.kv["java.home" := Strip(parts[0])]["java.version" := Strip(parts[1])]))
  }

  /** An installer that prints its Java home and version on two lines is
      read back exactly. */
  lemma InstallJavaReadsReport(h: Host, w: World, home: string, version: string)
    requires EtcEnv.ReadEtcEnv(EtcEnvFile(h)).Ok?
    requires '\n' !in home && '\n' !in version
    requires home != [] && version != [] && Trimmed(home, Whitespace) && Trimmed(version, Whitespace)
    requires w.javaOutput == Some(home + "\n" + version + "\n")
    ensures InstallJava(h, w).Done?
    ensures InstallJava(h, w).host.kv["java.home"] == home
    ensures InstallJava(h, w).host.kv["java.version"] == version
  {
    StripReport(home, version);
    SplitReport(home, version);
    StripCharsFixed(home, Whitespace);
    StripCharsFixed(version, Whitespace);
  }

  /** The installer's report, stripped, is its two lines and the newline between. */
  lemma StripReport(home: string, version: string)
    requires home != [] && version != [] && Trimmed(home, Whitespace) && Trimmed(version, Whitespace)
    ensures Strip(home + "\n" + version + "\n") == home + ['\n'] + version
  {
    var out := home + "\n" + version + "\n";
    var core := home + ['\n'] + version;
    StripCharsFixed(core, Whitespace);
    assert core[0] == home[0];
    assert core[|core| - 1] == version[|version| - 1];
    assert out == core + ['\n'];
    assert out[..|core|] == core;
    assert TrimRight(out, Whitespace) == TrimRight(core, Whitespace);
    assert TrimLeft(out, Whitespace) == out;
  }

  lemma SplitReport(home: string, version: string)
    requires '\n' !in home && '\n' !in version
    ensures Split(home + ['\n'] + version, '\n') == [home, version]
    ensures Count(home + ['\n'] + version, '\n') == 1
  {
    SplitAround(home, version, '\n');
    SplitCount(home + ['\n'] + version, '\n');
  }

  /** The body of the `/etc/environment` session in `configure_hadoop`.
      `PATH` must already be set; the configuration directory and the two
      log directories are resolved inside the session, in that order. */
  function EnvEdit(env: map<string, string>, javaHome: string, hadoop: string, b: Base): (r: Result<map<string, string>>)
    ensures r.Ok? <==> "PATH" in env && DirPath(b, "hadoop_conf").Ok?
                       && DirPath(b, "yarn_log_dir").Ok? && DirPath(b, "hdfs_log_dir").Ok?
    ensures "PATH" !in env ==> r == Err(KeyError("PATH"))
    ensures r.Ok? ==> r.value == SetVars(env, javaHome, hadoop, DirPath(b, "hadoop_conf").value,
                                         DirPath(b, "yarn_log_dir").value, DirPath(b, "hdfs_log_dir").value)
  {
    if "PATH" !in env then Err(KeyError("PATH"))
    else
      var conf :- DirPath(b, "hadoop_conf");
      var yarnLog :- DirPath(b, "yarn_log_dir");
      var hdfsLog :- DirPath(b, "hdfs_log_dir");
      Ok(SetVars(env, javaHome, hadoop, conf, yarnLog, hdfsLog))
  }

  /** Editing an edited environment again changes nothing. */
  lemma EnvEditIdempotent(env: map<string, string>, javaHome: string, hadoop: string, b: Base)
    requires EnvEdit(env, javaHome, hadoop, b).Ok?
    ensures EnvEdit(EnvEdit(env, javaHome, hadoop, b).value, javaHome, hadoop, b) == EnvEdit(env, javaHome, hadoop, b)
  {
    SetVarsIdempotent(env, javaHome, hadoop, DirPath(b, "hadoop_conf").value,
                      DirPath(b, "yarn_log_dir").value, DirPath(b, "hdfs_log_dir").value);
  }

  /** The `/etc/environment` session of `configure_hadoop`: the file must
      exist and parse, and the edit must succeed; otherwise nothing is
      written. */
  function WriteEnvironment(h: Host, javaHome: string, hadoop: string, b: Base,
                            order: map<string, string> -> seq<string>): (r: Outcome)
    ensures EtcEnvironment !in h.files ==> r == Failed(IOError(EtcEnvironment), h)
    ensures r.Done? <==> EtcEnvironment in h.files && EnvSession(h.files[EtcEnvironment], javaHome, hadoop, b, order).Ok?
    ensures r.Done? ==> r.host == h.(files := h.files[EtcEnvironment := EnvSession(h.files[EtcEnvironment], javaHome, hadoop, b, order).value])
    ensures r.Failed? ==> r.host == h
  {
    if EtcEnvironment !in h.files then Failed(IOError(EtcEnvironment), h)
    else
      var written := EnvSession(h.files[EtcEnvironment], javaHome, hadoop, b, order);
      if written.Err? then Fail(written, h)
      else Done(h.(files := h.files[EtcEnvironment := written.value]))
  }

  /** `environment_edit_in_place` with `EnvEdit` as the body. */
  function EnvSession(lines: seq<string>, javaHome: string, hadoop: string, b: Base,
                      order: map<string, string> -> seq<string>): (r: Result<seq<string>>)
    ensures r.Ok? <==> EtcEnv.Parse(lines).Ok? && EnvEdit(EtcEnv.Parse(lines).value, javaHome, hadoop, b).Ok?
  {
    EtcEnv.Session(lines, m => EnvEdit(m, javaHome, hadoop, b), order)
  }

  /** `hadoop-env.sh` in the configuration directory. */
  function HadoopEnvFile(conf: string): string {
    Slash(conf, "hadoop-env.sh")
  }

  /** `re_edit_in_place` of `hadoop-env.sh`: every line, and only that file. */
  function EditJavaHome(h: Host, javaHome: string, conf: string): (r: Outcome)
    ensures r.Done? <==> HadoopEnvFile(conf) in h.files
    ensures r.Failed? ==> r == Failed(IOError(HadoopEnvFile(conf)), h)
    ensures r.Done? ==> r.host.files.Keys == h.files.Keys
                        && |r.host.files[HadoopEnvFile(conf)]| == |h.files[HadoopEnvFile(conf)]|
                        && forall p :: p in h.files && p != HadoopEnvFile(conf) ==> r.host.files[p] == h.files[p]
    ensures r.host.flags == h.flags && r.host.kv == h.kv && r.host.log == h.log && r.host.xml == h.xml
  {
    var path := HadoopEnvFile(conf);
    if path !in h.files then Failed(IOError(path), h)
    else Done(h.(files := h.files[path := EditFile(h.files[path], javaHome)]))
  }

  /** `configure_hadoop`: set the Java and Hadoop variables in
      `/etc/environment`, then point `JAVA_HOME` in `hadoop-env.sh` at the
      Java home.  A missing `java.home` makes the `Path` constructor raise. */
  function ConfigureHadoop(h: Host, b: Base, order: map<string, string> -> seq<string>): (r: Outcome)
    ensures "java.home" !in h.kv ==> r == Failed(TypeError("java.home"), h)
    ensures r.Done? <==> "java.home" in h.kv && DirPath(b, "hadoop").Ok? && EtcEnvironment in h.files
                         && EtcEnv.Parse(h.files[EtcEnvironment]).Ok?
                         && EnvEdit(EtcEnv.Parse(h.files[EtcEnvironment]).value, h.kv["java.home"], DirPath(b, "hadoop").value, b).Ok?
                         && HadoopEnvFile(DirPath(b, "hadoop_conf").value) in h.files
    ensures r.Done? ==> r.host.files.Keys == h.files.Keys
    ensures r.Done? ==> r.host.files[EtcEnvironment]
                          == EnvSession(h.files[EtcEnvironment], h.kv["java.home"], DirPath(b, "hadoop").value, b, order).value
    ensures r.Done? ==> forall p :: p in h.files && p != EtcEnvironment && p != HadoopEnvFile(DirPath(b, "hadoop_conf").value)
                                    ==> r.host.files[p] == h.files[p]
    ensures r.host.flags == h.flags && r.host.kv == h.kv && r.host.log == h.log && r.host.xml == h.xml
  {
    if "java.home" !in h.kv then Failed(TypeError("java.home"), h)
    else
      var javaHome := h.kv["java.home"];
      var hadoop := DirPath(b, "hadoop");
      if hadoop.Err? then Fail(hadoop, h)
      else
        ConfigureWith(h, javaHome, hadoop.value, b, order)
  }

  /** The two edits of `configure_hadoop` once the Java home and the
      Hadoop directory are known. */
  function ConfigureWith(h: Host, javaHome: string, hadoop: string, b: Base,
                         order: map<string, string> -> seq<string>): (r: Outcome)
    ensures r.Done? <==> EtcEnvironment in h.files && EnvSession(h.files[EtcEnvironment], javaHome, hadoop, b, order).Ok?
                         && HadoopEnvFile(DirPath(b, "hadoop_conf").value) in h.files
    ensures r.Done? ==> r.host.files.Keys == h.files.Keys
    ensures r.Done? ==> r.host.files[EtcEnvironment] == EnvSession(h.files[EtcEnvironment], javaHome, hadoop, b, order).value
    ensures r.Done? ==> forall p :: p in h.files && p != EtcEnvironment && p != HadoopEnvFile(DirPath(b, "hadoop_conf").value)
                                    ==> r.host.files[p] == h.files[p]
    ensures r.host.flags == h.flags && r.host.kv == h.kv && r.host.log == h.log && r.host.xml == h.xml
  {
    var written := WriteEnvironment(h, javaHome, hadoop, b, order);
    if written.Failed? then written
    else
      var conf := DirPath(b, "hadoop_conf").value;
      HadoopEnvElsewhere(conf);
      var edited := EditJavaHome(written.host, javaHome, conf);
      EditsElsewhere(h.files, written.host.files, edited.host.files, EtcEnvironment, HadoopEnvFile(conf));
      edited
  }

  /** Two edits in a row, each keeping the names and every other file,
      keep every file but the two they edit. */
  lemma EditsElsewhere<T>(m: map<string, T>, m1: map<string, T>, m2: map<string, T>, k1: string, k2: string)
    requires k1 in m && k1 in m1 && m1 == m[k1 := m1[k1]] && k1 != k2
    requires m2.Keys == m1.Keys && forall p :: p in m1 && p != k2 ==> m2[p] == m1[p]
    ensures m2.Keys == m.Keys && m2[k1] == m1[k1]
    ensures forall p :: p in m && p != k1 && p != k2 ==> m2[p] == m[p]
  {
  }

  /** `hadoop-env.sh` is never `/etc/environment` or `/etc/hosts`, wherever
      the configuration directory is. */
  lemma HadoopEnvElsewhere(conf: string)
    ensures HadoopEnvFile(conf) != EtcEnvironment && HadoopEnvFile(conf) != EtcHostsFile
  {
    var f := HadoopEnvFile(conf);
    assert f[|f| - 1] == 'h';
    assert EtcEnvironment[|EtcEnvironment| - 1] == 't';
    assert EtcHostsFile[|EtcHostsFile| - 1] == 's';
  }

  /** Every key and value survives the `k="v"` rewrite. */
  predicate CleanEnv(m: map<string, string>) {
    forall k :: k in m ==> EtcEnv.CleanKey(k) && EtcEnv.CleanValue(m[k])
  }

  /** The environment the session writes reads back as the edited one. */
  lemma EnvSessionRoundTrip(lines: seq<string>, javaHome: string, hadoop: string, b: Base,
                            order: map<string, string> -> seq<string>)
    requires EnvSession(lines, javaHome, hadoop, b, order).Ok?
    requires CleanEnv(EnvEdit(EtcEnv.Parse(lines).value, javaHome, hadoop, b).value)
    requires EtcEnv.Enumerates(order(EnvEdit(EtcEnv.Parse(lines).value, javaHome, hadoop, b).value),
                               EnvEdit(EtcEnv.Parse(lines).value, javaHome, hadoop, b).value.Keys)
    ensures EtcEnv.Parse(EnvSession(lines, javaHome, hadoop, b, order).value)
         == EnvEdit(EtcEnv.Parse(lines).value, javaHome, hadoop, b)
  {
    EtcEnv.SessionRoundTrip(lines, m => EnvEdit(m, javaHome, hadoop, b), order);
  }

  /** A second session over the file the first one wrote writes it again unchanged. */
  lemma EnvSessionStable(lines: seq<string>, javaHome: string, hadoop: string, b: Base,
                         order: map<string, string> -> seq<string>)
    requires EnvSession(lines, javaHome, hadoop, b, order).Ok?
    requires CleanEnv(EnvEdit(EtcEnv.Parse(lines).value, javaHome, hadoop, b).value)
    requires EtcEnv.Enumerates(order(EnvEdit(EtcEnv.Parse(lines).value, javaHome, hadoop, b).value),
                               EnvEdit(EtcEnv.Parse(lines).value, javaHome, hadoop, b).value.Keys)
    ensures EnvSession(EnvSession(lines, javaHome, hadoop, b, order).value, javaHome, hadoop, b, order)
         == EnvSession(lines, javaHome, hadoop, b, order)
  {
    var data := EtcEnv.Parse(lines).value;
    var out := EnvEdit(data, javaHome, hadoop, b).value;
    var written := EnvSession(lines, javaHome, hadoop, b, order).value;
    EnvSessionRoundTrip(lines, javaHome, hadoop, b, order);
    assert EtcEnv.Parse(written) == Ok(out);
    EnvEditIdempotent(data, javaHome, hadoop, b);
    assert EnvEdit(out, javaHome, hadoop, b) == Ok(out);
  }

  /** After `configure_hadoop`, `/etc/environment` reads back as the old
      environment `data` with the Hadoop variables set. */
  lemma ConfigureHadoopEnvironment(h: Host, b: Base, order: map<string, string> -> seq<string>,
                                   javaHome: string, hadoop: string, conf: string, data: map<string, string>)
    requires "java.home" in h.kv && h.kv["java.home"] == javaHome
    requires DirPath(b, "hadoop") == Ok(hadoop) && DirPath(b, "hadoop_conf") == Ok(conf)
    requires EtcEnvironment in h.files && EtcEnv.Parse(h.files[EtcEnvironment]) == Ok(data)
    requires ConfigureHadoop(h, b, order).Done?
    requires HadoopEnvFile(conf) != EtcEnvironment
    requires EnvEdit(data, javaHome, hadoop, b).Ok? && CleanEnv(EnvEdit(data, javaHome, hadoop, b).value)
    requires EtcEnv.Enumerates(order(EnvEdit(data, javaHome, hadoop, b).value), EnvEdit(data, javaHome, hadoop, b).value.Keys)
    ensures EtcEnv.Parse(ConfigureHadoop(h, b, order).host.files[EtcEnvironment]) == EnvEdit(data, javaHome, hadoop, b)
  {
    var h1 := WriteEnvironment(h, javaHome, hadoop, b, order).host;
    assert ConfigureHadoop(h, b, order) == EditJavaHome(h1, javaHome, conf);
    var h2 := ConfigureHadoop(h, b, order).host;
    assert h2.files[EtcEnvironment] == h1.files[EtcEnvironment];
    assert h1.files[EtcEnvironment] == EnvSession(h.files[EtcEnvironment], javaHome, hadoop, b, order).value;
    EnvSessionRoundTrip(h.files[EtcEnvironment], javaHome, hadoop, b, order);
  }

  /** Running `configure_hadoop` again changes nothing. */
  lemma ConfigureHadoopIdempotent(h: Host, b: Base, order: map<string, string> -> seq<string>,
                                  javaHome: string, hadoop: string, conf: string, data: map<string, string>)
    requires "java.home" in h.kv && h.kv["java.home"] == javaHome
    requires DirPath(b, "hadoop") == Ok(hadoop) && DirPath(b, "hadoop_conf") == Ok(conf)
    requires EtcEnvironment in h.files && EtcEnv.Parse(h.files[EtcEnvironment]) == Ok(data)
    requires ConfigureHadoop(h, b, order).Done?
    requires HadoopEnvFile(conf) != EtcEnvironment
    requires EnvEdit(data, javaHome, hadoop, b).Ok? && CleanEnv(EnvEdit(data, javaHome, hadoop, b).value)
    requires EtcEnv.Enumerates(order(EnvEdit(data, javaHome, hadoop, b).value), EnvEdit(data, javaHome, hadoop, b).value.Keys)
    ensures ConfigureHadoop(ConfigureHadoop(h, b, order).host, b, order) == ConfigureHadoop(h, b, order)
  {
    var env := h.files[EtcEnvironment];
    var h1 := WriteEnvironment(h, javaHome, hadoop, b, order).host;
    assert ConfigureHadoop(h, b, order) == EditJavaHome(h1, javaHome, conf);
    var h2 := ConfigureHadoop(h, b, order).host;
    var written := EnvSession(env, javaHome, hadoop, b, order).value;
    assert h1.files[EtcEnvironment] == written;
    assert h2.files[EtcEnvironment] == written;
    EnvSessionStable(env, javaHome, hadoop, b, order);
    assert EnvSession(written, javaHome, hadoop, b, order) == Ok(written);
    WriteEnvironmentAgain(h2, javaHome, hadoop, b, order);
    var he := HadoopEnvFile(conf);
    assert h2.files[he] == EditFile(h1.files[he], javaHome);
    EditJavaHomeAgain(h2, javaHome, conf, h1.files[he]);
    assert h2.kv == h.kv;
    assert ConfigureHadoop(h2, b, order) == EditJavaHome(h2, javaHome, conf);
  }

  /** A session over a file it would write unchanged leaves the unit alone. */
  lemma WriteEnvironmentAgain(h: Host, javaHome: string, hadoop: string, b: Base,
                              order: map<string, string> -> seq<string>)
    requires EtcEnvironment in h.files
    requires EnvSession(h.files[EtcEnvironment], javaHome, hadoop, b, order) == Ok(h.files[EtcEnvironment])
    ensures WriteEnvironment(h, javaHome, hadoop, b, order).Done?
    ensures WriteEnvironment(h, javaHome, hadoop, b, order).host == h
  {
    var lines := h.files[EtcEnvironment];
    SameFile(h, EtcEnvironment, lines);
  }

  lemma SameFile(h: Host, path: string, lines: seq<string>)
    requires path in h.files && h.files[path] == lines
    ensures h.(files := h.files[path := lines]) == h
  {
    assert h.files[path := lines] == h.files;
  }

  /** Editing an edited `hadoop-env.sh` leaves the unit alone. */
  lemma EditJavaHomeAgain(h: Host, javaHome: string, conf: string, lines: seq<string>)
    requires HadoopEnvFile(conf) in h.files && h.files[HadoopEnvFile(conf)] == EditFile(lines, javaHome)
    ensures EditJavaHome(h, javaHome, conf) == Done(h)
  {
    EditFileIdempotent(lines, javaHome);
    assert h.files[HadoopEnvFile(conf) := EditFile(EditFile(lines, javaHome), javaHome)] == h.files;
  }


  /** Where the Hadoop archive keeps its stock configuration. */
  const StockDir := "etc/hadoop"

  /** The stock configuration that comes with the Hadoop distribution. */
  function StockConf(hadoop: string): string {
    Slash(hadoop, StockDir)
  }

  /** The archive member that unpacks to `name` in the stock configuration. */
  function StockMember(name: string): string {
    StockDir + "/" + name
  }

  /** A name inside a subdirectory that does not end in `/` is the name
      below the subdirectory. */
  lemma SlashNested(dir: string, sub: string, name: string)
    requires sub != [] && sub[|sub| - 1] != '/'
    ensures Slash(dir, sub + "/" + name) == Slash(Slash(dir, sub), name)
  {
    var pre := DirPrefix(dir);
    var s := pre + sub;
    assert Slash(dir, sub) == s;
    assert s[|s| - 1] == sub[|sub| - 1];
    assert DirPrefix(s) == s + "/";
    assert pre + (sub + "/" + name) == s + "/" + name;
  }

  /** A stock configuration file is the archive member of the same name,
      unpacked into the Hadoop directory. */
  lemma StockMemberPath(hadoop: string, name: string)
    ensures Slash(hadoop, StockMember(name)) == Slash(StockConf(hadoop), name)
  {
    assert StockDir[|StockDir| - 1] == 'p';
    SlashNested(hadoop, StockDir, name);
  }

  /** `after` holds one kind of file as `before` does once `archive` is
      unpacked into `dir`: each member at its path, every other file kept. */
  ghost predicate Unpacks<T>(before: map<string, T>, after: map<string, T>, archive: map<string, T>, dir: string) {
    && (forall rel :: rel in archive ==> Slash(dir, rel) in after && after[Slash(dir, rel)] == archive[rel])
    && (forall p :: p in after <==> p in before || (Below(dir, p) && p[|DirPrefix(dir)|..] in archive))
    && (forall p :: p in before && !(Below(dir, p) && p[|DirPrefix(dir)|..] in archive) ==> after[p] == before[p])
  }

  /** The unit with the Hadoop archive unpacked into `hadoop`. */
  function WithHadoop(h: Host, w: World, hadoop: string): (r: Host)
    ensures r.flags == h.flags && r.kv == h.kv && r.log == h.log
  {
    h.(files := Unpack(h.files, w.hadoopFiles, hadoop), xml := Unpack(h.xml, w.hadoopXml, hadoop))
  }

  /** Both kinds of file are unpacked from the archive. */
  lemma WithHadoopUnpacks(h: Host, w: World, hadoop: string)
    ensures Unpacks(h.files, WithHadoop(h, w, hadoop).files, w.hadoopFiles, hadoop)
    ensures Unpacks(h.xml, WithHadoop(h, w, hadoop).xml, w.hadoopXml, hadoop)
  {
    UnpackFacts(h.files, w.hadoopFiles, hadoop);
    UnpackFacts(h.xml, w.hadoopXml, hadoop);
  }

  const InstalledFlag := "hadoop.base.installed"

  /** `install_base_packages`: Java, then the Hadoop archive unpacked into
      the Hadoop directory. */
  function InstallBasePackages(h: Host, w: World, b: Base): (r: Outcome)
    ensures r.Done? <==> EtcEnv.ReadEtcEnv(EtcEnvFile(h)).Ok? && w.javaOutput.Some?
                         && Count(Strip(w.javaOutput.value), '\n') == 1 && DirPath(b, "hadoop").Ok?
    ensures r.host.flags == h.flags
    ensures r.Failed? ==> r.host.files == h.files && r.host.xml == h.xml
    ensures r.Done? ==> "java.home" in r.host.kv && "java.version" in r.host.kv
    ensures r.Done? ==> r.host.files == WithHadoop(h, w, DirPath(b, "hadoop").value).files
                        && r.host.xml == WithHadoop(h, w, DirPath(b, "hadoop").value).xml
    ensures |r.host.log| >= |h.log| && r.host.log[..|h.log|] == h.log
  {
    var h1 :- InstallJava(h, w);
    var hadoop := DirPath(b, "hadoop");
    if hadoop.Err? then Fail(hadoop, h1)
    else Done(WithHadoop(h1, w, hadoop.value))
  }

  /** The stock file `name` is there to copy: it exists and does not lie
      inside `conf`, which the copy empties first. */
  predicate Stocked(h: Host, stock: string, conf: string, name: string) {
    Exists(h, Slash(stock, name)) && !Below(conf, Slash(stock, name))
  }

  /** `before` restocked into `after`, on one kind of file: nothing outside
      `conf` changes, `slaves` is gone, and every other name inside `conf`
      but `mapred-site.xml` holds what the same name in `stock` held, if
      that file outlived the emptying of `conf`. */
  ghost predicate Restocked<T>(before: map<string, T>, after: map<string, T>, stock: string, conf: string) {
    && (forall p :: !Below(conf, p) ==> (p in after <==> p in before))
    && (forall p :: p in before && !Below(conf, p) ==> after[p] == before[p])
    && Slash(conf, "slaves") !in after
    && (forall rel :: rel != "slaves" && rel != "mapred-site.xml" ==>
          (Slash(conf, rel) in after <==> Slash(stock, rel) in before && !Below(conf, Slash(stock, rel))))
    && (forall rel :: rel != "slaves" && rel != "mapred-site.xml" && Slash(conf, rel) in after ==>
          Slash(stock, rel) in before && after[Slash(conf, rel)] == before[Slash(stock, rel)])
  }

  /** `Restocked` at one name other than `slaves` and `mapred-site.xml`. */
  lemma RestockedAt<T>(before: map<string, T>, after: map<string, T>, stock: string, conf: string, rel: string)
    requires Restocked(before, after, stock, conf) && rel != "slaves" && rel != "mapred-site.xml"
    ensures Slash(conf, rel) in after <==> Slash(stock, rel) in before && !Below(conf, Slash(stock, rel))
    ensures Slash(conf, rel) in after ==> after[Slash(conf, rel)] == before[Slash(stock, rel)]
  {
  }

  /** Where `mapred-site.xml` comes from: the stock file when there is one
      to copy, its template otherwise. */
  function MapredSource(h: Host, stock: string, conf: string): string {
    if Stocked(h, stock, conf, "mapred-site.xml") then Slash(stock, "mapred-site.xml")
    else Slash(stock, "mapred-site.xml.template")
  }

  /** `after`'s `mapred-site.xml` is a copy of its source in `before`. */
  predicate MapredCopied(before: Host, after: Host, stock: string, conf: string) {
    var src := MapredSource(before, stock, conf);
    var site := Slash(conf, "mapred-site.xml");
    && (site in after.files <==> src in before.files) && (site in after.xml <==> src in before.xml)
    && (src in before.files ==> after.files[site] == before.files[src])
    && (src in before.xml ==> after.xml[site] == before.xml[src])
  }

  /** Restocking, then removing `slaves`, meets `Restocked`, and
      `mapred-site.xml` is restocked like the other names. */
  lemma RestockedFresh<T>(m: map<string, T>, stock: string, conf: string)
    ensures var after := Restock(m, stock, conf) - {Slash(conf, "slaves")};
            && Restocked(m, after, stock, conf)
            && (Slash(conf, "mapred-site.xml") in after <==>
                  Slash(stock, "mapred-site.xml") in m && !Below(conf, Slash(stock, "mapred-site.xml")))
  {
    OriginSlash(stock, conf, "slaves");
    OriginSlash(stock, conf, "mapred-site.xml");
    SlashInjective(conf, "mapred-site.xml", "slaves");
    forall rel | rel != "slaves"
      ensures Slash(conf, rel) != Slash(conf, "slaves") && Origin(stock, conf, Slash(conf, rel)) == Slash(stock, rel)
    {
      SlashInjective(conf, rel, "slaves");
      OriginSlash(stock, conf, rel);
    }
  }

  /** Copying over `mapred-site.xml` keeps `Restocked`. */
  lemma RestockedPut<T>(m: map<string, T>, after: map<string, T>, stock: string, conf: string, src: string)
    requires Restocked(m, after, stock, conf)
    ensures Restocked(m, Put(after, src, Slash(conf, "mapred-site.xml")), stock, conf)
  {
    var site := Slash(conf, "mapred-site.xml");
    OriginSlash(stock, conf, "mapred-site.xml");
    SlashInjective(conf, "slaves", "mapred-site.xml");
    forall rel | rel != "mapred-site.xml"
      ensures Slash(conf, rel) != site
    {
      SlashInjective(conf, rel, "mapred-site.xml");
    }
  }

  /** `conf.rmtree_p()`, `stock.copytree(conf)` and the removal of `slaves`. */
  function Restage(h: Host, stock: string, conf: string): (r: Host)
    ensures r.flags == h.flags && r.kv == h.kv && r.log == h.log
  {
    var slaves := Slash(conf, "slaves");
    h.(files := Restock(h.files, stock, conf) - {slaves}, xml := Restock(h.xml, stock, conf) - {slaves})
  }

  /** Restaging restocks both kinds of file. */
  lemma RestageRestocks(h: Host, stock: string, conf: string)
    ensures Restocked(h.files, Restage(h, stock, conf).files, stock, conf)
    ensures Restocked(h.xml, Restage(h, stock, conf).xml, stock, conf)
  {
    RestockedFresh(h.files, stock, conf);
    RestockedFresh(h.xml, stock, conf);
  }

  /** The restaged unit holds the stock `mapred-site.xml` or template the
      original one had to copy. */
  lemma RestagedMapred(h: Host, stock: string, conf: string, name: string)
    requires name == "mapred-site.xml" || name == "mapred-site.xml.template"
    ensures var r := Restage(h, stock, conf);
            var q := Slash(conf, name);
            var src := Slash(stock, name);
            && (Exists(r, q) <==> Stocked(h, stock, conf, name))
            && (q in r.files ==> src in h.files && r.files[q] == h.files[src])
            && (q in r.xml ==> src in h.xml && r.xml[q] == h.xml[src])
            && (Stocked(h, stock, conf, name) ==> (q in r.files <==> src in h.files) && (q in r.xml <==> src in h.xml))
  {
    var r := Restage(h, stock, conf);
    OriginSlash(stock, conf, name);
    SlashInjective(conf, name, "slaves");
    assert Origin(stock, conf, Slash(conf, name)) == Slash(stock, name);
  }

  /** `setup_hadoop_config`: empty the configuration directory, copy the
      stock configuration into it, remove `slaves`, and make
      `mapred-site.xml` from its template when the copy brought none.
      `SetupHadoopConfigOutcome` says when it succeeds and
      `SetupHadoopConfigRestocks` what it leaves. */
  function SetupHadoopConfig(h: Host, b: Base): (r: Outcome)
    ensures DirPath(b, "hadoop").Err? ==> r == Failed(DirPath(b, "hadoop").error, h)
    ensures DirPath(b, "hadoop").Ok? && DirPath(b, "hadoop_conf").Err? ==> r == Failed(DirPath(b, "hadoop_conf").error, h)
    ensures r.host.flags == h.flags && r.host.kv == h.kv && r.host.log == h.log
  {
    var hadoop := DirPath(b, "hadoop");
    var conf := DirPath(b, "hadoop_conf");
    if hadoop.Err? then Fail(hadoop, h)
    else if conf.Err? then Fail(conf, h)
    else
      var h1 := Restage(h, StockConf(hadoop.value), conf.value);
      var site := Slash(conf.value, "mapred-site.xml");
      if Exists(h1, site) then Done(h1)
      else CopyFile(h1, Slash(conf.value, "mapred-site.xml.template"), site)
  }

  /** With both directories resolved, `setup_hadoop_config` succeeds
      exactly when the stock `mapred-site.xml` or its template is there to
      copy, and otherwise fails copying the template. */
  lemma SetupHadoopConfigOutcome(h: Host, b: Base)
    requires DirPath(b, "hadoop").Ok? && DirPath(b, "hadoop_conf").Ok?
    ensures var stock := StockConf(DirPath(b, "hadoop").value);
            var conf := DirPath(b, "hadoop_conf").value;
            var r := SetupHadoopConfig(h, b);
            && (r.Done? <==> Stocked(h, stock, conf, "mapred-site.xml") || Stocked(h, stock, conf, "mapred-site.xml.template"))
            && (r.Failed? ==> r.error == IOError(Slash(conf, "mapred-site.xml.template")))
  {
    var stock := StockConf(DirPath(b, "hadoop").value);
    var conf := DirPath(b, "hadoop_conf").value;
    RestagedMapred(h, stock, conf, "mapred-site.xml");
    RestagedMapred(h, stock, conf, "mapred-site.xml.template");
  }

  /** What a successful `setup_hadoop_config` leaves: nothing outside the
      configuration directory changes, and inside it every file is the
      stock one of the same name, `slaves` is gone, and `mapred-site.xml`
      is the stock file or else a copy of its template. */
  lemma SetupHadoopConfigRestocks(h: Host, b: Base)
    requires DirPath(b, "hadoop").Ok? && DirPath(b, "hadoop_conf").Ok? && SetupHadoopConfig(h, b).Done?
    ensures var stock := StockConf(DirPath(b, "hadoop").value);
            var conf := DirPath(b, "hadoop_conf").value;
            var r := SetupHadoopConfig(h, b).host;
            && Restocked(h.files, r.files, stock, conf) && Restocked(h.xml, r.xml, stock, conf)
            && MapredCopied(h, r, stock, conf)
  {
    var stock := StockConf(DirPath(b, "hadoop").value);
    var conf := DirPath(b, "hadoop_conf").value;
    var h1 := Restage(h, stock, conf);
    RestageRestocks(h, stock, conf);
    RestagedMapred(h, stock, conf, "mapred-site.xml");
    RestagedMapred(h, stock, conf, "mapred-site.xml.template");
    var site := Slash(conf, "mapred-site.xml");
    if !Exists(h1, site) {
      var template := Slash(conf, "mapred-site.xml.template");
      RestockedPut(h.files, h1.files, stock, conf, template);
      RestockedPut(h.xml, h1.xml, stock, conf, template);
    }
  }

  /** `/etc/environment` and `/etc/hosts` come through
      `setup_hadoop_config` as they were, unless the configuration
      directory holds them. */
  lemma SetupKeepsSystemFiles(h: Host, b: Base)
    requires SetupHadoopConfig(h, b).Done?
    ensures DirPath(b, "hadoop_conf").Ok?
    ensures var r := SetupHadoopConfig(h, b).host;
            forall p | p == EtcEnvironment || p == EtcHostsFile ::
              !Below(DirPath(b, "hadoop_conf").value, p) ==>
                (p in r.files <==> p in h.files) && (p in h.files ==> r.files[p] == h.files[p])
  {
    if !Below(DirPath(b, "hadoop_conf").value, EtcEnvironment) {
      SetupKeepsOutside(h, b, EtcEnvironment);
    }
    if !Below(DirPath(b, "hadoop_conf").value, EtcHostsFile) {
      SetupKeepsOutside(h, b, EtcHostsFile);
    }
  }

  /** A file outside the configuration directory comes through
      `setup_hadoop_config` as it was. */
  lemma SetupKeepsOutside(h: Host, b: Base, p: string)
    requires SetupHadoopConfig(h, b).Done?
    requires DirPath(b, "hadoop_conf").Ok? && !Below(DirPath(b, "hadoop_conf").value, p)
    ensures var r := SetupHadoopConfig(h, b).host;
            && (p in r.files <==> p in h.files) && (p in h.files ==> r.files[p] == h.files[p])
            && (p in r.xml <==> p in h.xml) && (p in h.xml ==> r.xml[p] == h.xml[p])
  {
    SetupHadoopConfigRestocks(h, b);
  }

  /** `Restock` reads nothing inside `conf`. */
  lemma RestockForgets<T>(m: map<string, T>, m': map<string, T>, stock: string, conf: string)
    requires forall p :: !Below(conf, p) ==> (p in m' <==> p in m) && (p in m ==> m'[p] == m[p])
    ensures Restock(m', stock, conf) == Restock(m, stock, conf)
  {
    var r, r' := Restock(m, stock, conf), Restock(m', stock, conf);
    forall p
      ensures (p in r' <==> p in r) && (p in r ==> r'[p] == r[p])
    {
      var o := Origin(stock, conf, p);
      if !Below(conf, o) {
        assert (o in m' <==> o in m) && (o in m ==> m'[o] == m[o]);
      }
    }
  }

  /** `setup_hadoop_config` reads nothing inside the configuration
      directory: two units that agree elsewhere end up alike, so a forced
      reinstall discards every edit made there since. */
  lemma SetupHadoopConfigForgets(h: Host, h': Host, b: Base)
    requires DirPath(b, "hadoop").Ok? && DirPath(b, "hadoop_conf").Ok?
    requires h'.flags == h.flags && h'.kv == h.kv && h'.log == h.log
    requires forall p :: !Below(DirPath(b, "hadoop_conf").value, p) ==>
               && (p in h'.files <==> p in h.files) && (p in h.files ==> h'.files[p] == h.files[p])
               && (p in h'.xml <==> p in h.xml) && (p in h.xml ==> h'.xml[p] == h.xml[p])
    ensures SetupHadoopConfig(h', b) == SetupHadoopConfig(h, b)
  {
    var stock := StockConf(DirPath(b, "hadoop").value);
    var conf := DirPath(b, "hadoop_conf").value;
    RestageForgets(h, h', stock, conf);
  }

  /** `Restage` reads nothing inside `conf`. */
  lemma RestageForgets(h: Host, h': Host, stock: string, conf: string)
    requires h'.flags == h.flags && h'.kv == h.kv && h'.log == h.log
    requires forall p :: !Below(conf, p) ==>
               && (p in h'.files <==> p in h.files) && (p in h.files ==> h'.files[p] == h.files[p])
               && (p in h'.xml <==> p in h.xml) && (p in h.xml ==> h'.xml[p] == h.xml[p])
    ensures Restage(h', stock, conf) == Restage(h, stock, conf)
  {
    RestockForgets(h.files, h'.files, stock, conf);
    RestockForgets(h.xml, h'.xml, stock, conf);
  }

  /** Running `setup_hadoop_config` again changes nothing. */
  lemma SetupHadoopConfigIdempotent(h: Host, b: Base)
    requires SetupHadoopConfig(h, b).Done?
    ensures SetupHadoopConfig(SetupHadoopConfig(h, b).host, b) == SetupHadoopConfig(h, b)
  {
    var h1 := SetupHadoopConfig(h, b).host;
    SetupHadoopConfigRestocks(h, b);
    SetupHadoopConfigForgets(h, h1, b);
  }

  /** `p` names a file whose name ends in `c`. */
  predicate EndsIn(p: string, c: char) {
    p != [] && p[|p| - 1] == c
  }

  /** `m` and `m'` agree at every path whose name does not end in `c`. */
  ghost predicate AgreeBut<T>(m: map<string, T>, m': map<string, T>, c: char) {
    forall p :: !EndsIn(p, c) ==> (p in m' <==> p in m) && (p in m ==> m'[p] == m[p])
  }

  /** Two units alike but for files whose names end in `c`. */
  ghost predicate HostsAgreeBut(h: Host, h': Host, c: char) {
    && h'.flags == h.flags && h'.kv == h.kv && h'.log == h.log
    && AgreeBut(h.files, h'.files, c) && AgreeBut(h.xml, h'.xml, c)
  }

  /** A name ending in `c` is restocked only from a name ending in `c`. */
  lemma OriginEnds(stock: string, conf: string, p: string, c: char)
    requires c != '/' && EndsIn(Origin(stock, conf, p), c)
    ensures EndsIn(p, c)
  {
    if Below(conf, p) {
      var rel := p[|DirPrefix(conf)|..];
      if rel != [] {
        assert Origin(stock, conf, p)[|Origin(stock, conf, p)| - 1] == rel[|rel| - 1];
      }
    }
  }

  lemma RestockAgreeBut<T>(m: map<string, T>, m': map<string, T>, stock: string, conf: string, c: char)
    requires c != '/' && AgreeBut(m, m', c)
    ensures AgreeBut(Restock(m, stock, conf), Restock(m', stock, conf), c)
  {
    forall p | !EndsIn(p, c)
      ensures !EndsIn(Origin(stock, conf, p), c)
    {
      if EndsIn(Origin(stock, conf, p), c) {
        OriginEnds(stock, conf, p, c);
      }
    }
  }

  lemma UnpackAgreeBut<T>(m: map<string, T>, m': map<string, T>, archive: map<string, T>, dir: string, c: char)
    requires AgreeBut(m, m', c)
    ensures AgreeBut(Unpack(m, archive, dir), Unpack(m', archive, dir), c)
  {
  }

  lemma PutAgreeBut<T>(m: map<string, T>, m': map<string, T>, src: string, dst: string, c: char)
    requires AgreeBut(m, m', c) && !EndsIn(src, c)
    ensures AgreeBut(Put(m, src, dst), Put(m', src, dst), c)
  {
  }

  lemma RestageAgreeBut(h: Host, h': Host, stock: string, conf: string, c: char)
    requires c != '/' && HostsAgreeBut(h, h', c)
    ensures HostsAgreeBut(Restage(h, stock, conf), Restage(h', stock, conf), c)
  {
    RestockAgreeBut(h.files, h'.files, stock, conf, c);
    RestockAgreeBut(h.xml, h'.xml, stock, conf, c);
  }

  /** A name inside a directory ends as the name does. */
  lemma SlashEnds(dir: string, name: string)
    requires name != []
    ensures EndsIn(Slash(dir, name), name[|name| - 1])
  {
  }

  /** `setup_hadoop_config` keeps two units alike but for the files whose
      names end in `c`, when `c` ends neither a directory nor a name the
      step looks up. */
  lemma SetupAgreeBut(h: Host, h': Host, b: Base, c: char)
    requires c != '/' && c != 'l' && c != 'e' && HostsAgreeBut(h, h', c)
    ensures SetupHadoopConfig(h', b).Done? == SetupHadoopConfig(h, b).Done?
    ensures HostsAgreeBut(SetupHadoopConfig(h, b).host, SetupHadoopConfig(h', b).host, c)
  {
    if DirPath(b, "hadoop").Ok? && DirPath(b, "hadoop_conf").Ok? {
      var stock := StockConf(DirPath(b, "hadoop").value);
      var conf := DirPath(b, "hadoop_conf").value;
      RestageAgreeBut(h, h', stock, conf, c);
      var h1, h1' := Restage(h, stock, conf), Restage(h', stock, conf);
      var site := Slash(conf, "mapred-site.xml");
      var template := Slash(conf, "mapred-site.xml.template");
      SlashEnds(conf, "mapred-site.xml");
      SlashEnds(conf, "mapred-site.xml.template");
      assert Exists(h1', site) == Exists(h1, site);
      assert Exists(h1', template) == Exists(h1, template);
      PutAgreeBut(h1.files, h1'.files, template, site, c);
      PutAgreeBut(h1.xml, h1'.xml, template, site, c);
    }
  }

  /** What `configure_hadoop` needs from the unit besides `java.home`:
      every directory it uses, `/etc/environment` parsing and holding
      `PATH`, and `hadoop-env.sh` in the configuration directory. */
  predicate HadoopReady(h: Host, b: Base) {
    && DirPath(b, "hadoop").Ok? && DirPath(b, "hadoop_conf").Ok?
    && DirPath(b, "yarn_log_dir").Ok? && DirPath(b, "hdfs_log_dir").Ok?
    && EtcEnvironment in h.files && EtcEnv.Parse(h.files[EtcEnvironment]).Ok?
    && "PATH" in EtcEnv.Parse(h.files[EtcEnvironment]).value
    && HadoopEnvFile(DirPath(b, "hadoop_conf").value) in h.files
  }

  /** What `setup_hadoop_config` then `configure_hadoop` need: the copy
      succeeds, and what `configure_hadoop` needs holds of its result. */
  predicate ConfigureReady(h: Host, b: Base) {
    && DirPath(b, "hadoop").Ok? && DirPath(b, "hadoop_conf").Ok?
    && SetupHadoopConfig(h, b).Done? && HadoopReady(SetupHadoopConfig(h, b).host, b)
  }

  /** `HadoopReady` looks at no file whose name ends in `s`. */
  lemma ConfigureReadyAgreeBut(h: Host, h': Host, b: Base)
    requires HostsAgreeBut(h, h', 's')
    ensures ConfigureReady(h', b) == ConfigureReady(h, b)
  {
    SetupAgreeBut(h, h', b, 's');
    if DirPath(b, "hadoop_conf").Ok? {
      SlashEnds(DirPath(b, "hadoop_conf").value, "hadoop-env.sh");
    }
    assert EtcEnvironment[|EtcEnvironment| - 1] == 't';
  }

  /** `/etc/environment` as the `configure_hadoop` session writes it over
      `h`'s file with Java home `javaHome`. */
  predicate EnvironmentWritten(after: Host, h: Host, javaHome: string, b: Base, order: map<string, string> -> seq<string>) {
    && EtcEnvironment in h.files && EtcEnvironment in after.files && DirPath(b, "hadoop").Ok?
    && EnvSession(h.files[EtcEnvironment], javaHome, DirPath(b, "hadoop").value, b, order).Ok?
    && after.files[EtcEnvironment] == EnvSession(h.files[EtcEnvironment], javaHome, DirPath(b, "hadoop").value, b, order).value
  }

  /** `setup_hadoop_config` then `configure_hadoop`: the environment is
      written over the file the copy left, and `/etc/hosts` is left as the
      copy left it. */
  function Configure(h: Host, b: Base, order: map<string, string> -> seq<string>): (r: Outcome)
    ensures r.Done? <==> "java.home" in h.kv && ConfigureReady(h, b)
    ensures r.host.flags == h.flags && r.host.kv == h.kv
    ensures r.Done? ==> EnvironmentWritten(r.host, SetupHadoopConfig(h, b).host, h.kv["java.home"], b, order)
    ensures r.Done? ==> r.host.files.Keys == SetupHadoopConfig(h, b).host.files.Keys
    ensures r.Done? && EtcHostsFile in r.host.files ==>
              r.host.files[EtcHostsFile] == SetupHadoopConfig(h, b).host.files[EtcHostsFile]
  {
    var s := SetupHadoopConfig(h, b);
    if s.Failed? then s
    else
      HadoopEnvElsewhere(DirPath(b, "hadoop_conf").value);
      ConfigureHadoop(s.host, b, order)
  }

  /** The copy leaves `/etc/environment` and `/etc/hosts` alone unless the
      configuration directory holds them, so `Configure` writes the
      environment over the unit's own file and keeps its hosts file. */
  lemma ConfigureKeeps(h: Host, b: Base, order: map<string, string> -> seq<string>)
    requires Configure(h, b, order).Done?
    ensures var r := Configure(h, b, order).host;
            && (!Below(DirPath(b, "hadoop_conf").value, EtcEnvironment) ==>
                  EnvironmentWritten(r, h, h.kv["java.home"], b, order))
            && (!Below(DirPath(b, "hadoop_conf").value, EtcHostsFile) ==>
                  && (EtcHostsFile in r.files <==> EtcHostsFile in h.files)
                  && (EtcHostsFile in h.files ==> r.files[EtcHostsFile] == h.files[EtcHostsFile]))
  {
    SetupKeepsSystemFiles(h, b);
  }

  /** Neither unpacking the archive nor restocking the configuration
      directory writes the line file `p`. */
  predicate Untouched(w: World, b: Base, p: string) {
    && DirPath(b, "hadoop").Ok? && DirPath(b, "hadoop_conf").Ok?
    && !(Below(DirPath(b, "hadoop").value, p) && p[|DirPrefix(DirPath(b, "hadoop").value)|..] in w.hadoopFiles)
    && !Below(DirPath(b, "hadoop_conf").value, p)
  }

  /** The Hadoop directory resolves and, once the archive is unpacked
      there, the configuration steps can run. */
  predicate UnpackedReady(h: Host, w: World, b: Base) {
    DirPath(b, "hadoop").Ok? && ConfigureReady(WithHadoop(h, w, DirPath(b, "hadoop").value), b)
  }

  /** Unpacking an archive that ships `etc/hadoop/hadoop-env.sh` and the
      `mapred-site.xml` template lets the copy succeed and stage the
      shipped `hadoop-env.sh`, whatever the configuration directory held
      before, so a first install needs no configuration of its own. */
  lemma UnpackedStagesConf(h: Host, w: World, b: Base)
    requires DirPath(b, "hadoop").Ok? && DirPath(b, "hadoop_conf").Ok?
    requires var stock := StockConf(DirPath(b, "hadoop").value);
             var conf := DirPath(b, "hadoop_conf").value;
             !Below(conf, Slash(stock, "hadoop-env.sh")) && !Below(conf, Slash(stock, "mapred-site.xml.template"))
    requires StockMember("hadoop-env.sh") in w.hadoopFiles && StockMember("mapred-site.xml.template") in w.hadoopXml
    ensures var r := SetupHadoopConfig(WithHadoop(h, w, DirPath(b, "hadoop").value), b);
            && r.Done?
            && HadoopEnvFile(DirPath(b, "hadoop_conf").value) in r.host.files
            && r.host.files[HadoopEnvFile(DirPath(b, "hadoop_conf").value)] == w.hadoopFiles[StockMember("hadoop-env.sh")]
  {
    var hadoop := DirPath(b, "hadoop").value;
    var stock := StockConf(hadoop);
    var conf := DirPath(b, "hadoop_conf").value;
    var u := WithHadoop(h, w, hadoop);
    var env := Slash(stock, "hadoop-env.sh");
    StockMemberPath(hadoop, "hadoop-env.sh");
    StockMemberPath(hadoop, "mapred-site.xml.template");
    assert env in u.files && u.files[env] == w.hadoopFiles[StockMember("hadoop-env.sh")];
    assert Slash(stock, "mapred-site.xml.template") in u.xml;
    assert Stocked(u, stock, conf, "mapred-site.xml.template");
    SetupHadoopConfigOutcome(u, b);
    var r := SetupHadoopConfig(u, b).host;
    SetupHadoopConfigRestocks(u, b);
    assert |"hadoop-env.sh"| != |"slaves"| && |"hadoop-env.sh"| != |"mapred-site.xml"|;
    RestockedAt(u.files, r.files, stock, conf, "hadoop-env.sh");
  }

  /** `setup_hadoop_config` looks only at the unit's files. */
  lemma SetupHadoopConfigFiles(h: Host, h': Host, b: Base)
    requires h'.files == h.files && h'.xml == h.xml
    ensures SetupHadoopConfig(h', b).Done? == SetupHadoopConfig(h, b).Done?
    ensures SetupHadoopConfig(h', b).host.files == SetupHadoopConfig(h, b).host.files
  {
    if DirPath(b, "hadoop").Ok? && DirPath(b, "hadoop_conf").Ok? {
      var stock := StockConf(DirPath(b, "hadoop").value);
      var conf := DirPath(b, "hadoop_conf").value;
      assert Restage(h', stock, conf).files == Restage(h, stock, conf).files;
      assert Restage(h', stock, conf).xml == Restage(h, stock, conf).xml;
    }
  }

  /** `ConfigureReady` looks only at the unit's files. */
  lemma ConfigureReadyFiles(h: Host, h': Host, b: Base)
    requires h'.files == h.files && h'.xml == h.xml
    ensures ConfigureReady(h', b) == ConfigureReady(h, b)
  {
    SetupHadoopConfigFiles(h, h', b);
  }

  /** The steps of `install` after `configure_hosts_file`. */
  function InstallSteps(h: Host, w: World, b: Base, order: map<string, string> -> seq<string>): (r: Outcome)
    ensures r.Done? <==> EtcEnv.ReadEtcEnv(EtcEnvFile(h)).Ok? && w.javaOutput.Some?
                         && Count(Strip(w.javaOutput.value), '\n') == 1 && UnpackedReady(h, w, b)
    ensures r.host.flags == h.flags
    ensures r.Done? ==> "java.home" in r.host.kv && "java.version" in r.host.kv
  {
    var h2 := AddDistribution(h);
    assert EtcEnvFile(h2) == EtcEnvFile(h);
    var h3 :- InstallBasePackages(h2, w, b);
    ConfigureReadyFiles(WithHadoop(h, w, DirPath(b, "hadoop").value), h3, b);
    Configure(h3, b, order)
  }

  /** Once the install steps finish, `/etc/environment` holds the Hadoop
      variables written over the unit's own file and `/etc/hosts` is as it
      was, unless the archive or the configuration directory covers them. */
  lemma InstallStepsKeeps(h: Host, w: World, b: Base, order: map<string, string> -> seq<string>)
    requires InstallSteps(h, w, b, order).Done?
    ensures var r := InstallSteps(h, w, b, order).host;
            && (Untouched(w, b, EtcEnvironment) ==> EnvironmentWritten(r, h, r.kv["java.home"], b, order))
            && (Untouched(w, b, EtcHostsFile) ==>
                  && (EtcHostsFile in r.files <==> EtcHostsFile in h.files)
                  && (EtcHostsFile in h.files ==> r.files[EtcHostsFile] == h.files[EtcHostsFile]))
  {
    var hadoop := DirPath(b, "hadoop").value;
    var h3 := InstallBasePackages(AddDistribution(h), w, b).host;
    assert InstallSteps(h, w, b, order) == Configure(h3, b, order);
    assert h3.files == WithHadoop(h, w, hadoop).files;
    ConfigureKeeps(h3, b, order);
    if Untouched(w, b, EtcEnvironment) {
      UntouchedKept(h, w, b, EtcEnvironment);
    }
    if Untouched(w, b, EtcHostsFile) {
      UntouchedKept(h, w, b, EtcHostsFile);
    }
  }

  /** Unpacking the archive leaves a file it does not cover as it was. */
  lemma UntouchedKept(h: Host, w: World, b: Base, p: string)
    requires Untouched(w, b, p)
    ensures var u := WithHadoop(h, w, DirPath(b, "hadoop").value);
            (p in u.files <==> p in h.files) && (p in h.files ==> u.files[p] == h.files[p])
  {
    WithHadoopUnpacks(h, w, DirPath(b, "hadoop").value);
  }

  /** The `DistConfig` steps of `install`: users, directories, packages. */
  function AddDistribution(h: Host): (r: Host)
    ensures r == h.(log := h.log + [Step("add_users"), Step("add_dirs"), Step("add_packages")])
  {
    Record(Record(Record(h, Step("add_users")), Step("add_dirs")), Step("add_packages"))
  }

  /** What a forced or first `install` needs in order to finish:
      `/etc/hosts` present and non-empty, `/etc/environment` readable by
      the plain reader, an installer reporting two lines, and what the
      configuration steps need once Hadoop is unpacked. */
  predicate InstallReady(h: Host, w: World, b: Base) {
    && EtcHostsFile in h.files && h.files[EtcHostsFile] != []
    && EtcEnv.ReadEtcEnv(EtcEnvFile(h)).Ok?
    && w.javaOutput.Some? && Count(Strip(w.javaOutput.value), '\n') == 1
    && UnpackedReady(h, w, b)
  }

  /** `install(force)`: skipped when already installed unless forced;
      otherwise the install steps, `configure_hadoop`, and only then the
      completion flag.  Any failure leaves the flag as it was.  A forced or
      first run finishes exactly when the unit is ready for it, and then
      leaves the unit's line at the head of `/etc/hosts` and the Hadoop
      variables in `/etc/environment`, unless the archive or the
      configuration directory covers those files. */
  function Install(h: Host, w: World, b: Base, order: map<string, string> -> seq<string>, force: bool): (r: Outcome)
    ensures !force && InstalledFlag in h.flags ==> r == Done(h)
    ensures r.Failed? ==> r.host.flags == h.flags
    ensures r.Done? ==> r.host.flags == h.flags + {InstalledFlag}
    ensures force || InstalledFlag !in h.flags ==> (r.Done? <==> InstallReady(h, w, b))
    ensures r.Done? && (force || InstalledFlag !in h.flags) ==> "java.home" in r.host.kv && "java.version" in r.host.kv
  {
    if !force && InstalledFlag in h.flags then Done(h)
    else
      var hosts := ConfigureHostsFile(h, w);
      if hosts.Failed? then hosts
      else
        var h1 := hosts.host;
        ConfigureHostsFileAgrees(h, w);
        InstallFilesElsewhere(h, h1, w, b);
        var steps := InstallSteps(h1, w, b, order);
        if steps.Failed? then steps
        else Done(steps.host.(flags := steps.host.flags + {InstalledFlag}))
  }

  /** A forced or first `install` that finishes leaves the unit's line at
      the head of `/etc/hosts` and the Hadoop variables in
      `/etc/environment`, written over the unit's own file, unless the
      archive or the configuration directory covers those files. */
  lemma InstallLeaves(h: Host, w: World, b: Base, order: map<string, string> -> seq<string>, force: bool)
    requires force || InstalledFlag !in h.flags
    requires Install(h, w, b, order, force).Done?
    ensures var r := Install(h, w, b, order, force).host;
            && (Untouched(w, b, EtcHostsFile) ==>
                  EtcHostsFile in r.files && r.files[EtcHostsFile] != [] && r.files[EtcHostsFile][0] == UnitLineOf(w))
            && (Untouched(w, b, EtcEnvironment) ==> EnvironmentWritten(r, h, r.kv["java.home"], b, order))
  {
    var h1 := ConfigureHostsFile(h, w).host;
    var steps := InstallSteps(h1, w, b, order);
    assert Install(h, w, b, order, force) == Done(steps.host.(flags := steps.host.flags + {InstalledFlag}));
    ConfigureHostsFileAgrees(h, w);
    InstallFilesElsewhere(h, h1, w, b);
    InstallStepsKeeps(h1, w, b, order);
  }

  /** `configure_hosts_file` changes `/etc/hosts` only, whose name ends
      in `s`. */
  lemma ConfigureHostsFileAgrees(h: Host, w: World)
    requires ConfigureHostsFile(h, w).Done?
    ensures HostsAgreeBut(h, ConfigureHostsFile(h, w).host, 's')
  {
    assert EtcHostsFile[|EtcHostsFile| - 1] == 's';
  }

  /** No file that the later steps of `install` read has a name ending in
      `s`, so `configure_hosts_file` changes none of them. */
  lemma InstallFilesElsewhere(h: Host, h1: Host, w: World, b: Base)
    requires HostsAgreeBut(h, h1, 's')
    ensures EtcEnvFile(h1) == EtcEnvFile(h)
    ensures UnpackedReady(h1, w, b) == UnpackedReady(h, w, b)
  {
    assert EtcEnvironment[|EtcEnvironment| - 1] == 't';
    if DirPath(b, "hadoop").Ok? {
      var hadoop := DirPath(b, "hadoop").value;
      UnpackAgreeBut(h.files, h1.files, w.hadoopFiles, hadoop, 's');
      UnpackAgreeBut(h.xml, h1.xml, w.hadoopXml, hadoop, 's');
      ConfigureReadyAgreeBut(WithHadoop(h, w, hadoop), WithHadoop(h1, w, hadoop), b);
    }
  }

  /** Once installed, a second unforced `install` does nothing. */
  lemma InstallOnce(h: Host, w: World, b: Base, order: map<string, string> -> seq<string>, force: bool)
    requires Install(h, w, b, order, force).Done?
    ensures Install(Install(h, w, b, order, force).host, w, b, order, false) == Install(h, w, b, order, force)
  {
  }
}

=== FILE: hadoopenv.dfy ===
/** The edits `configure_hadoop` makes: the variables it sets in
    `/etc/environment` (with `PATH` extended rather than replaced), and
    `re_edit_in_place` of `hadoop-env.sh` with the single substitution
    `export JAVA_HOME *=.*` → `export JAVA_HOME=<home>`.
 */
module HadoopEnv {
  import opened Results
  import opened Text

  /** `PATH` with each of `dirs` appended after a `:`, in turn, unless the
      value built so far already holds it as a substring. */
  function ExtendPath(path: string, dirs: seq<string>): string
    decreases |dirs|
  {
    if |dirs| == 0 then path
    else
      var next := if Contains(path, dirs[0]) then path else path + ":" + dirs[0];
      ExtendPath(next, dirs[1..])
  }

  /** The old value survives as a prefix: directories are only ever appended. */
  lemma {:induction false} ExtendPathPrefix(path: string, dirs: seq<string>)
    ensures StartsWith(ExtendPath(path, dirs), path)
    decreases |dirs|
  {
    if |dirs| > 0 {
      var next := if Contains(path, dirs[0]) then path else path + ":" + dirs[0];
      ExtendPathPrefix(next, dirs[1..]);
      assert StartsWith(next, path);
    }
  }

  /** Afterwards every directory is found in the value. */
  lemma {:induction false} ExtendPathContains(path: string, dirs: seq<string>)
    ensures forall i :: 0 <= i < |dirs| ==> Contains(ExtendPath(path, dirs), dirs[i])
    decreases |dirs|
  {
    if |dirs| > 0 {
      var next := if Contains(path, dirs[0]) then path else path + ":" + dirs[0];
      if !Contains(path, dirs[0]) {
        ContainsSuffix(path + ":", dirs[0]);
      }
      ExtendPathContains(next, dirs[1..]);
      ExtendPathPrefix(next, dirs[1..]);
      var r := ExtendPath(next, dirs[1..]);
      assert r == next + r[|next|..];
      ContainsAppend(next, r[|next|..], dirs[0]);
      forall i | 1 <= i < |dirs| ensures Contains(r, dirs[i]) {
        assert dirs[i] == dirs[1..][i - 1];
      }
    }
  }

  /** When every directory is already there, the value is left alone. */
  lemma {:induction false} ExtendPathUnchanged(path: string, dirs: seq<string>)
    requires forall i :: 0 <= i < |dirs| ==> Contains(path, dirs[i])
    ensures ExtendPath(path, dirs) == path
    decreases |dirs|
  {
    if |dirs| > 0 {
      ExtendPathUnchanged(path, dirs[1..]);
    }
  }

  /** Extending twice is extending once. */
  lemma ExtendPathIdempotent(path: string, dirs: seq<string>)
    ensures ExtendPath(ExtendPath(path, dirs), dirs) == ExtendPath(path, dirs)
  {
    ExtendPathContains(path, dirs);
    ExtendPathUnchanged(ExtendPath(path, dirs), dirs);
  }

  /** The literal head of the pattern. */
  const Export := "export JAVA_HOME"

  /** The first index at or after `i` that does not hold a space. */
  function SpacesEnd(s: string, i: nat): (e: nat)
    requires i <= |s|
    ensures i <= e <= |s|
    ensures forall k :: i <= k < e ==> s[k] == ' '
    ensures e < |s| ==> s[e] != ' '
    decreases |s| - i
  {
    if i == |s| || s[i] != ' ' then i else SpacesEnd(s, i + 1)
  }

  /** `export JAVA_HOME *=` matches at `k`. */
  predicate MatchAt(s: string, k: nat) {
    k + |Export| <= |s| && s[k..k + |Export|] == Export
    && SpacesEnd(s, k + |Export|) < |s| && s[SpacesEnd(s, k + |Export|)] == '='
  }

  /** Where the leftmost match starting at or after `i` begins. */
  function FirstMatch(s: string, i: nat): (r: Option<nat>)
    requires i <= |s|
    ensures r.Some? ==> i <= r.value <= |s| && MatchAt(s, r.value)
    ensures r.Some? ==> forall k :: i <= k < r.value ==> !MatchAt(s, k)
    ensures r.None? ==> forall k :: i <= k <= |s| ==> !MatchAt(s, k)
    decreases |s| - i
  {
    if MatchAt(s, i) then Some(i) else if i == |s| then None else FirstMatch(s, i + 1)
  }

  /** `re.sub(r'export JAVA_HOME *=.*', 'export JAVA_HOME=' + home, line)` on a
      line without its newline: the greedy `.*` runs to the end of the line,
      so the first match and everything after it are replaced, and no second
      match can follow. */
  function EditLine(line: string, home: string): string {
    match FirstMatch(line, 0)
    case None => line
    case Some(j) => line[..j] + Export + "=" + home
  }

  /** Lines that never set `JAVA_HOME` pass through; otherwise what precedes
      the leftmost assignment is kept and the line now assigns `home`. */
  lemma EditLineMeaning(line: string, home: string)
    ensures (forall k :: 0 <= k <= |line| ==> !MatchAt(line, k)) ==> EditLine(line, home) == line
    ensures forall j :: 0 <= j <= |line| && MatchAt(line, j) && (forall k :: 0 <= k < j ==> !MatchAt(line, k)) ==>
              EditLine(line, home) == line[..j] + "export JAVA_HOME=" + home
  {
    forall j | 0 <= j <= |line| && MatchAt(line, j) && (forall k :: 0 <= k < j ==> !MatchAt(line, k))
      ensures EditLine(line, home) == line[..j] + "export JAVA_HOME=" + home
    {
      FirstMatchIs(line, j);
    }
  }

  /** No proper suffix of the literal head starts with its first letter, so
      two matches cannot overlap. */
  lemma ExportUnbordered(d: int)
    requires 1 <= d < |Export|
    ensures Export[d] != 'e'
  {
  }

  /** Two strings that agree below `n` have the same run of spaces from `i`
      when that run ends below `n`. */
  lemma {:induction false} SpacesEndAgree(r: string, s: string, i: nat, n: nat)
    requires i <= n <= |r| && n <= |s|
    requires forall k :: 0 <= k < n ==> r[k] == s[k]
    requires SpacesEnd(r, i) < n
    ensures SpacesEnd(s, i) == SpacesEnd(r, i)
    decreases n - i
  {
    if r[i] == ' ' {
      SpacesEndAgree(r, s, i + 1, n);
    }
  }

  /** A match in the edited line cannot begin before the original match. */
  lemma NoEarlierMatch(s: string, home: string, j: nat, k: nat)
    requires FirstMatch(s, 0) == Some(j) && k < j
    ensures !MatchAt(EditLine(s, home), k)
  {
    var r := EditLine(s, home);
    assert r == s[..j] + (Export + "=" + home);
    assert r[j] == 'e';
    assert forall x :: 0 <= x < j ==> r[x] == s[x];
    if k + |Export| > j {
      OverlapNoMatch(r, j, k);
    } else {
      DisjointNoMatch(s, r, j, k);
    }
  }

  /** A match cannot start before an `e` that lies inside its literal head. */
  lemma OverlapNoMatch(r: string, j: nat, k: nat)
    requires k < j < |r| && j < k + |Export| && r[j] == 'e'
    ensures !MatchAt(r, k)
  {
    if k + |Export| <= |r| {
      assert r[k..k + |Export|][j - k] == r[j];
      ExportUnbordered(j - k);
    }
  }

  /** A match wholly before offset `j` reads only what both lines share,
      and the `e` at `j` cannot end its run of spaces with `=`. */
  lemma DisjointNoMatch(s: string, r: string, j: nat, k: nat)
    requires k + |Export| <= j <= |s| && j < |r| && r[j] == 'e'
    requires forall x :: 0 <= x < j ==> r[x] == s[x]
    requires !MatchAt(s, k)
    ensures !MatchAt(r, k)
  {
    var e := SpacesEnd(r, k + |Export|);
    if e < j {
      SpacesEndAgree(r, s, k + |Export|, j);
      assert s[k..k + |Export|] == r[k..k + |Export|];
    }
  }

  /** Editing an edited line changes nothing. */
  lemma EditLineIdempotent(line: string, home: string)
    ensures EditLine(EditLine(line, home), home) == EditLine(line, home)
  {
    var r := EditLine(line, home);
    match FirstMatch(line, 0)
    case None =>
    case Some(j) =>
      EditedFirstMatch(line, home, j);
      EditedPrefix(line, home, j);
  }

  /** The edited line's leftmost match is where the original's was. */
  lemma EditedFirstMatch(line: string, home: string, j: nat)
    requires FirstMatch(line, 0) == Some(j)
    ensures FirstMatch(EditLine(line, home), 0) == Some(j)
  {
    var r := EditLine(line, home);
    EditedMatchesAt(line, home, j);
    forall k | 0 <= k < j ensures !MatchAt(r, k) {
      NoEarlierMatch(line, home, j, k);
    }
    FirstMatchIs(r, j);
  }

  /** The edit keeps what precedes the match. */
  lemma EditedPrefix(line: string, home: string, j: nat)
    requires FirstMatch(line, 0) == Some(j)
    ensures j <= |EditLine(line, home)| && EditLine(line, home)[..j] == line[..j]
  {
    assert EditLine(line, home) == line[..j] + (Export + "=" + home);
  }

  /** The edited line assigns `JAVA_HOME` where the original did. */
  lemma EditedMatchesAt(line: string, home: string, j: nat)
    requires FirstMatch(line, 0) == Some(j)
    ensures j <= |EditLine(line, home)| && MatchAt(EditLine(line, home), j)
  {
    var r := EditLine(line, home);
    assert r == line[..j] + (Export + "=" + home);
    assert r[j..j + |Export|] == Export;
    assert r[j + |Export|] == '=';
    assert SpacesEnd(r, j + |Export|) == j + |Export|;
  }

  /** The leftmost match is the one that nothing precedes. */
  lemma {:induction false} FirstMatchIs(s: string, j: nat)
    requires j <= |s| && MatchAt(s, j)
    requires forall k :: 0 <= k < j ==> !MatchAt(s, k)
    ensures FirstMatch(s, 0) == Some(j)
  {
    FirstMatchFrom(s, 0, j);
  }

  lemma {:induction false} FirstMatchFrom(s: string, i: nat, j: nat)
    requires i <= j <= |s| && MatchAt(s, j)
    requires forall k :: i <= k < j ==> !MatchAt(s, k)
    ensures FirstMatch(s, i) == Some(j)
    decreases j - i
  {
    if i < j {
      FirstMatchFrom(s, i + 1, j);
    }
  }

  /** `re_edit_in_place(hadoop-env.sh, {...})`: every line edited. */
  function EditFile(lines: seq<string>, home: string): (r: seq<string>)
    ensures |r| == |lines|
    ensures forall i :: 0 <= i < |lines| ==> r[i] == EditLine(lines[i], home)
  {
    seq(|lines|, i requires 0 <= i < |lines| => EditLine(lines[i], home))
  }

  lemma EditFileIdempotent(lines: seq<string>, home: string)
    ensures EditFile(EditFile(lines, home), home) == EditFile(lines, home)
  {
    forall i | 0 <= i < |lines| ensures EditLine(EditLine(lines[i], home), home) == EditLine(lines[i], home) {
      EditLineIdempotent(lines[i], home);
    }
  }

  /** `Path(a) / b` for a relative `b`. */
  function Slash(a: string, b: string): string {
    if a == [] || a[|a| - 1] == '/' then a + b else a + "/" + b
  }

  /** The text every path inside directory `dir` starts with. */
  function DirPrefix(dir: string): (r: string)
    ensures forall name :: Slash(dir, name) == r + name
    ensures r == [] || r[|r| - 1] == '/'
  {
    if dir == [] || dir[|dir| - 1] == '/' then dir else dir + "/"
  }

  /** Different names in the same directory are different paths. */
  lemma SlashInjective(a: string, b: string, c: string)
    requires b != c
    ensures Slash(a, b) != Slash(a, c)
  {
    var p := if a == [] || a[|a| - 1] == '/' then a else a + "/";
    assert Slash(a, b) == p + b && Slash(a, c) == p + c;
    assert (p + b)[|p|..] == b && (p + c)[|p|..] == c;
  }

  /** `env[k] = v` for each pair in turn. */
  function Assign<K(==,!new), V>(env: map<K, V>, ps: seq<(K, V)>): (r: map<K, V>)
    ensures forall k :: k in r <==> k in env || exists i :: 0 <= i < |ps| && ps[i].0 == k
    decreases |ps|
  {
    if |ps| == 0 then env
    else
      var init := ps[..|ps| - 1];
      var r := Assign(env, init)[ps[|ps| - 1].0 := ps[|ps| - 1].1];
      assert forall i :: 0 <= i < |ps| - 1 ==> ps[i] == init[i];
      r
  }

  /** The last assignment to a name decides its value. */
  lemma {:induction false} AssignLastWins<K(!new), V>(env: map<K, V>, ps: seq<(K, V)>, i: nat)
    requires i < |ps| && forall j :: i < j < |ps| ==> ps[j].0 != ps[i].0
    ensures ps[i].0 in Assign(env, ps) && Assign(env, ps)[ps[i].0] == ps[i].1
    decreases |ps|
  {
    var n := |ps| - 1;
    if i < n {
      var init := ps[..n];
      assert init[i] == ps[i];
      AssignLastWins(env, init, i);
    }
  }

  /** A name no pair assigns keeps its value. */
  lemma {:induction false} AssignKeeps<K(!new), V>(env: map<K, V>, ps: seq<(K, V)>, k: K)
    requires k in env && forall i :: 0 <= i < |ps| ==> ps[i].0 != k
    ensures k in Assign(env, ps) && Assign(env, ps)[k] == env[k]
    decreases |ps|
  {
    if |ps| > 0 {
      var init := ps[..|ps| - 1];
      assert forall i :: 0 <= i < |init| ==> init[i] == ps[i];
      AssignKeeps(env, init, k);
    }
  }

  /** The variables set besides `JAVA_HOME` and `PATH`, in the order they are set. */
  const DirVars: seq<string> := [
    "HADOOP_LIBEXEC_DIR", "HADOOP_INSTALL", "HADOOP_HOME", "HADOOP_COMMON_HOME", "HADOOP_HDFS_HOME",
    "HADOOP_MAPRED_HOME", "HADOOP_YARN_HOME", "YARN_HOME", "HADOOP_CONF_DIR", "YARN_CONF_DIR",
    "YARN_LOG_DIR", "HDFS_LOG_DIR", "HADOOP_LOG_DIR", "MAPRED_LOG_DIR", "MAPRED_PID_DIR"]

  const MapredLogDir := "/var/log/hadoop/mapred"
  const MapredPidDir := "/var/run/hadoop/mapred"

  /** Their values, given the Hadoop, configuration and log directories;
      `HADOOP_LOG_DIR` takes the HDFS log directory. */
  function DirValues(hadoop: string, conf: string, yarnLog: string, hdfsLog: string): (r: seq<string>)
    ensures |r| == |DirVars|
  {
    [Slash(hadoop, "libexec"), hadoop, hadoop, hadoop, hadoop,
     hadoop, hadoop, hadoop, conf, conf,
     yarnLog, hdfsLog, hdfsLog, MapredLogDir, MapredPidDir]
  }

  /** Every variable `configure_hadoop` sets. */
  function HadoopVars(): seq<string> {
    ["JAVA_HOME", "PATH"] + DirVars
  }

  lemma HadoopVarsDistinct()
    ensures forall i, j :: 0 <= i < j < |HadoopVars()| ==> HadoopVars()[i] != HadoopVars()[j]
  {
  }

  /** The directories appended to `PATH`: Java's and Hadoop's `bin`, then Hadoop's `sbin`. */
  function PathDirs(javaHome: string, hadoop: string): seq<string> {
    [Slash(javaHome, "bin"), Slash(hadoop, "bin"), Slash(hadoop, "sbin")]
  }

  function Assignments(env: map<string, string>, javaHome: string, hadoop: string, conf: string,
                       yarnLog: string, hdfsLog: string): (ps: seq<(string, string)>)
    requires "PATH" in env
    ensures |ps| == |HadoopVars()| && forall i :: 0 <= i < |ps| ==> ps[i].0 == HadoopVars()[i]
    ensures ps[0].1 == javaHome && ps[1].1 == ExtendPath(env["PATH"], PathDirs(javaHome, hadoop))
    ensures forall i :: 0 <= i < |DirVars| ==> ps[i + 2].1 == DirValues(hadoop, conf, yarnLog, hdfsLog)[i]
  {
    var values := DirValues(hadoop, conf, yarnLog, hdfsLog);
    [("JAVA_HOME", javaHome), ("PATH", ExtendPath(env["PATH"], PathDirs(javaHome, hadoop)))]
      + seq(|DirVars|, i requires 0 <= i < |DirVars| => (DirVars[i], values[i]))
  }

  /** Assigning distinct names: each takes its value, others keep theirs. */
  lemma AssignDistinct<K(!new), V>(env: map<K, V>, ps: seq<(K, V)>, names: seq<K>)
    requires |ps| == |names| && forall i :: 0 <= i < |ps| ==> ps[i].0 == names[i]
    requires forall i, j :: 0 <= i < j < |names| ==> names[i] != names[j]
    ensures forall k :: k in Assign(env, ps) <==> k in env || k in names
    ensures forall i :: 0 <= i < |names| ==> Assign(env, ps)[names[i]] == ps[i].1
    ensures forall k :: k in env && k !in names ==> Assign(env, ps)[k] == env[k]
  {
    var r := Assign(env, ps);
    forall k ensures k in r <==> k in env || k in names {
      if k in names {
        var i :| 0 <= i < |names| && names[i] == k;
        assert ps[i].0 == k;
      }
    }
    forall i | 0 <= i < |names| ensures r[names[i]] == ps[i].1 {
      AssignLastWins(env, ps, i);
    }
    forall k | k in env && k !in names ensures r[k] == env[k] {
      AssignKeeps(env, ps, k);
    }
  }

  /** The assignments of the `/etc/environment` session in `configure_hadoop`,
      once `PATH` is known to be set: every variable takes its value, `PATH`
      keeps its old value as a prefix and gains the three directories, and
      nothing else changes. */
  function SetVars(env: map<string, string>, javaHome: string, hadoop: string, conf: string,
                   yarnLog: string, hdfsLog: string): (r: map<string, string>)
    requires "PATH" in env
    ensures forall k :: k in r <==> k in env || k in HadoopVars()
    ensures forall k :: k in env && k !in HadoopVars() ==> r[k] == env[k]
    ensures "JAVA_HOME" in r && r["JAVA_HOME"] == javaHome
    ensures "PATH" in r && r["PATH"] == ExtendPath(env["PATH"], PathDirs(javaHome, hadoop))
    ensures StartsWith(r["PATH"], env["PATH"])
    ensures forall i :: 0 <= i < 3 ==> Contains(r["PATH"], PathDirs(javaHome, hadoop)[i])
    ensures forall i :: 0 <= i < |DirVars| ==> DirVars[i] in r && r[DirVars[i]] == DirValues(hadoop, conf, yarnLog, hdfsLog)[i]
  {
    var ps := Assignments(env, javaHome, hadoop, conf, yarnLog, hdfsLog);
    HadoopVarsDistinct();
    AssignDistinct(env, ps, HadoopVars());
    assert HadoopVars()[0] == "JAVA_HOME" && HadoopVars()[1] == "PATH";
    assert forall i :: 0 <= i < |DirVars| ==> HadoopVars()[i + 2] == DirVars[i];
    ExtendPathPrefix(env["PATH"], PathDirs(javaHome, hadoop));
    ExtendPathContains(env["PATH"], PathDirs(javaHome, hadoop));
    Assign(env, ps)
  }

  /** Setting the variables again changes nothing. */
  lemma SetVarsIdempotent(env: map<string, string>, javaHome: string, hadoop: string, conf: string,
                          yarnLog: string, hdfsLog: string)
    requires "PATH" in env
    ensures SetVars(SetVars(env, javaHome, hadoop, conf, yarnLog, hdfsLog), javaHome, hadoop, conf, yarnLog, hdfsLog)
         == SetVars(env, javaHome, hadoop, conf, yarnLog, hdfsLog)
  {
    var r := SetVars(env, javaHome, hadoop, conf, yarnLog, hdfsLog);
    var ps := Assignments(env, javaHome, hadoop, conf, yarnLog, hdfsLog);
    assert r == Assign(env, ps);
    AssignmentsStable(env, r, javaHome, hadoop, conf, yarnLog, hdfsLog);
    HadoopVarsDistinct();
    AssignTwice(env, ps, HadoopVars());
    assert SetVars(r, javaHome, hadoop, conf, yarnLog, hdfsLog) == Assign(r, ps);
  }

  /** Once `PATH` has been extended, the assignments computed from the
      result are the ones already made. */
  lemma AssignmentsStable(env: map<string, string>, r: map<string, string>, javaHome: string, hadoop: string,
                          conf: string, yarnLog: string, hdfsLog: string)
    requires "PATH" in env && "PATH" in r
    requires r["PATH"] == ExtendPath(env["PATH"], PathDirs(javaHome, hadoop))
    ensures Assignments(r, javaHome, hadoop, conf, yarnLog, hdfsLog) == Assignments(env, javaHome, hadoop, conf, yarnLog, hdfsLog)
  {
    ExtendPathIdempotent(env["PATH"], PathDirs(javaHome, hadoop));
  }

  /** Repeating distinct assignments changes nothing. */
  lemma AssignTwice<K(!new), V>(env: map<K, V>, ps: seq<(K, V)>, names: seq<K>)
    requires |ps| == |names| && forall i :: 0 <= i < |ps| ==> ps[i].0 == names[i]
    requires forall i, j :: 0 <= i < j < |names| ==> names[i] != names[j]
    ensures Assign(Assign(env, ps), ps) == Assign(env, ps)
  {
    var r := Assign(env, ps);
    AssignDistinct(env, ps, names);
    AssignDistinct(r, ps, names);
    var r2 := Assign(r, ps);
    assert r2.Keys == r.Keys;
    forall k | k in r ensures r2[k] == r[k] {
      if k in names {
        var i :| 0 <= i < |names| && names[i] == k;
      }
    }
  }
}

=== FILE: hdfs.dfy ===
/** The HDFS handlers (`HDFS`): starting and stopping the daemons, the
    one-shot namenode format and directory creation, the slaves file, and
    the properties written to `core-site.xml` and `hdfs-site.xml`.
 */
module Hdfs {
  import opened Results
  import opened Text
  import opened PropMaps
  import DistConfigs
  import RunAs
  import opened HadoopEnv
  import opened HadoopBase
  import opened Services

  const DaemonScript := "sbin/hadoop-daemon.sh"
  const HdfsCommand := "bin/hdfs"

  // ---------------------------------------------------------------------
  // Daemons
  // ---------------------------------------------------------------------

  /** `_hadoop_daemon(command, service)`. */
  function HadoopDaemon(h: Host, w: World, b: Base, command: string, service: string): (r: Outcome)
    ensures IssuedDaemon(h, w, r, b, "hdfs", DaemonScript, command, service)
  {
    Daemon(h, w, b, "hdfs", DaemonScript, command, service)
  }

  /** A `start_*` handler: nothing happens while `jps` lists `process`. */
  function StartUnlessRunning(h: Host, w: World, b: Base, process: string, service: string): (r: Outcome)
    ensures process in w.running ==> r == Done(h)
    ensures process !in w.running ==> IssuedDaemon(h, w, r, b, "hdfs", DaemonScript, "start", service)
  {
    if process in w.running then Done(h) else HadoopDaemon(h, w, b, "start", service)
  }

  function StopNamenode(h: Host, w: World, b: Base): (r: Outcome)
    ensures IssuedDaemon(h, w, r, b, "hdfs", DaemonScript, "stop", "namenode")
  {
    HadoopDaemon(h, w, b, "stop", "namenode")
  }

  function StartNamenode(h: Host, w: World, b: Base): (r: Outcome)
    ensures "NameNode" in w.running ==> r == Done(h)
    ensures "NameNode" !in w.running ==> IssuedDaemon(h, w, r, b, "hdfs", DaemonScript, "start", "namenode")
  {
    StartUnlessRunning(h, w, b, "NameNode", "namenode")
  }

  function StopSecondaryNamenode(h: Host, w: World, b: Base): (r: Outcome)
    ensures IssuedDaemon(h, w, r, b, "hdfs", DaemonScript, "stop", "secondarynamenode")
  {
    HadoopDaemon(h, w, b, "stop", "secondarynamenode")
  }

  function StartSecondaryNamenode(h: Host, w: World, b: Base): (r: Outcome)
    ensures "SecondaryNameNode" in w.running ==> r == Done(h)
    ensures "SecondaryNameNode" !in w.running ==> IssuedDaemon(h, w, r, b, "hdfs", DaemonScript, "start", "secondarynamenode")
  {
    StartUnlessRunning(h, w, b, "SecondaryNameNode", "secondarynamenode")
  }

  function StopDatanode(h: Host, w: World, b: Base): (r: Outcome)
    ensures IssuedDaemon(h, w, r, b, "hdfs", DaemonScript, "stop", "datanode")
  {
    HadoopDaemon(h, w, b, "stop", "datanode")
  }

  function StartDatanode(h: Host, w: World, b: Base): (r: Outcome)
    ensures "DataNode" in w.running ==> r == Done(h)
    ensures "DataNode" !in w.running ==> IssuedDaemon(h, w, r, b, "hdfs", DaemonScript, "start", "datanode")
  {
    StartUnlessRunning(h, w, b, "DataNode", "datanode")
  }

  // ---------------------------------------------------------------------
  // One-shot operations
  // ---------------------------------------------------------------------

  const FormattedFlag := "hdfs.namenode.formatted"
  const FormatArgs: seq<string> := ["namenode", "-format", "-noninteractive"]

  /** `format_namenode`: once only, stop the namenode and format it without
      prompting, as `hdfs`; a failing stop aborts before the format, and
      the flag is set only after both commands succeed. */
  function FormatNamenode(h: Host, w: World, b: Base): (r: Outcome)
    ensures FormattedFlag in h.flags ==> r == Done(h)
    ensures r.Done? ==> r.host.flags == h.flags + {FormattedFlag}
    ensures r.Failed? ==> r.host.flags == h.flags
    ensures r.host.kv == h.kv && r.host.files == h.files && r.host.xml == h.xml
    ensures FormattedFlag !in h.flags && DaemonBlocker(h, b).Some? ==> r == Failed(DaemonBlocker(h, b).value, h)
    ensures FormattedFlag !in h.flags && DaemonBlocker(h, b).None? ==>
              var stop := DaemonArgv(b, "hdfs", DaemonScript, "stop", "namenode");
              var format := HadoopArgv(b, "hdfs", HdfsCommand, FormatArgs);
              && |r.host.log| == |h.log| + (if stop in w.failing then 1 else 2) && r.host.log[..|h.log|] == h.log
              && RunsAs(r.host.log[|h.log|], "hdfs", DaemonWords(b, DaemonScript, "stop", "namenode"))
              && (stop !in w.failing ==> RunsAs(r.host.log[|h.log| + 1], "hdfs", HadoopWords(b, HdfsCommand, FormatArgs)))
              && (r.Done? <==> stop !in w.failing && format !in w.failing)
              && (r.Failed? ==> r.error == CalledProcessError(if stop in w.failing then stop else format))
  {
    if FormattedFlag in h.flags then Done(h)
    else
      var h1 :- StopNamenode(h, w, b);
      var h2 :- FormatRun(h, h1, w, b);
      Done(h2.(flags := h2.flags + {FormattedFlag}))
  }

  /** The format command run after a successful stop: the stop changed
      only the log, so nothing stops `run` now. */
  function FormatRun(h: Host, h1: Host, w: World, b: Base): (r: Outcome)
    requires StopNamenode(h, w, b) == Done(h1)
    ensures r == Run(h1, w, b, "hdfs", HdfsCommand, FormatArgs)
    ensures RunBlocker(h1, b).None?
  {
    RunBlockerStable(h, h1, b);
    Run(h1, w, b, "hdfs", HdfsCommand, FormatArgs)
  }

  /** After a successful format, formatting again issues nothing. */
  lemma FormatNamenodeOnce(h: Host, w: World, b: Base)
    requires FormatNamenode(h, w, b).Done?
    ensures FormatNamenode(FormatNamenode(h, w, b).host, w, b) == FormatNamenode(h, w, b)
  {
  }

  const DirsCreatedFlag := "hdfs.namenode.dirs.created"

  /** The `hdfs dfs` commands of `create_hdfs_dirs`, in the order issued. */
  const DirCommands: seq<seq<string>> := [
    ["dfs", "-mkdir", "-p", "/tmp/hadoop/mapred/staging"],
    ["dfs", "-chmod", "-R", "1777", "/tmp/hadoop/mapred/staging"],
    ["dfs", "-mkdir", "-p", "/tmp/hadoop-yarn/staging"],
    ["dfs", "-chmod", "-R", "1777", "/tmp/hadoop-yarn"],
    ["dfs", "-mkdir", "-p", "/user/ubuntu"],
    ["dfs", "-chown", "-R", "ubuntu", "/user/ubuntu"],
    ["dfs", "-mkdir", "-p", "/mr-history/tmp"],
    ["dfs", "-chmod", "-R", "1777", "/mr-history/tmp"],
    ["dfs", "-mkdir", "-p", "/mr-history/done"],
    ["dfs", "-chmod", "-R", "1777", "/mr-history/done"],
    ["dfs", "-chown", "-R", "mapred:hdfs", "/mr-history"],
    ["dfs", "-mkdir", "-p", "/app-logs"],
    ["dfs", "-chmod", "-R", "1777", "/app-logs"],
    ["dfs", "-chown", "yarn", "/app-logs"]]

  /** `create_hdfs_dirs`: once only, the fourteen commands in order as
      `hdfs`, stopping at the first failure; the flag is set only after all
      of them succeed. */
  function CreateHdfsDirs(h: Host, w: World, b: Base): (r: Outcome)
    ensures DirsCreatedFlag in h.flags ==> r == Done(h)
    ensures DirsCreatedFlag !in h.flags ==> RanEach(h, w, r, b, "hdfs", HdfsCommand, DirCommands)
    ensures r.Done? ==> r.host.flags == h.flags + {DirsCreatedFlag}
    ensures r.Failed? ==> r.host.flags == h.flags
  {
    OneShot(h, w, b, DirsCreatedFlag, "hdfs", HdfsCommand, DirCommands)
  }

  // ---------------------------------------------------------------------
  // The slaves file
  // ---------------------------------------------------------------------

  const SlavesHeader: seq<string> := ["# DO NOT EDIT", "# This file is automatically managed by Juju"]

  function SlavesFile(conf: string): string {
    Slash(conf, "slaves")
  }

  /** `register_slaves`: the slaves file lists the ready datanodes' host
      names under a two-line comment header, and is handed to `ubuntu:hadoop`. */
  function RegisterSlaves(h: Host, b: Base, hostnames: seq<string>): (r: Outcome)
    ensures r.Failed? <==> DirPath(b, "hadoop_conf").Err?
    ensures r.Failed? ==> r.host == h
    ensures r.Done? ==>
              var path := SlavesFile(DirPath(b, "hadoop_conf").value);
              r.host == h.(files := h.files[path := SlavesHeader + hostnames],
                           log := h.log + [Chown(path, "ubuntu", "hadoop")])
  {
    var conf := DirPath(b, "hadoop_conf");
    if conf.Err? then Fail(conf, h)
    else
      var path := SlavesFile(conf.value);
      Done(Record(h.(files := h.files[path := SlavesHeader + hostnames]), Chown(path, "ubuntu", "hadoop")))
  }

  /** The lines of a file that are not `#` comments. */
  function Uncommented(lines: seq<string>): (r: seq<string>)
    ensures |r| <= |lines|
  {
    if |lines| == 0 then []
    else (if StartsWith(lines[0], "#") then [] else [lines[0]]) + Uncommented(lines[1..])
  }

  lemma {:induction false} UncommentedAll(lines: seq<string>)
    requires forall i :: 0 <= i < |lines| ==> !StartsWith(lines[i], "#")
    ensures Uncommented(lines) == lines
  {
    if |lines| > 0 {
      UncommentedAll(lines[1..]);
      assert [lines[0]] + lines[1..] == lines;
    }
  }

  /** Reading the slaves file back, skipping comments, gives exactly the
      host names registered, in order. */
  lemma SlavesReadBack(h: Host, b: Base, hostnames: seq<string>)
    requires RegisterSlaves(h, b, hostnames).Done?
    requires forall i :: 0 <= i < |hostnames| ==> !StartsWith(hostnames[i], "#")
    ensures Uncommented(RegisterSlaves(h, b, hostnames).host.files[SlavesFile(DirPath(b, "hadoop_conf").value)]) == hostnames
  {
    var lines := SlavesHeader + hostnames;
    assert lines[2..] == hostnames;
    assert lines[1..][1..] == hostnames;
    assert lines[0] == SlavesHeader[0] && lines[1] == SlavesHeader[1];
    forall i | 0 <= i < 2 ensures StartsWith(lines[i], "#") {
      assert lines[i][0] == '#';
      assert lines[i][..1] == [lines[i][0]];
    }
    UncommentedAll(hostnames);
  }
  // ---------------------------------------------------------------------
  // Properties
  // ---------------------------------------------------------------------

  const CoreSiteXml := "core-site.xml"
  const HdfsSiteXml := "hdfs-site.xml"
  const NameDir := "cache/hadoop/dfs/name"

  /** `"hdfs://{host}:{port}"`, the filesystem clients connect to. */
  function DefaultFS(host: string, port: string): string {
    "hdfs://" + host + ":" + port
  }

  function CoreSite(host: string, port: string): seq<Assignment> {
    [(Some("fs.defaultFS"), PStr(DefaultFS(host, port))),
     (Some("hadoop.proxyuser.hue.hosts"), PStr("*")),
     (Some("hadoop.proxyuser.hue.groups"), PStr("*")),
     (Some("hadoop.proxyuser.oozie.groups"), PStr("*")),
     (Some("hadoop.proxyuser.oozie.hosts"), PStr("*"))]
  }

  /** Both the name and the data directory live under `hdfs_dir_base`. */
  function HdfsSite(dirBase: string): seq<Assignment> {
    [(Some("dfs.webhdfs.enabled"), PStr("true")),
     (Some("dfs.namenode.name.dir"), PStr(Slash(dirBase, NameDir))),
     (Some("dfs.datanode.data.dir"), PStr(Slash(dirBase, NameDir))),
     (Some("dfs.permissions"), PStr("false"))]
  }

  /** `configure_hdfs_base(host, port)`: the `core-site.xml` session, then
      the `hdfs-site.xml` session; `hdfs_dir_base` is resolved inside the
      second session, after its file was opened.  Only the two files change. */
  function ConfigureHdfsBase(h: Host, b: Base, host: string, port: string): (r: Outcome)
    ensures r.host == h.(xml := r.host.xml)
    ensures r.Done? <==> DirPath(b, "hadoop_conf").Ok? && Slash(DirPath(b, "hadoop_conf").value, CoreSiteXml) in h.xml
                         && Slash(DirPath(b, "hadoop_conf").value, HdfsSiteXml) in h.xml && DirPath(b, "hdfs_dir_base").Ok?
    ensures r.Done? ==> r.host.xml.Keys == h.xml.Keys
    ensures r.Done? ==>
              forall p :: (p in h.xml && p != Slash(DirPath(b, "hadoop_conf").value, CoreSiteXml)
                           && p != Slash(DirPath(b, "hadoop_conf").value, HdfsSiteXml)) ==> r.host.xml[p] == h.xml[p]
    ensures r.Done? ==> IsNormal(r.host.xml[Slash(DirPath(b, "hadoop_conf").value, CoreSiteXml)])
                        && IsNormal(r.host.xml[Slash(DirPath(b, "hadoop_conf").value, HdfsSiteXml)])
  {
    var conf := DirPath(b, "hadoop_conf");
    if conf.Err? then Fail(conf, h)
    else
      SlashInjective(conf.value, CoreSiteXml, HdfsSiteXml);
      var h1 :- EditXml(h, Slash(conf.value, CoreSiteXml), CoreSite(host, port));
      var site := Slash(conf.value, HdfsSiteXml);
      if site !in h1.xml then Failed(IOError(site), h1)
      else
        var dirBase := DirPath(b, "hdfs_dir_base");
        if dirBase.Err? then Fail(dirBase, h1)
        else EditXml(h1, site, HdfsSite(dirBase.value))
  }

  /** What the two files read back as after `configure_hdfs_base`, when
      both were written by an earlier session and the port text has no
      surrounding blanks. */
  lemma ConfigureHdfsBaseValues(h: Host, b: Base, host: string, port: string)
    requires ConfigureHdfsBase(h, b, host, port).Done?
    requires IsNormal(h.xml[Slash(DirPath(b, "hadoop_conf").value, CoreSiteXml)])
    requires IsNormal(h.xml[Slash(DirPath(b, "hadoop_conf").value, HdfsSiteXml)])
    requires Trimmed(port, Whitespace)
    ensures var x := ConfigureHdfsBase(h, b, host, port).host.xml;
            var core := Snapshot(x[Slash(DirPath(b, "hadoop_conf").value, CoreSiteXml)]);
            var site := Snapshot(x[Slash(DirPath(b, "hadoop_conf").value, HdfsSiteXml)]);
            var dir := NormVal(PStr(Slash(DirPath(b, "hdfs_dir_base").value, NameDir)));
            && Some("fs.defaultFS") in core && core[Some("fs.defaultFS")] == PStr(DefaultFS(host, port))
            && Some("dfs.webhdfs.enabled") in site && site[Some("dfs.webhdfs.enabled")] == PStr("true")
            && Some("dfs.namenode.name.dir") in site && site[Some("dfs.namenode.name.dir")] == dir
            && Some("dfs.datanode.data.dir") in site && site[Some("dfs.datanode.data.dir")] == dir
            && Some("dfs.permissions") in site && site[Some("dfs.permissions")] == PStr("false")
  {
    var conf := DirPath(b, "hadoop_conf").value;
    var corePath := Slash(conf, CoreSiteXml);
    var sitePath := Slash(conf, HdfsSiteXml);
    var dirBase := DirPath(b, "hdfs_dir_base").value;
    SlashInjective(conf, CoreSiteXml, HdfsSiteXml);
    var h1 := EditXml(h, corePath, CoreSite(host, port)).host;
    var r := ConfigureHdfsBase(h, b, host, port);
    assert r == EditXml(h1, sitePath, HdfsSite(dirBase));
    assert r.host.xml[corePath] == h1.xml[corePath];
    assert h1.xml[sitePath] == h.xml[sitePath];
    CoreSiteValues(h, corePath, host, port);
    HdfsSiteValues(h1, sitePath, dirBase);
  }

  /** The `core-site.xml` session on a previously written file. */
  lemma CoreSiteValues(h: Host, path: string, host: string, port: string)
    requires path in h.xml && IsNormal(h.xml[path])
    requires Trimmed(port, Whitespace)
    ensures var core := Snapshot(EditXml(h, path, CoreSite(host, port)).host.xml[path]);
            Some("fs.defaultFS") in core && core[Some("fs.defaultFS")] == PStr(DefaultFS(host, port))
  {
    CoreSiteClean(host, port);
    EditXmlText(h, path, CoreSite(host, port), 0);
  }

  /** The `hdfs-site.xml` session on a previously written file. */
  lemma HdfsSiteValues(h: Host, path: string, dirBase: string)
    requires path in h.xml && IsNormal(h.xml[path])
    ensures var site := Snapshot(EditXml(h, path, HdfsSite(dirBase)).host.xml[path]);
            var dir := NormVal(PStr(Slash(dirBase, NameDir)));
            && Some("dfs.webhdfs.enabled") in site && site[Some("dfs.webhdfs.enabled")] == PStr("true")
            && Some("dfs.namenode.name.dir") in site && site[Some("dfs.namenode.name.dir")] == dir
            && Some("dfs.datanode.data.dir") in site && site[Some("dfs.datanode.data.dir")] == dir
            && Some("dfs.permissions") in site && site[Some("dfs.permissions")] == PStr("false")
  {
    var ps := HdfsSite(dirBase);
    HdfsSiteClean(dirBase);
    EditXmlText(h, path, ps, 0);
    EditXmlValue(h, path, ps, 1);
    EditXmlValue(h, path, ps, 2);
    EditXmlText(h, path, ps, 3);
  }

  lemma CoreSiteClean(host: string, port: string)
    requires Trimmed(port, Whitespace)
    ensures WellNamed(CoreSite(host, port))
    ensures Clean(DefaultFS(host, port))
  {
    var d := DefaultFS(host, port);
    assert d[0] == 'h';
    assert d[|d| - 1] == if port == [] then ':' else port[|port| - 1];
  }

  lemma HdfsSiteClean(dirBase: string)
    ensures WellNamed(HdfsSite(dirBase))
    ensures Clean("true") && Clean("false")
  {
  }

  /** The `hdfs-site.xml` assignments of `configure_namenode`, evaluated in
      the order the session body does: the replication setting, the block
      size through `int()`, then the web UI port. */
  function NamenodeSite(b: Base): (r: Result<seq<Assignment>>)
    ensures r.Ok? <==> "dfs_replication" in b.config && "dfs_blocksize" in b.config
                       && ToInt(b.config["dfs_blocksize"]).Ok? && DistConfigs.Port(b.dc, "nn_webapp_http").Ok?
    ensures "dfs_replication" !in b.config ==> r == Err(KeyError("dfs_replication"))
    ensures r.Ok? ==> |r.value| == 4
  {
    var replication :- Setting(b, "dfs_replication");
    var blocksize :- Setting(b, "dfs_blocksize");
    var n :- ToInt(blocksize);
    var http :- DistConfigs.Port(b.dc, "nn_webapp_http");
    Ok(NamenodeProps(replication, n, http))
  }

  function NamenodeProps(replication: PyVal, blocksize: int, http: Option<int>): seq<Assignment> {
    [(Some("dfs.replication"), replication),
     (Some("dfs.blocksize"), PInt(blocksize)),
     (Some("dfs.namenode.datanode.registration.ip-hostname-check"), PStr("true")),
     (Some("dfs.namenode.http-address"), PStr(ListenAll(http)))]
  }

  lemma NamenodePropsClean(replication: PyVal, blocksize: int, http: Option<int>)
    ensures WellNamed(NamenodeProps(replication, blocksize, http))
  {
  }

  /** `configure_namenode`: the base properties for this unit's private
      address and the `namenode` port, then the namenode's own. */
  function ConfigureNamenode(h: Host, w: World, b: Base): (r: Outcome)
    ensures r.host == h.(xml := r.host.xml)
    ensures r.Done? <==> DistConfigs.Port(b.dc, "namenode").Ok?
                         && ConfigureHdfsBase(h, b, w.privateAddress, PortText(DistConfigs.Port(b.dc, "namenode").value)).Done?
                         && NamenodeSite(b).Ok?
  {
    var port := DistConfigs.Port(b.dc, "namenode");
    if port.Err? then Fail(port, h)
    else
      var h1 :- ConfigureHdfsBase(h, b, w.privateAddress, PortText(port.value));
      var ps := NamenodeSite(b);
      if ps.Err? then Fail(ps, h1)
      else EditXml(h1, Slash(DirPath(b, "hadoop_conf").value, HdfsSiteXml), ps.value)
  }

  /** What `hdfs-site.xml` reads back as after `configure_namenode`: the
      block size as the integer `int()` gave, the hostname check on, and the
      web UI listening on every interface. */
  lemma NamenodeValues(h: Host, w: World, b: Base)
    requires ConfigureNamenode(h, w, b).Done?
    ensures var site := Snapshot(ConfigureNamenode(h, w, b).host.xml[Slash(DirPath(b, "hadoop_conf").value, HdfsSiteXml)]);
            var check := Some("dfs.namenode.datanode.registration.ip-hostname-check");
            && Some("dfs.blocksize") in site && site[Some("dfs.blocksize")].PStr?
            && ParseInt(site[Some("dfs.blocksize")].s) == ToInt(b.config["dfs_blocksize"])
            && check in site && site[check] == PStr("true")
            && Some("dfs.namenode.http-address") in site
            && site[Some("dfs.namenode.http-address")] == PStr(ListenAll(DistConfigs.Port(b.dc, "nn_webapp_http").value))
  {
    var port := DistConfigs.Port(b.dc, "namenode").value;
    var h1 := ConfigureHdfsBase(h, b, w.privateAddress, PortText(port)).host;
    var path := Slash(DirPath(b, "hadoop_conf").value, HdfsSiteXml);
    assert ConfigureNamenode(h, w, b) == EditXml(h1, path, NamenodeSite(b).value);
    NamenodeSiteValues(h1, path, b);
  }

  lemma NamenodeSiteValues(h: Host, path: string, b: Base)
    requires path in h.xml && IsNormal(h.xml[path]) && NamenodeSite(b).Ok?
    ensures var site := Snapshot(EditXml(h, path, NamenodeSite(b).value).host.xml[path]);
            var check := Some("dfs.namenode.datanode.registration.ip-hostname-check");
            && Some("dfs.blocksize") in site && site[Some("dfs.blocksize")].PStr?
            && ParseInt(site[Some("dfs.blocksize")].s) == ToInt(b.config["dfs_blocksize"])
            && check in site && site[check] == PStr("true")
            && Some("dfs.namenode.http-address") in site
            && site[Some("dfs.namenode.http-address")] == PStr(ListenAll(DistConfigs.Port(b.dc, "nn_webapp_http").value))
  {
    var n := ToInt(b.config["dfs_blocksize"]).value;
    var http := DistConfigs.Port(b.dc, "nn_webapp_http").value;
    assert NamenodeSite(b).value == NamenodeProps(b.config["dfs_replication"], n, http);
    NamenodeBlocksize(h, path, b.config["dfs_replication"], n, http);
    NamenodeCheck(h, path, b.config["dfs_replication"], n, http);
    NamenodeHttp(h, path, b.config["dfs_replication"], n, http);
    IntTextClean(n);
  }

  lemma NamenodeBlocksize(h: Host, path: string, replication: PyVal, n: int, http: Option<int>)
    requires path in h.xml && IsNormal(h.xml[path])
    ensures var site := Snapshot(EditXml(h, path, NamenodeProps(replication, n, http)).host.xml[path]);
            && Some("dfs.blocksize") in site && site[Some("dfs.blocksize")] == PStr(IntToString(n))
  {
    NamenodePropsClean(replication, n, http);
    EditXmlInt(h, path, NamenodeProps(replication, n, http), 1);
  }

  lemma NamenodeCheck(h: Host, path: string, replication: PyVal, n: int, http: Option<int>)
    requires path in h.xml && IsNormal(h.xml[path])
    ensures var site := Snapshot(EditXml(h, path, NamenodeProps(replication, n, http)).host.xml[path]);
            var check := Some("dfs.namenode.datanode.registration.ip-hostname-check");
            check in site && site[check] == PStr("true")
  {
    var ps := NamenodeProps(replication, n, http);
    NamenodePropsClean(replication, n, http);
    EditXmlText(h, path, ps, 2);
  }

  lemma NamenodeHttp(h: Host, path: string, replication: PyVal, n: int, http: Option<int>)
    requires path in h.xml && IsNormal(h.xml[path])
    ensures var site := Snapshot(EditXml(h, path, NamenodeProps(replication, n, http)).host.xml[path]);
            && Some("dfs.namenode.http-address") in site
            && site[Some("dfs.namenode.http-address")] == PStr(ListenAll(http))
  {
    var ps := NamenodeProps(replication, n, http);
    NamenodePropsClean(replication, n, http);
    ListenAllClean(http);
    EditXmlText(h, path, ps, 3);
  }

  /** `configure_datanode(host, port)`: the base properties for the
      namenode's address and port, then the datanode's web UI address. */
  function ConfigureDatanode(h: Host, b: Base, host: string, port: string): (r: Outcome)
    ensures r.host == h.(xml := r.host.xml)
    ensures r.Done? <==> ConfigureHdfsBase(h, b, host, port).Done? && DistConfigs.Port(b.dc, "dn_webapp_http").Ok?
  {
    var h1 :- ConfigureHdfsBase(h, b, host, port);
    var http := DistConfigs.Port(b.dc, "dn_webapp_http");
    if http.Err? then Fail(http, h1)
    else EditXml(h1, Slash(DirPath(b, "hadoop_conf").value, HdfsSiteXml), DatanodeProps(http.value))
  }

  function DatanodeProps(http: Option<int>): seq<Assignment> {
    [(Some("dfs.datanode.http.address"), PStr(ListenAll(http)))]
  }

  lemma DatanodePropsClean(http: Option<int>)
    ensures WellNamed(DatanodeProps(http))
  {
  }

  /** The datanode's web UI listens on every interface. */
  lemma DatanodeValues(h: Host, b: Base, host: string, port: string)
    requires ConfigureDatanode(h, b, host, port).Done?
    ensures var site := Snapshot(ConfigureDatanode(h, b, host, port).host.xml[Slash(DirPath(b, "hadoop_conf").value, HdfsSiteXml)]);
            && Some("dfs.datanode.http.address") in site
            && site[Some("dfs.datanode.http.address")] == PStr(ListenAll(DistConfigs.Port(b.dc, "dn_webapp_http").value))
  {
    var h1 := ConfigureHdfsBase(h, b, host, port).host;
    var path := Slash(DirPath(b, "hadoop_conf").value, HdfsSiteXml);
    var http := DistConfigs.Port(b.dc, "dn_webapp_http").value;
    var ps := DatanodeProps(http);
    assert ConfigureDatanode(h, b, host, port) == EditXml(h1, path, ps);
    ListenAllClean(http);
    DatanodePropsClean(http);
    EditXmlText(h1, path, ps, 0);
  }

  /** A client splitting `fs.defaultFS` at its colons gets the scheme, the
      host after `//`, and the port back, when neither holds a colon. */
  lemma DefaultFSParts(host: string, port: string)
    requires ':' !in host && ':' !in port
    ensures Split(DefaultFS(host, port), ':') == ["hdfs", "//" + host, port]
  {
    var a := "//" + host;
    assert ':' !in a by {
      assert forall i :: 2 <= i < |a| ==> a[i] == host[i - 2];
    }
    assert DefaultFS(host, port) == "hdfs" + [':'] + (a + [':'] + port);
    SplitAtFirst("hdfs", a + [':'] + port, ':');
    SplitAround(a, port, ':');
  }
}

=== FILE: propmap.dfy ===
/** The XML property-map edit session (`xmlpropmap_edit_in_place`).

    A `<configuration>` document is modelled as its sequence of `<property>`
    elements; parsing and pretty-printing the XML text are not modelled. A
    session snapshots the properties into a name -> value mapping, lets the
    caller change that mapping, and then applies the difference (added,
    modified, removed names) to the element sequence and normalises every
    text node.
 */
module PropMaps {
  import opened Results
  import opened Text

  /** The text of an XML element; `None` when the element has no text. */
  type XText = Option<string>

  /** One `<property>` element with its `<name>`, `<value>` and optional
      `<description>` children. */
  datatype Property = Property(name: XText, value: XText, description: XText)

  /** A value the caller may store in the yielded dict. */
  datatype PyVal = PNone | PStr(s: string) | PInt(i: int)

  /** `str(v)`. */
  function Str(v: PyVal): string {
    match v
    case PNone => "None"
    case PStr(s) => s
    case PInt(i) => IntToString(i)
  }

  /** An element text as the Python value the snapshot holds. */
  function TextVal(t: XText): PyVal {
    if t.Some? then PStr(t.value) else PNone
  }

  /** The name -> value mapping yielded to the caller; when a name occurs
      twice the later element wins, as in the dict the loop builds. */
  function Snapshot(doc: seq<Property>): map<XText, PyVal> {
    if |doc| == 0 then map[]
    else Snapshot(doc[..|doc| - 1])[doc[|doc| - 1].name := TextVal(doc[|doc| - 1].value)]
  }

  /** What one original element becomes: removed names are dropped, a
      modified name gets `str(v)` unless `v` is `None`, and everything else
      is kept as it is. */
  function Revise(p: Property, before: set<XText>, props: map<XText, PyVal>): seq<Property> {
    if p.name in before && p.name in props then
      if props[p.name] != PNone then [p.(value := Some(Str(props[p.name])))] else [p]
    else if p.name in before then []
    else [p]
  }

  /** The original elements after the modify/remove loop, in document order. */
  function Survivors(doc: seq<Property>, before: set<XText>, props: map<XText, PyVal>): seq<Property> {
    if |doc| == 0 then []
    else Survivors(doc[..|doc| - 1], before, props) + Revise(doc[|doc| - 1], before, props)
  }

  /** The elements created for the added names, in the given iteration order. */
  function Appended(order: seq<XText>, props: map<XText, PyVal>): (r: seq<Property>)
    requires forall i :: 0 <= i < |order| ==> order[i] in props
    ensures |r| == |order|
    ensures forall i :: 0 <= i < |order| ==> r[i] == Property(order[i], Some(Str(props[order[i]])), None)
  {
    if |order| == 0 then []
    else Appended(order[..|order| - 1], props) + [Property(order[|order| - 1], Some(Str(props[order[|order| - 1]])), None)]
  }

  /** `order` lists every added name (present after the edit, absent before)
      exactly once; it stands for Python's set iteration order. */
  ghost predicate EnumeratesAdded(order: seq<XText>, before: set<XText>, props: map<XText, PyVal>) {
    (forall i, j :: 0 <= i < j < |order| ==> order[i] != order[j])
    && (forall k :: k in order <==> k in props && k !in before)
  }

  /** The difference applied to the element sequence, before text normalisation. */
  function ApplyDiff(doc: seq<Property>, props: map<XText, PyVal>, order: seq<XText>): seq<Property>
    requires EnumeratesAdded(order, Snapshot(doc).Keys, props)
  {
    Survivors(doc, Snapshot(doc).Keys, props) + Appended(order, props)
  }

  /** `(text or '').strip() or None`. */
  function NormText(t: XText): (r: XText)
    ensures r.Some? ==> r.value != [] && StripChars(r.value, Whitespace) == r.value
  {
    if t.None? then None
    else
      var s := Strip(t.value);
      StripCharsIdempotent(t.value, Whitespace);
      if s == [] then None else Some(s)
  }

  function NormProperty(p: Property): Property {
    Property(NormText(p.name), NormText(p.value), NormText(p.description))
  }

  /** The whitespace clean-up applied to every element before writing. */
  function Normalize(doc: seq<Property>): (r: seq<Property>)
    ensures |r| == |doc| && forall i :: 0 <= i < |doc| ==> r[i] == NormProperty(doc[i])
  {
    seq(|doc|, i requires 0 <= i < |doc| => NormProperty(doc[i]))
  }

  /** The document written back when the session closes. */
  function Session(doc: seq<Property>, props: map<XText, PyVal>, order: seq<XText>): seq<Property>
    requires EnumeratesAdded(order, Snapshot(doc).Keys, props)
  {
    Normalize(ApplyDiff(doc, props, order))
  }

  // ---------------------------------------------------------------------
  // Properties of the session
  // ---------------------------------------------------------------------

  /** The modify/remove loop is an order-preserving filter: it distributes
      over concatenation, so surviving elements keep their relative order. */
  lemma {:induction false} SurvivorsAppend(a: seq<Property>, b: seq<Property>, before: set<XText>, props: map<XText, PyVal>)
    ensures Survivors(a + b, before, props) == Survivors(a, before, props) + Survivors(b, before, props)
    decreases |b|
  {
    if |b| == 0 {
      assert a + b == a;
    } else {
      var b' := b[..|b| - 1];
      SurvivorsAppend(a, b', before, props);
      assert (a + b)[..|a + b| - 1] == a + b';
      assert (a + b)[|a + b| - 1] == b[|b| - 1];
    }
  }

  /** Names of a document, as a set. */
  function Names(doc: seq<Property>): set<XText> {
    set i | 0 <= i < |doc| :: doc[i].name
  }

  lemma NamesConcat(a: seq<Property>, b: seq<Property>)
    ensures Names(a + b) == Names(a) + Names(b)
  {
    forall k | k in Names(a + b) ensures k in Names(a) + Names(b) {
      var i :| 0 <= i < |a + b| && (a + b)[i].name == k;
      if i < |a| {
        assert a[i].name == k;
      } else {
        assert b[i - |a|].name == k;
      }
    }
    forall k | k in Names(a) + Names(b) ensures k in Names(a + b) {
      if k in Names(a) {
        var i :| 0 <= i < |a| && a[i].name == k;
        assert (a + b)[i].name == k;
      } else {
        var i :| 0 <= i < |b| && b[i].name == k;
        assert (a + b)[|a| + i].name == k;
      }
    }
  }

  lemma NamesSnoc(doc: seq<Property>)
    requires |doc| > 0
    ensures Names(doc) == Names(doc[..|doc| - 1]) + {doc[|doc| - 1].name}
  {
    NamesConcat(doc[..|doc| - 1], [doc[|doc| - 1]]);
    assert doc[..|doc| - 1] + [doc[|doc| - 1]] == doc;
    assert Names([doc[|doc| - 1]]) == {doc[|doc| - 1].name} by {
      assert [doc[|doc| - 1]][0].name == doc[|doc| - 1].name;
    }
  }

  /** The snapshot's keys are the names in the document. */
  lemma {:induction false} SnapshotNames(doc: seq<Property>)
    ensures Snapshot(doc).Keys == Names(doc)
  {
    if |doc| > 0 {
      SnapshotNames(doc[..|doc| - 1]);
      NamesSnoc(doc);
    }
  }

  lemma SnapshotSnoc(s: seq<Property>, q: Property)
    ensures Snapshot(s + [q]) == Snapshot(s)[q.name := TextVal(q.value)]
  {
    assert (s + [q])[..|s + [q]| - 1] == s;
  }

  lemma {:induction false} SurvivorNames(doc: seq<Property>, before: set<XText>, props: map<XText, PyVal>)
    requires Names(doc) <= before
    ensures Names(Survivors(doc, before, props)) == Names(doc) * props.Keys
  {
    if |doc| > 0 {
      var init := doc[..|doc| - 1];
      var p := doc[|doc| - 1];
      NamesSnoc(doc);
      SurvivorNames(init, before, props);
      var s := Survivors(init, before, props);
      var r := Revise(p, before, props);
      NamesConcat(s, r);
      if p.name in props {
        assert Names(r) == {p.name} by {
          assert r[0].name == p.name;
        }
      } else {
        assert Names(r) == {};
      }
    }
  }

  lemma AppendedNames(order: seq<XText>, props: map<XText, PyVal>)
    requires forall i :: 0 <= i < |order| ==> order[i] in props
    ensures Names(Appended(order, props)) == set k | k in order
  {
    var r := Appended(order, props);
    forall k | k in order ensures k in Names(r) {
      var i :| 0 <= i < |order| && order[i] == k;
      assert r[i].name == k;
    }
  }

  /** After the session the names in the document are exactly the keys of
      the edited mapping: removed names are gone, added ones are present. */
  lemma ApplyDiffNames(doc: seq<Property>, props: map<XText, PyVal>, order: seq<XText>)
    requires EnumeratesAdded(order, Snapshot(doc).Keys, props)
    ensures Names(ApplyDiff(doc, props, order)) == props.Keys
  {
    var before := Snapshot(doc).Keys;
    SnapshotNames(doc);
    SurvivorNames(doc, before, props);
    AppendedNames(order, props);
    NamesConcat(Survivors(doc, before, props), Appended(order, props));
  }

  /** The value a key of the edited mapping should read back as: an
      existing key set to `None` keeps its previous value, every other key
      reads back as `str(v)` (so a new key set to `None` reads `'None'`). */
  function ReadBack(before: map<XText, PyVal>, props: map<XText, PyVal>, k: XText): PyVal
    requires k in props
  {
    if k in before && props[k] == PNone then before[k] else PStr(Str(props[k]))
  }

  /** The whole mapping a re-read should produce. */
  function Expected(before: map<XText, PyVal>, props: map<XText, PyVal>): map<XText, PyVal> {
    map k | k in props :: ReadBack(before, props, k)
  }

  /** `Expected` restricted to the names that were already present. */
  function KeptExpected(before: map<XText, PyVal>, props: map<XText, PyVal>): map<XText, PyVal> {
    map k | k in before && k in props :: ReadBack(before, props, k)
  }

  lemma KeptExpectedIn(m: map<XText, PyVal>, props: map<XText, PyVal>, k: XText, v: PyVal)
    requires k in props
    ensures KeptExpected(m[k := v], props) == KeptExpected(m, props)[k := ReadBack(m[k := v], props, k)]
  {
    var l := KeptExpected(m[k := v], props);
    var r := KeptExpected(m, props)[k := ReadBack(m[k := v], props, k)];
    assert l.Keys == r.Keys;
    forall x | x in l ensures l[x] == r[x] {
      if x != k {
        assert ReadBack(m[k := v], props, x) == ReadBack(m, props, x);
      }
    }
  }

  lemma KeptExpectedOut(m: map<XText, PyVal>, props: map<XText, PyVal>, k: XText, v: PyVal)
    requires k !in props
    ensures KeptExpected(m[k := v], props) == KeptExpected(m, props)
  {
    var l := KeptExpected(m[k := v], props);
    var r := KeptExpected(m, props);
    assert l.Keys == r.Keys;
    forall x | x in l ensures l[x] == r[x] {
      assert ReadBack(m[k := v], props, x) == ReadBack(m, props, x);
    }
  }

  /** Re-reading the surviving original elements. */
  lemma {:induction false} SnapshotSurvivors(doc: seq<Property>, before: set<XText>, props: map<XText, PyVal>)
    requires Names(doc) <= before
    ensures Snapshot(Survivors(doc, before, props)) == KeptExpected(Snapshot(doc), props)
  {
    if |doc| == 0 {
      assert KeptExpected(Snapshot(doc), props) == map[];
    } else {
      var init := doc[..|doc| - 1];
      var p := doc[|doc| - 1];
      NamesSnoc(doc);
      SnapshotSurvivors(init, before, props);
      var s := Survivors(init, before, props);
      var m := Snapshot(init);
      assert Snapshot(doc) == m[p.name := TextVal(p.value)];
      if p.name in props {
        var q := Revise(p, before, props)[0];
        assert Survivors(doc, before, props) == s + [q];
        SnapshotSnoc(s, q);
        KeptExpectedIn(m, props, p.name, TextVal(p.value));
      } else {
        assert Survivors(doc, before, props) == s + [];
        assert s + [] == s;
        KeptExpectedOut(m, props, p.name, TextVal(p.value));
      }
    }
  }

  /** The entries the appended elements contribute to a re-read. */
  function AddedMap(order: seq<XText>, props: map<XText, PyVal>): (m: map<XText, PyVal>)
    requires forall i :: 0 <= i < |order| ==> order[i] in props
    ensures forall k :: k in m <==> k in order
    ensures forall k :: k in m ==> m[k] == PStr(Str(props[k]))
  {
    if |order| == 0 then map[]
    else
      var init := order[..|order| - 1];
      assert forall k :: k in order <==> k in init || k == order[|order| - 1];
      AddedMap(init, props)[order[|order| - 1] := PStr(Str(props[order[|order| - 1]]))]
  }

  lemma UnionUpdate(a: map<XText, PyVal>, b: map<XText, PyVal>, k: XText, v: PyVal)
    ensures (a + b)[k := v] == a + b[k := v]
  {
  }

  /** Re-reading after the new elements were appended. */
  lemma {:induction false} SnapshotAppended(s: seq<Property>, order: seq<XText>, props: map<XText, PyVal>)
    requires forall i :: 0 <= i < |order| ==> order[i] in props
    ensures Snapshot(s + Appended(order, props)) == Snapshot(s) + AddedMap(order, props)
  {
    if |order| == 0 {
      assert s + Appended(order, props) == s;
    } else {
      var init := order[..|order| - 1];
      var k := order[|order| - 1];
      SnapshotAppended(s, init, props);
      var a := Appended(init, props);
      var q := Property(k, Some(Str(props[k])), None);
      assert s + Appended(order, props) == (s + a) + [q];
      SnapshotSnoc(s + a, q);
      UnionUpdate(Snapshot(s), AddedMap(init, props), k, PStr(Str(props[k])));
    }
  }

  /** Round trip: re-reading the document a session writes (before text
      normalisation) yields the edited mapping, with the `None` rule. */
  lemma SessionRoundTrip(doc: seq<Property>, props: map<XText, PyVal>, order: seq<XText>)
    requires EnumeratesAdded(order, Snapshot(doc).Keys, props)
    ensures Snapshot(ApplyDiff(doc, props, order)) == Expected(Snapshot(doc), props)
  {
    var before := Snapshot(doc);
    assert Snapshot(ApplyDiff(doc, props, order)) == KeptExpected(before, props) + AddedMap(order, props) by {
      SnapshotNames(doc);
      SnapshotSurvivors(doc, before.Keys, props);
      SnapshotAppended(Survivors(doc, before.Keys, props), order, props);
    }
    ExpectedSplits(before, props, order);
  }

  /** What is expected back is the kept part together with the added part. */
  lemma ExpectedSplits(before: map<XText, PyVal>, props: map<XText, PyVal>, order: seq<XText>)
    requires EnumeratesAdded(order, before.Keys, props)
    ensures KeptExpected(before, props) + AddedMap(order, props) == Expected(before, props)
  {
    var kept := KeptExpected(before, props);
    var added := AddedMap(order, props);
    var r := Expected(before, props);
    assert (kept + added).Keys == r.Keys by {
      assert forall k :: k in order <==> k in props && k !in before;
    }
    forall k | k in r ensures (kept + added)[k] == r[k] {
      if k in order {
        assert k !in before;
      } else {
        assert k in before;
      }
    }
  }

  /** The per-element rule: an element whose name stays and whose new value
      is `None` keeps its previous text; the description is never touched. */
  lemma ReviseKeepsOnNone(p: Property, before: set<XText>, props: map<XText, PyVal>)
    requires p.name in before && p.name in props && props[p.name] == PNone
    ensures Revise(p, before, props) == [p]
  {
  }

  // ---------------------------------------------------------------------
  // Normalisation
  // ---------------------------------------------------------------------

  lemma NormTextIdempotent(t: XText)
    ensures NormText(NormText(t)) == NormText(t)
  {
    if NormText(t).Some? {
      StripCharsFixed(NormText(t).value, Whitespace);
    }
  }

  /** Writing a document normalises it once and for all. */
  lemma NormalizeIdempotent(doc: seq<Property>)
    ensures Normalize(Normalize(doc)) == Normalize(doc)
  {
    forall i | 0 <= i < |doc|
      ensures NormProperty(NormProperty(doc[i])) == NormProperty(doc[i])
    {
      NormTextIdempotent(doc[i].name);
      NormTextIdempotent(doc[i].value);
      NormTextIdempotent(doc[i].description);
    }
  }

  /** Every text of the document is already in written form. */
  ghost predicate IsNormal(doc: seq<Property>) {
    forall i :: 0 <= i < |doc| ==> NormProperty(doc[i]) == doc[i]
  }

  /** A written document is in written form. */
  lemma NormalizeNormal(doc: seq<Property>)
    ensures IsNormal(Normalize(doc))
  {
    NormalizeIdempotent(doc);
    var d := Normalize(doc);
    assert forall i :: 0 <= i < |d| ==> NormProperty(d[i]) == Normalize(d)[i];
  }

  /** No two elements share a name. */
  ghost predicate UniqueNames(doc: seq<Property>) {
    forall i, j :: 0 <= i < j < |doc| ==> doc[i].name != doc[j].name
  }

  lemma {:induction false} SnapshotUnique(doc: seq<Property>, i: int)
    requires UniqueNames(doc) && 0 <= i < |doc|
    ensures doc[i].name in Snapshot(doc)
    ensures Snapshot(doc)[doc[i].name] == TextVal(doc[i].value)
  {
    var n := |doc| - 1;
    if i < n {
      var init := doc[..n];
      assert UniqueNames(init);
      assert init[i] == doc[i];
      SnapshotUnique(init, i);
      assert doc[i].name != doc[n].name;
    }
  }

  lemma {:induction false} SurvivorsUnchanged(doc: seq<Property>, whole: seq<Property>)
    requires UniqueNames(whole)
    requires |doc| <= |whole| && doc == whole[..|doc|]
    ensures Survivors(doc, Snapshot(whole).Keys, Snapshot(whole)) == doc
  {
    if |doc| > 0 {
      var n := |doc| - 1;
      assert doc[..n] == whole[..n];
      SurvivorsUnchanged(doc[..n], whole);
      var p := doc[n];
      assert p == whole[n];
      SnapshotUnique(whole, n);
      var snap := Snapshot(whole);
      assert snap[p.name] == TextVal(p.value);
      assert Revise(p, snap.Keys, snap) == [p] by {
        if p.value.Some? {
          assert p.(value := Some(Str(PStr(p.value.value)))) == p;
        }
      }
      assert doc[..n] + [p] == doc;
    }
  }

  /** A session that changes nothing leaves a previously written document
      with unique names exactly as it was. */
  lemma UnchangedSessionIsIdentity(doc: seq<Property>)
    requires UniqueNames(doc) && IsNormal(doc)
    ensures EnumeratesAdded([], Snapshot(doc).Keys, Snapshot(doc))
    ensures Session(doc, Snapshot(doc), []) == doc
  {
    SurvivorsUnchanged(doc, doc);
    assert doc[..|doc|] == doc;
    assert ApplyDiff(doc, Snapshot(doc), []) == doc + [];
    assert doc + [] == doc;
    assert Normalize(doc) == doc;
  }
  // ---------------------------------------------------------------------
  // Re-reading a written document
  // ---------------------------------------------------------------------

  /** What re-reading a value gives once its text has been normalised. */
  function NormVal(v: PyVal): PyVal {
    if v.PStr? then TextVal(NormText(Some(v.s))) else v
  }

  function NormMap(m: map<XText, PyVal>): map<XText, PyVal> {
    map k | k in m :: NormVal(m[k])
  }

  /** Every element's name is already in written form. */
  ghost predicate NamesNormal(doc: seq<Property>) {
    forall i :: 0 <= i < |doc| ==> NormText(doc[i].name) == doc[i].name
  }

  lemma NormMapUpdate(m: map<XText, PyVal>, k: XText, t: XText)
    ensures NormMap(m[k := TextVal(t)]) == NormMap(m)[k := TextVal(NormText(t))]
  {
  }

  /** Normalising a document whose names are already in written form
      normalises each value a re-read yields and changes nothing else. */
  lemma {:induction false} SnapshotNormalize(doc: seq<Property>)
    requires NamesNormal(doc)
    ensures Snapshot(Normalize(doc)) == NormMap(Snapshot(doc))
  {
    if |doc| > 0 {
      var n := |doc| - 1;
      var init := doc[..n];
      var p := doc[n];
      SnapshotNormalize(init);
      assert Normalize(doc) == Normalize(init) + [NormProperty(p)];
      SnapshotSnoc(Normalize(init), NormProperty(p));
      NormMapUpdate(Snapshot(init), p.name, p.value);
    }
  }

  /** Re-reading the document a session writes: the edited mapping with the
      `None` rule, each value as its normalised text reads back, provided
      the names that stay are already in written form. */
  lemma SessionReadBack(doc: seq<Property>, props: map<XText, PyVal>, order: seq<XText>)
    requires EnumeratesAdded(order, Snapshot(doc).Keys, props)
    requires forall k :: k in props ==> NormText(k) == k
    ensures Snapshot(Session(doc, props, order)) == NormMap(Expected(Snapshot(doc), props))
  {
    var d := ApplyDiff(doc, props, order);
    SessionRoundTrip(doc, props, order);
    ApplyDiffNames(doc, props, order);
    assert NamesNormal(d) by {
      forall i | 0 <= i < |d| ensures NormText(d[i].name) == d[i].name {
        assert d[i].name in Names(d);
      }
    }
    SnapshotNormalize(d);
  }
}

=== FILE: results.dfy ===
/** Failure-compatible wrappers and the error taxonomy shared by the model.

    Each `Error` constructor stands for one exception the Python code raises
    (or lets propagate) on the paths the model covers.
 */
module Results {

  datatype Option<+T> = None | Some(value: T)

  /** Why an operation gave up; one constructor per Python exception site. */
  datatype Error =
    | MissingKeys(keys: set<string>)      // ValueError: required descriptor keys / dirs absent
    | NotIterable                         // TypeError: iterating `required_keys=None`
    | KeyError(key: string)               // KeyError on a dict lookup
    | AttributeError(name: string)        // descriptor section not copied to an attribute
    | FormatError(template: string)       // str.format rejected the template
    | NestingTooDeep(key: string)         // ValueError: more than 100 substitution passes
    | UnpackError(line: string)           // ValueError: `a, b = ...split(...)` arity mismatch
    | IndexError                          // IndexError: `hosts[0]` of an empty file
    | IOError(path: string)               // file missing
    | InvalidInt(text: string)            // ValueError from int()
    | TypeError(what: string)             // TypeError, e.g. int(None)
    | CalledProcessError(argv: seq<string>) // a subprocess exited non-zero

  datatype Result<+R> = Ok(value: R) | Err(error: Error) {
    predicate IsFailure() {
      Err?
    }

    function PropagateFailure<U>(): Result<U>
      requires Err?
    {
      Err(error)
    }

    function Extract(): R
      requires Ok?
    {
      value
    }
  }
}

=== FILE: runas.dfy ===
/** `run_as`: running a command as another user through `su -c`, with the
    command line single-quoted word by word and the environment taken from
    `/etc/environment` plus the caller's overrides.  The subprocess itself is
    not modelled; the result is the invocation that would be issued.
 */
module RunAs {
  import opened Results
  import opened Text
  import EtcEnv

  /** `"'%s'" % p`. */
  function Wrap(p: string): string {
    "'" + p + "'"
  }

  function WrapAll(parts: seq<string>): (r: seq<string>)
    ensures |r| == |parts| && forall i :: 0 <= i < |parts| ==> r[i] == Wrap(parts[i])
  {
    if |parts| == 0 then [] else [Wrap(parts[0])] + WrapAll(parts[1..])
  }

  /** `' '.join("'%s'" % p for p in parts)`. */
  function Quote(parts: seq<string>): string {
    Join(WrapAll(parts), " ")
  }

  /** The words `sh` reads back from a run of single-quoted words separated
      by spaces: the text between the first and second quote, the third and
      fourth, and so on. */
  function Unquote(s: string): seq<string> {
    var pieces := Split(s, '\'');
    seq(|pieces| / 2, i requires 0 <= i < |pieces| / 2 => pieces[2 * i + 1])
  }

  lemma QuoteCons(p: string, rest: seq<string>)
    requires |rest| > 0
    ensures Quote([p] + rest) == Wrap(p) + " " + Quote(rest)
  {
    var w := WrapAll([p] + rest);
    assert w[1..] == WrapAll(rest);
  }

  /** The pieces after the first quote of a quoted command line: each word
      followed by the separating space, or, after the last word, by an empty
      piece. */
  function QuotedPieces(parts: seq<string>): (r: seq<string>)
    requires |parts| > 0
  {
    if |parts| == 1 then [parts[0], ""] else [parts[0], " "] + QuotedPieces(parts[1..])
  }

  lemma {:induction false} QuotedPiecesShape(parts: seq<string>)
    requires |parts| > 0
    ensures |QuotedPieces(parts)| == 2 * |parts|
    ensures forall i :: 0 <= i < |parts| ==> QuotedPieces(parts)[2 * i] == parts[i]
  {
    if |parts| > 1 {
      var rest := parts[1..];
      QuotedPiecesShape(rest);
      var q := QuotedPieces(parts);
      forall i | 1 <= i < |parts| ensures q[2 * i] == parts[i] {
        assert q[2 * i] == QuotedPieces(rest)[2 * (i - 1)];
      }
    }
  }

  /** A quoted command line after its opening quote. */
  function Inner(parts: seq<string>): string
    requires |parts| > 0
  {
    if |parts| == 1 then parts[0] + ['\''] + [] else parts[0] + ['\''] + (" " + ['\''] + Inner(parts[1..]))
  }

  lemma {:induction false} QuoteInner(parts: seq<string>)
    requires |parts| > 0
    ensures Quote(parts) == [] + ['\''] + Inner(parts)
  {
    if |parts| > 1 {
      var p, rest := parts[0], parts[1..];
      assert parts == [p] + rest;
      QuoteCons(p, rest);
      QuoteInner(rest);
      WrapThen(p, Inner(rest));
    }
  }

  lemma WrapThen(p: string, x: string)
    ensures Wrap(p) + " " + ([] + ['\''] + x) == [] + ['\''] + (p + ['\''] + (" " + ['\''] + x))
  {
  }

  lemma {:induction false} SplitInner(parts: seq<string>)
    requires |parts| > 0
    requires forall i :: 0 <= i < |parts| ==> '\'' !in parts[i]
    ensures Split(Inner(parts), '\'') == QuotedPieces(parts)
  {
    var p := parts[0];
    if |parts| == 1 {
      SplitAtFirst(p, [], '\'');
    } else {
      var rest := parts[1..];
      SplitInner(rest);
      SplitAtFirst(p, " " + ['\''] + Inner(rest), '\'');
      SplitAtFirst(" ", Inner(rest), '\'');
      ConsTwo(p, " ", QuotedPieces(rest));
    }
  }

  lemma ConsTwo<T>(a: T, b: T, s: seq<T>)
    ensures [a] + ([b] + s) == [a, b] + s
  {
  }

  /** Splitting a quoted command line at its quotes. */
  lemma SplitQuotePieces(parts: seq<string>)
    requires |parts| > 0
    requires forall i :: 0 <= i < |parts| ==> '\'' !in parts[i]
    ensures Split(Quote(parts), '\'') == [""] + QuotedPieces(parts)
  {
    QuoteInner(parts);
    SplitAtFirst([], Inner(parts), '\'');
    SplitInner(parts);
  }

  /** The pieces of a quoted command line between the quotes: an empty piece
      first, then each word at the odd positions. */
  lemma SplitQuote(parts: seq<string>)
    requires |parts| > 0
    requires forall i :: 0 <= i < |parts| ==> '\'' !in parts[i]
    ensures |Split(Quote(parts), '\'')| == 2 * |parts| + 1
    ensures Split(Quote(parts), '\'')[0] == ""
    ensures forall i :: 0 <= i < |parts| ==> Split(Quote(parts), '\'')[2 * i + 1] == parts[i]
  {
    SplitQuotePieces(parts);
    QuotedPiecesShape(parts);
  }

  /** `sh` reads the quoted command line back into the very words given,
      provided none of them holds a single quote. */
  lemma QuoteRoundTrip(parts: seq<string>)
    requires forall i :: 0 <= i < |parts| ==> '\'' !in parts[i]
    ensures Unquote(Quote(parts)) == parts
  {
    if |parts| > 0 {
      SplitQuote(parts);
    } else {
      assert Quote(parts) == "";
    }
  }

  /** The quoting does not escape quotes: a word holding one comes back split. */
  lemma ApostropheBreaksQuoting()
    ensures Unquote(Quote(["it's"])) == ["it", ""]
  {
    var s := Quote(["it's"]);
    assert s == "'it's'";
    assert s == [] + ['\''] + ("it" + ['\''] + ("s" + ['\''] + []));
    SplitAtFirst([], "it" + ['\''] + ("s" + ['\''] + []), '\'');
    SplitAtFirst("it", "s" + ['\''] + [], '\'');
    SplitAtFirst("s", [], '\'');
    assert Split(s, '\'') == ["", "it", "s", ""];
  }

  /** What `run_as` hands to the subprocess layer. */
  datatype Invocation = Invocation(argv: seq<string>, env: map<string, string>, capture: bool)

  /** `run_as(user, command, *args, env=extra, capture_output=capture)`:
      `etcEnv` is the content of `/etc/environment`, `None` when absent. */
  function Run(user: string, command: string, args: seq<string>, etcEnv: Option<seq<string>>,
               extra: Option<map<string, string>>, capture: bool): (r: Result<Invocation>)
    ensures r.Ok? <==> EtcEnv.ReadEtcEnv(etcEnv).Ok?
    ensures r.Err? ==> r == Err(EtcEnv.ReadEtcEnv(etcEnv).error)
    ensures r.Ok? ==> r.value.argv == ["su", user, "-c", Quote([command] + args)] && r.value.capture == capture
    ensures r.Ok? ==> var base := EtcEnv.ReadEtcEnv(etcEnv).value;
                      var over := if extra.Some? then extra.value else map[];
                      r.value.env.Keys == base.Keys + over.Keys
                      && (forall k :: k in over ==> r.value.env[k] == over[k])
                      && (forall k :: k in base && k !in over ==> r.value.env[k] == base[k])
  {
    var base :- EtcEnv.ReadEtcEnv(etcEnv);
    var env := if extra.Some? then base + extra.value else base;
    Ok(Invocation(["su", user, "-c", Quote([command] + args)], env, capture))
  }

  /** The command `su` runs is exactly the command and its arguments. */
  lemma RunPassesWords(user: string, command: string, args: seq<string>, etcEnv: Option<seq<string>>,
                       extra: Option<map<string, string>>, capture: bool)
    requires Run(user, command, args, etcEnv, extra, capture).Ok?
    requires '\'' !in command && forall i :: 0 <= i < |args| ==> '\'' !in args[i]
    ensures Unquote(Run(user, command, args, etcEnv, extra, capture).value.argv[3]) == [command] + args
  {
    var parts := [command] + args;
    assert forall i :: 1 <= i < |parts| ==> parts[i] == args[i - 1];
    QuoteRoundTrip(parts);
  }
}

=== FILE: services.dfy ===
/** What the HDFS and YARN handlers share: running a daemon control script
    against the configuration directory, a fixed sequence of commands that
    stops at the first failure, and the edit sessions on the `*-site.xml`
    property files.
 */
module Services {
  import opened Results
  import opened Text
  import opened PropMaps
  import opened HadoopEnv
  import opened HadoopBase

  /** The daemon control command line `<script> --config <conf> <command> <service>`,
      the script taken relative to the Hadoop directory. */
  function DaemonWords(b: Base, script: string, command: string, service: string): seq<string>
    requires DirPath(b, "hadoop").Ok? && DirPath(b, "hadoop_conf").Ok?
  {
    [Slash(DirPath(b, "hadoop").value, script), "--config", DirPath(b, "hadoop_conf").value, command, service]
  }

  /** The `su` command line of that daemon command. */
  function DaemonArgv(b: Base, user: string, script: string, command: string, service: string): seq<string>
    requires DirPath(b, "hadoop").Ok? && DirPath(b, "hadoop_conf").Ok?
  {
    SuArgv(user, DaemonWords(b, script, command, service))
  }

  /** What stops a daemon command before it starts: the configuration
      directory is resolved first, then whatever stops `run`. */
  function DaemonBlocker(h: Host, b: Base): Option<Error> {
    if DirPath(b, "hadoop_conf").Err? then Some(DirPath(b, "hadoop_conf").error) else RunBlocker(h, b)
  }

  /** `r` is what issuing that one daemon command from `h` leads to: nothing
      but the log changes; when something stops it, the error and no
      action; otherwise exactly that command is logged, and it fails, with
      `CalledProcessError`, exactly when the world rejects its command line. */
  predicate IssuedDaemon(h: Host, w: World, r: Outcome, b: Base, user: string, script: string, command: string, service: string) {
    && r.host == h.(log := r.host.log)
    && |h.log| <= |r.host.log| <= |h.log| + 1 && r.host.log[..|h.log|] == h.log
    && (DaemonBlocker(h, b).Some? ==> r == Failed(DaemonBlocker(h, b).value, h))
    && (DaemonBlocker(h, b).None? ==>
          && |r.host.log| == |h.log| + 1
          && RunsAs(r.host.log[|h.log|], user, DaemonWords(b, script, command, service))
          && (r.Done? <==> DaemonArgv(b, user, script, command, service) !in w.failing)
          && (r.Failed? ==> r.error == CalledProcessError(DaemonArgv(b, user, script, command, service))))
  }

  /** `run(user, script, '--config', path('hadoop_conf'), command, service)`:
      the configuration directory is resolved before anything runs. */
  function Daemon(h: Host, w: World, b: Base, user: string, script: string, command: string, service: string): (r: Outcome)
    ensures IssuedDaemon(h, w, r, b, user, script, command, service)
  {
    var conf := DirPath(b, "hadoop_conf");
    if conf.Err? then Fail(conf, h)
    else
      var args := ["--config", conf.value, command, service];
      assert DirPath(b, "hadoop").Ok? ==> HadoopWords(b, script, args) == DaemonWords(b, script, command, service);
      Run(h, w, b, user, script, args)
  }

  /** `r` is what running `command` with each argument list of `argss` in
      turn from `h` leads to, stopping at the first failure: only the log
      grows, by one action per command issued.  When `run` is stopped before
      the first command, that error and no action.  Otherwise the commands
      issued are the first ones of `argss`, in order; every one but the last
      succeeded; the whole succeeds exactly when no command line is one the
      world rejects; and a failure is `CalledProcessError` of the last
      command issued, which is one it rejects. */
  predicate RanEach(h: Host, w: World, r: Outcome, b: Base, user: string, command: string, argss: seq<seq<string>>) {
    && |h.log| <= |r.host.log| <= |h.log| + |argss| && r.host.log[..|h.log|] == h.log
    && (|argss| == 0 ==> r.Done? && r.host.log == h.log)
    && (|argss| > 0 && RunBlocker(h, b).Some? ==> r.Failed? && r.error == RunBlocker(h, b).value && r.host.log == h.log)
    && (RunBlocker(h, b).None? ==>
          && (forall i :: 0 <= i < |r.host.log| - |h.log| ==>
                RunsAs(r.host.log[|h.log| + i], user, HadoopWords(b, command, argss[i])))
          && (forall i :: 0 <= i < |r.host.log| - |h.log| - 1 ==> HadoopArgv(b, user, command, argss[i]) !in w.failing)
          && (r.Done? <==> forall i :: 0 <= i < |argss| ==> HadoopArgv(b, user, command, argss[i]) !in w.failing)
          && (r.Done? ==> |r.host.log| == |h.log| + |argss|)
          && (r.Failed? ==>
                && |h.log| < |r.host.log|
                && HadoopArgv(b, user, command, argss[|r.host.log| - |h.log| - 1]) in w.failing
                && r.error == CalledProcessError(HadoopArgv(b, user, command, argss[|r.host.log| - |h.log| - 1]))))
  }

  /** One successful command in front of a run of the rest gives a run of
      them all. */
  lemma RanEachCons(h: Host, h1: Host, w: World, r: Outcome, b: Base, user: string, command: string,
                    argss: seq<seq<string>>)
    requires |argss| > 0 && Run(h, w, b, user, command, argss[0]) == Done(h1)
    requires RanEach(h1, w, r, b, user, command, argss[1..])
    ensures RanEach(h, w, r, b, user, command, argss)
  {
    RunBlockerStable(h, h1, b);
    var m := |h.log|;
    assert r.host.log[..m] == h.log && r.host.log[m] == h1.log[m] by {
      assert r.host.log[..m] == r.host.log[..m + 1][..m];
      assert r.host.log[..m + 1][m] == r.host.log[m];
    }
    ConsActions(h, h1, w, r, b, user, command, argss);
    ConsFailures(h, h1, w, r, b, user, command, argss);
  }

  /** The actions of a run of `argss`: the first command's, then the rest's. */
  lemma ConsActions(h: Host, h1: Host, w: World, r: Outcome, b: Base, user: string, command: string,
                    argss: seq<seq<string>>)
    requires |argss| > 0 && Run(h, w, b, user, command, argss[0]) == Done(h1)
    requires RanEach(h1, w, r, b, user, command, argss[1..])
    requires RunBlocker(h1, b) == RunBlocker(h, b)
    requires r.host.log[|h.log|] == h1.log[|h.log|]
    ensures RunBlocker(h, b).None? ==>
              forall i :: 0 <= i < |r.host.log| - |h.log| ==>
                RunsAs(r.host.log[|h.log| + i], user, HadoopWords(b, command, argss[i]))
  {
    var m := |h.log|;
    if RunBlocker(h, b).None? {
      forall i | 0 <= i < |r.host.log| - m
        ensures RunsAs(r.host.log[m + i], user, HadoopWords(b, command, argss[i]))
      {
        if i > 0 {
          assert argss[1..][i - 1] == argss[i];
          assert r.host.log[m + 1 + (i - 1)] == r.host.log[m + i];
        }
      }
    }
  }

  /** Which commands of a run of `argss` failed: none of the first
      command's, then the rest's. */
  lemma ConsFailures(h: Host, h1: Host, w: World, r: Outcome, b: Base, user: string, command: string,
                     argss: seq<seq<string>>)
    requires |argss| > 0 && Run(h, w, b, user, command, argss[0]) == Done(h1)
    requires RanEach(h1, w, r, b, user, command, argss[1..])
    requires RunBlocker(h1, b) == RunBlocker(h, b)
    ensures RunBlocker(h, b).None? ==>
              && (forall i :: 0 <= i < |r.host.log| - |h.log| - 1 ==> HadoopArgv(b, user, command, argss[i]) !in w.failing)
              && (r.Done? <==> forall i :: 0 <= i < |argss| ==> HadoopArgv(b, user, command, argss[i]) !in w.failing)
              && (r.Failed? ==>
                    HadoopArgv(b, user, command, argss[|r.host.log| - |h.log| - 1]) in w.failing
                    && r.error == CalledProcessError(HadoopArgv(b, user, command, argss[|r.host.log| - |h.log| - 1])))
  {
    var n := |r.host.log| - |h.log|;
    if RunBlocker(h, b).None? {
      forall i | 0 <= i < n - 1
        ensures HadoopArgv(b, user, command, argss[i]) !in w.failing
      {
        if i > 0 {
          assert argss[1..][i - 1] == argss[i];
        }
      }
      assert r.Failed? ==> argss[1..][n - 2] == argss[n - 1];
      forall i | 0 <= i < |argss| - 1 ensures argss[1..][i] == argss[i + 1] { }
    }
  }

  /** `run(user, command, *args)` for each argument list in turn, stopping
      at the first command that fails. */
  function RunEach(h: Host, w: World, b: Base, user: string, command: string, argss: seq<seq<string>>): (r: Outcome)
    ensures r.host == h.(log := r.host.log)
    ensures RanEach(h, w, r, b, user, command, argss)
    decreases |argss|
  {
    if |argss| == 0 then Done(h)
    else
      var first := Run(h, w, b, user, command, argss[0]);
      if first.Failed? then first
      else
        var r := RunEach(first.host, w, b, user, command, argss[1..]);
        RanEachCons(h, first.host, w, r, b, user, command, argss);
        r
  }

  /** Running two lists of commands one after the other is running them
      together: the second list runs only when the first succeeded. */
  lemma {:induction false} RunEachAppend(h: Host, w: World, b: Base, user: string, command: string,
                                         xs: seq<seq<string>>, ys: seq<seq<string>>)
    ensures RunEach(h, w, b, user, command, xs + ys)
         == (var first := RunEach(h, w, b, user, command, xs);
             if first.Failed? then first else RunEach(first.host, w, b, user, command, ys))
    decreases |xs|
  {
    if |xs| == 0 {
      assert xs + ys == ys;
    } else {
      assert (xs + ys)[0] == xs[0];
      assert (xs + ys)[1..] == xs[1..] + ys;
      var first := Run(h, w, b, user, command, xs[0]);
      if first.Done? {
        RunEachAppend(first.host, w, b, user, command, xs[1..], ys);
      }
    }
  }

  /** A daemon command is the one-command sequence of its script with the
      configuration directory in front of its arguments. */
  lemma DaemonIsRunEach(h: Host, w: World, b: Base, user: string, script: string, command: string, service: string)
    requires DirPath(b, "hadoop_conf").Ok?
    ensures Daemon(h, w, b, user, script, command, service)
         == RunEach(h, w, b, user, script, [["--config", DirPath(b, "hadoop_conf").value, command, service]])
  {
    var argss := [["--config", DirPath(b, "hadoop_conf").value, command, service]];
    assert argss[1..] == [];
  }

  /** A one-shot command sequence: nothing happens once `flag` is set;
      otherwise the commands run in order as `RunEach` runs them, and the
      flag is set only after all of them succeeded. */
  function OneShot(h: Host, w: World, b: Base, flag: string, user: string, command: string,
                   argss: seq<seq<string>>): (r: Outcome)
    ensures flag in h.flags ==> r == Done(h)
    ensures flag !in h.flags ==> RanEach(h, w, r, b, user, command, argss)
    ensures r.Done? ==> r.host.flags == h.flags + {flag}
    ensures r.Failed? ==> r.host.flags == h.flags
    ensures r.host.kv == h.kv && r.host.files == h.files && r.host.xml == h.xml
  {
    if flag in h.flags then Done(h)
    else
      var h1 :- RunEach(h, w, b, user, command, argss);
      Done(h1.(flags := h1.flags + {flag}))
  }

  /** Once a one-shot sequence succeeded, running it again issues nothing. */
  lemma OneShotOnce(h: Host, w: World, b: Base, flag: string, user: string, command: string, argss: seq<seq<string>>)
    requires OneShot(h, w, b, flag, user, command, argss).Done?
    ensures OneShot(OneShot(h, w, b, flag, user, command, argss).host, w, b, flag, user, command, argss)
         == OneShot(h, w, b, flag, user, command, argss)
  {
  }

  // ---------------------------------------------------------------------
  // Values written into the property files
  // ---------------------------------------------------------------------

  /** `charm_config[key]`. */
  function Setting(b: Base, key: string): (r: Result<PyVal>)
    ensures r.Ok? <==> key in b.config
    ensures r.Ok? ==> r.value == b.config[key]
    ensures r.Err? ==> r.error == KeyError(key)
  {
    if key in b.config then Ok(b.config[key]) else Err(KeyError(key))
  }

  /** `int(v)`: integers pass, text must read as a decimal integer, and
      `None` is a type error. */
  function ToInt(v: PyVal): (r: Result<int>)
    ensures v.PInt? ==> r == Ok(v.i)
    ensures v.PStr? ==> r == ParseInt(v.s)
    ensures v.PNone? ==> r == Err(TypeError("int"))
  {
    match v
    case PInt(i) => Ok(i)
    case PStr(s) => ParseInt(s)
    case PNone => Err(TypeError("int"))
  }

  /** A port number as `str.format` renders `dist_config.port(...)`, which
      is `None` for an entry without a port. */
  function PortText(port: Option<int>): string {
    if port.Some? then IntToString(port.value) else "None"
  }

  /** `'0.0.0.0:{}'.format(port)`: listen on every interface. */
  function ListenAll(port: Option<int>): string {
    "0.0.0.0:" + PortText(port)
  }

  /** The decimal form of an integer is already in written form, and reads
      back as that integer. */
  lemma IntTextClean(n: int)
    ensures Clean(IntToString(n)) && ParseInt(IntToString(n)) == Ok(n)
  {
    IntToStringRoundTrip(n);
    IntToStringTrimmed(n);
  }

  /** A listen address is already in written form. */
  lemma ListenAllClean(port: Option<int>)
    ensures Clean(ListenAll(port))
  {
    var t := PortText(port);
    if port.Some? {
      IntTextClean(port.value);
    }
    assert ListenAll(port)[0] == '0';
    assert ListenAll(port)[|ListenAll(port)| - 1] == t[|t| - 1];
  }

  // ---------------------------------------------------------------------
  // Property-file edit sessions
  // ---------------------------------------------------------------------

  /** `props[name] = value` inside an edit session. */
  type Assignment = (XText, PyVal)

  /** The names the assignments add to a document holding `before`, each
      once, in the order they are first assigned.  Python iterates the set
      of added names in an unspecified order; this is one such order. */
  function AddedOrder(ps: seq<Assignment>, before: set<XText>): (r: seq<XText>)
    ensures forall k :: k in r <==> k !in before && exists i :: 0 <= i < |ps| && ps[i].0 == k
    ensures forall i, j :: 0 <= i < j < |r| ==> r[i] != r[j]
  {
    if |ps| == 0 then []
    else
      var n := |ps| - 1;
      var init := AddedOrder(ps[..n], before);
      assert forall i :: 0 <= i < n ==> ps[..n][i] == ps[i];
      if ps[n].0 in before || ps[n].0 in init then init else init + [ps[n].0]
  }

  /** `with xmlpropmap_edit_in_place(path) as props:` making the assignments
      `ps`: the file must exist; only that file changes. */
  function EditXml(h: Host, path: string, ps: seq<Assignment>): (r: Outcome)
    ensures r.Failed? <==> path !in h.xml
    ensures r.Failed? ==> r == Failed(IOError(path), h)
    ensures r.Done? ==> r.host == h.(xml := r.host.xml) && r.host.xml.Keys == h.xml.Keys
    ensures r.Done? ==> forall p :: p in h.xml && p != path ==> r.host.xml[p] == h.xml[p]
    ensures r.Done? ==> IsNormal(r.host.xml[path])
  {
    if path !in h.xml then Failed(IOError(path), h)
    else
      var doc := h.xml[path];
      var before := Snapshot(doc);
      var props := Assign(before, ps);
      NormalizeNormal(ApplyDiff(doc, props, AddedOrder(ps, before.Keys)));
      Done(h.(xml := h.xml[path := Session(doc, props, AddedOrder(ps, before.Keys))]))
  }

  /** A name as the XML text of a `<name>` element already is in written form. */
  predicate Clean(s: string) {
    s != [] && Trimmed(s, Whitespace)
  }

  lemma CleanNormal(s: string)
    requires Clean(s)
    ensures NormText(Some(s)) == Some(s) && NormVal(PStr(s)) == PStr(s)
  {
    StripCharsFixed(s, Whitespace);
  }

  /** The names of a written document are in written form. */
  lemma {:induction false} NormalNames(doc: seq<Property>)
    requires IsNormal(doc)
    ensures forall k :: k in Snapshot(doc) ==> NormText(k) == k
  {
    if |doc| > 0 {
      var n := |doc| - 1;
      assert IsNormal(doc[..n]);
      NormalNames(doc[..n]);
      assert NormProperty(doc[n]) == doc[n];
    }
  }

  /** Assignments to distinct names, each already in written form. */
  predicate WellNamed(ps: seq<Assignment>) {
    && (forall i :: 0 <= i < |ps| ==> ps[i].0.Some? && Clean(ps[i].0.value))
    && (forall i, j :: 0 <= i < j < |ps| ==> ps[i].0 != ps[j].0)
  }

  /** The names a session ends up with are all in written form. */
  lemma NamesStayNormal(doc: seq<Property>, ps: seq<Assignment>)
    requires IsNormal(doc)
    requires forall i :: 0 <= i < |ps| ==> ps[i].0.Some? && Clean(ps[i].0.value)
    ensures forall k :: k in Assign(Snapshot(doc), ps) ==> NormText(k) == k
  {
    NormalNames(doc);
    forall i | 0 <= i < |ps| ensures NormText(ps[i].0) == ps[i].0 {
      CleanNormal(ps[i].0.value);
    }
  }

  /** The mapping a re-read should give after the assignments `ps`. */
  lemma ExpectedAssigns(before: map<XText, PyVal>, ps: seq<Assignment>)
    requires forall k :: k in before ==> !before[k].PInt?
    requires forall i, j :: 0 <= i < j < |ps| ==> ps[i].0 != ps[j].0
    ensures var e := NormMap(Expected(before, Assign(before, ps)));
            && (forall k :: k in e <==> k in before || exists i :: 0 <= i < |ps| && ps[i].0 == k)
            && (forall k :: k in before && (forall i :: 0 <= i < |ps| ==> ps[i].0 != k) ==> e[k] == NormVal(before[k]))
            && (forall i :: 0 <= i < |ps| ==>
                  e[ps[i].0] == NormVal(if ps[i].0 in before && ps[i].1 == PNone then before[ps[i].0] else PStr(Str(ps[i].1))))
  {
    var names := seq(|ps|, i requires 0 <= i < |ps| => ps[i].0);
    AssignDistinct(before, ps, names);
    var props := Assign(before, ps);
    forall k | k in before && k !in names ensures ReadBack(before, props, k) == before[k] {
      if before[k].PStr? {
        assert Str(before[k]) == before[k].s;
      }
    }
  }

  /** What re-reading a previously written document after a session
      gives: the assigned names hold their new values (a `None` keeps an
      existing value) in written form, and every other name keeps its value. */
  lemma SessionAssigns(doc: seq<Property>, ps: seq<Assignment>)
    requires IsNormal(doc)
    requires WellNamed(ps)
    ensures var before := Snapshot(doc);
            var after := Snapshot(Session(doc, Assign(before, ps), AddedOrder(ps, before.Keys)));
            && (forall k :: k in after <==> k in before || exists i :: 0 <= i < |ps| && ps[i].0 == k)
            && (forall k :: k in before && (forall i :: 0 <= i < |ps| ==> ps[i].0 != k) ==> after[k] == before[k])
            && (forall i :: 0 <= i < |ps| ==>
                  after[ps[i].0] == NormVal(if ps[i].0 in before && ps[i].1 == PNone then before[ps[i].0] else PStr(Str(ps[i].1))))
  {
    var before := Snapshot(doc);
    var props := Assign(before, ps);
    NamesStayNormal(doc, ps);
    SessionReadBack(doc, props, AddedOrder(ps, before.Keys));
    forall k | k in before ensures NormVal(before[k]) == before[k] && !before[k].PInt? {
      NormalValue(doc, k);
    }
    ExpectedAssigns(before, ps);
  }

  /** `EditXml` on a file a session wrote before: see `SessionAssigns`. */
  lemma EditXmlReadBack(h: Host, path: string, ps: seq<Assignment>)
    requires path in h.xml && IsNormal(h.xml[path])
    requires WellNamed(ps)
    ensures var before := Snapshot(h.xml[path]);
            var after := Snapshot(EditXml(h, path, ps).host.xml[path]);
            && (forall k :: k in after <==> k in before || exists i :: 0 <= i < |ps| && ps[i].0 == k)
            && (forall k :: k in before && (forall i :: 0 <= i < |ps| ==> ps[i].0 != k) ==> after[k] == before[k])
            && (forall i :: 0 <= i < |ps| ==>
                  after[ps[i].0] == NormVal(if ps[i].0 in before && ps[i].1 == PNone then before[ps[i].0] else PStr(Str(ps[i].1))))
  {
    var doc := h.xml[path];
    var before := Snapshot(doc);
    SessionAssigns(doc, ps);
    assert EditXml(h, path, ps).host.xml[path] == Session(doc, Assign(before, ps), AddedOrder(ps, before.Keys));
  }

  /** One assignment of an `EditXml` session, read back. */
  lemma EditXmlValue(h: Host, path: string, ps: seq<Assignment>, i: int)
    requires path in h.xml && IsNormal(h.xml[path])
    requires WellNamed(ps) && 0 <= i < |ps|
    ensures var before := Snapshot(h.xml[path]);
            var after := Snapshot(EditXml(h, path, ps).host.xml[path]);
            && ps[i].0 in after
            && after[ps[i].0] == NormVal(if ps[i].0 in before && ps[i].1 == PNone then before[ps[i].0] else PStr(Str(ps[i].1)))
  {
    EditXmlReadBack(h, path, ps);
  }

  /** An assignment of text reads back as that text in written form. */
  lemma EditXmlStr(h: Host, path: string, ps: seq<Assignment>, i: int)
    requires path in h.xml && IsNormal(h.xml[path])
    requires WellNamed(ps) && 0 <= i < |ps| && ps[i].1.PStr?
    ensures var after := Snapshot(EditXml(h, path, ps).host.xml[path]);
            ps[i].0 in after && after[ps[i].0] == NormVal(ps[i].1)
  {
    EditXmlValue(h, path, ps, i);
  }

  /** An integer assignment reads back as its decimal text. */
  lemma EditXmlInt(h: Host, path: string, ps: seq<Assignment>, i: int)
    requires path in h.xml && IsNormal(h.xml[path])
    requires WellNamed(ps) && 0 <= i < |ps| && ps[i].1.PInt?
    ensures var after := Snapshot(EditXml(h, path, ps).host.xml[path]);
            ps[i].0 in after && after[ps[i].0] == PStr(IntToString(ps[i].1.i))
  {
    EditXmlValue(h, path, ps, i);
    IntTextClean(ps[i].1.i);
    CleanNormal(IntToString(ps[i].1.i));
  }

  /** An assignment of text already in written form reads back as that text. */
  lemma EditXmlText(h: Host, path: string, ps: seq<Assignment>, i: int)
    requires path in h.xml && IsNormal(h.xml[path])
    requires WellNamed(ps) && 0 <= i < |ps| && ps[i].1.PStr? && Clean(ps[i].1.s)
    ensures var after := Snapshot(EditXml(h, path, ps).host.xml[path]);
            ps[i].0 in after && after[ps[i].0] == ps[i].1
  {
    EditXmlValue(h, path, ps, i);
    CleanNormal(ps[i].1.s);
  }

  /** A name no assignment of the session touches reads back as before. */
  lemma EditXmlKeeps(h: Host, path: string, ps: seq<Assignment>, k: XText)
    requires path in h.xml && IsNormal(h.xml[path])
    requires WellNamed(ps) && k in Snapshot(h.xml[path])
    requires forall i :: 0 <= i < |ps| ==> ps[i].0 != k
    ensures var after := Snapshot(EditXml(h, path, ps).host.xml[path]);
            k in after && after[k] == Snapshot(h.xml[path])[k]
  {
    EditXmlReadBack(h, path, ps);
  }

  /** In a written document every value a re-read yields is already in
      written form. */
  lemma {:induction false} NormalValue(doc: seq<Property>, k: XText)
    requires IsNormal(doc) && k in Snapshot(doc)
    ensures NormVal(Snapshot(doc)[k]) == Snapshot(doc)[k] && !Snapshot(doc)[k].PInt?
  {
    var n := |doc| - 1;
    var p := doc[n];
    if p.name != k {
      assert IsNormal(doc[..n]);
      NormalValue(doc[..n], k);
    } else {
      assert NormProperty(p) == p;
      if p.value.Some? {
        NormTextIdempotent(p.value);
      }
    }
  }
}

=== FILE: text.dfy ===
/** The handful of Python `str` operations the configuration code relies on:
    `strip`, `split`, `join`, `startswith`, the substring test `in`, and the
    decimal conversions `str(int)` / `int(str)`.
 */
module Text {
  import opened Results

  /** Characters Python's argument-less `strip()` removes from a byte string. */
  const Whitespace: set<char> := {' ', '\t', '\n', '\r', 11 as char, 12 as char}

  /** Text holding no line break: what one line of a file is once
      `lines()` has cut it at its terminator (`\n`, `\r` or `\r\n`). */
  predicate Unbroken(s: string) {
    '\n' !in s && '\r' !in s
  }

  /** `s.lstrip(cs)`: drop the longest prefix made of characters in `cs`. */
  function TrimLeft(s: string, cs: set<char>): (r: string)
    ensures |r| <= |s| && r == s[|s| - |r|..]
    ensures forall i :: 0 <= i < |s| - |r| ==> s[i] in cs
    ensures r == [] || r[0] !in cs
  {
    if |s| > 0 && s[0] in cs then TrimLeft(s[1..], cs) else s
  }

  /** `s.rstrip(cs)`: drop the longest suffix made of characters in `cs`. */
  function TrimRight(s: string, cs: set<char>): (r: string)
    ensures |r| <= |s| && r == s[..|r|]
    ensures forall i :: |r| <= i < |s| ==> s[i] in cs
    ensures r == [] || r[|r| - 1] !in cs
  {
    if |s| > 0 && s[|s| - 1] in cs then TrimRight(s[..|s| - 1], cs) else s
  }

  /** Neither end of `s` is one of the characters `cs`. */
  predicate Trimmed(s: string, cs: set<char>) {
    s == [] || (s[0] !in cs && s[|s| - 1] !in cs)
  }

  /** `s.strip(cs)`. */
  function StripChars(s: string, cs: set<char>): (r: string)
    ensures |r| <= |s|
    ensures Trimmed(r, cs)
  {
    TrimRight(TrimLeft(s, cs), cs)
  }

  /** `s.strip()`. */
  function Strip(s: string): string {
    StripChars(s, Whitespace)
  }

  /** Stripping leaves a string alone exactly when neither end is strippable. */
  lemma StripCharsFixed(s: string, cs: set<char>)
    ensures StripChars(s, cs) == s <==> Trimmed(s, cs)
  {
    var r := StripChars(s, cs);
    if Trimmed(s, cs) {
      assert TrimLeft(s, cs) == s;
      assert TrimRight(s, cs) == s;
    } else {
      assert Trimmed(r, cs);
      assert r != s;
    }
  }

  lemma StripCharsIdempotent(s: string, cs: set<char>)
    ensures StripChars(StripChars(s, cs), cs) == StripChars(s, cs)
  {
    StripCharsFixed(StripChars(s, cs), cs);
  }

  /** Stripping only removes characters: one absent from `s` is absent afterwards. */
  lemma StripCharsAbsent(s: string, cs: set<char>, c: char)
    requires c !in s
    ensures c !in StripChars(s, cs)
  {
    var l := TrimLeft(s, cs);
    assert forall i :: 0 <= i < |l| ==> l[i] == s[|s| - |l| + i];
    var r := TrimRight(l, cs);
    assert forall i :: 0 <= i < |r| ==> r[i] == l[i];
  }

  lemma TrimLeftSkip(c: char, s: string, cs: set<char>)
    requires c in cs
    ensures TrimLeft([c] + s, cs) == TrimLeft(s, cs)
  {
    assert ([c] + s)[1..] == s;
  }

  lemma TrimRightSkip(s: string, c: char, cs: set<char>)
    requires c in cs
    ensures TrimRight(s + [c], cs) == TrimRight(s, cs)
  {
    assert (s + [c])[..|s|] == s;
  }

  /** Stripping a quoted string whose own ends are not strippable yields its
      contents: `('"' + v + '"').strip(cs) == v`. */
  lemma StripWrapped(v: string, q: char, cs: set<char>)
    requires q in cs
    requires Trimmed(v, cs)
    ensures StripChars([q] + v + [q], cs) == v
  {
    assert [q] + v + [q] == [q] + (v + [q]);
    TrimLeftSkip(q, v + [q], cs);
    if v == [] {
      assert v + [q] == [q] + [];
      TrimLeftSkip(q, [], cs);
    } else {
      assert (v + [q])[0] == v[0];
      assert TrimLeft(v + [q], cs) == v + [q];
      TrimRightSkip(v, q, cs);
    }
  }

  /** `s.startswith(p)`. */
  predicate StartsWith(s: string, p: string) {
    |p| <= |s| && s[..|p|] == p
  }

  /** Python's substring test `sub in s`, computed by scanning. */
  predicate Contains(s: string, sub: string)
    decreases |s|
  {
    StartsWith(s, sub) || (|s| > 0 && Contains(s[1..], sub))
  }

  /** `sub` sits in `s` at offset `i`. */
  ghost predicate OccursAt(s: string, sub: string, i: int) {
    0 <= i <= |s| - |sub| && s[i..i + |sub|] == sub
  }

  /** The declarative reading of `sub in s`: some window of `s` equals `sub`. */
  ghost predicate Occurs(s: string, sub: string) {
    exists i :: OccursAt(s, sub, i)
  }

  lemma {:induction false} ContainsIffOccurs(s: string, sub: string)
    ensures Contains(s, sub) <==> Occurs(s, sub)
    decreases |s|
  {
    if StartsWith(s, sub) {
      assert OccursAt(s, sub, 0);
    } else if |s| > 0 {
      ContainsIffOccurs(s[1..], sub);
      if Occurs(s, sub) {
        var i :| OccursAt(s, sub, i);
        OccursShift(s, sub, i);
      }
      if Occurs(s[1..], sub) {
        var i :| OccursAt(s[1..], sub, i);
        OccursUnshift(s, sub, i);
      }
    } else {
      assert !OccursAt(s, sub, 0);
    }
  }

  /** An occurrence past the first character is one in the tail. */
  lemma OccursShift(s: string, sub: string, i: int)
    requires OccursAt(s, sub, i) && !StartsWith(s, sub)
    ensures |s| > 0 && OccursAt(s[1..], sub, i - 1)
  {
    assert i != 0;
    assert s[1..][i - 1..i - 1 + |sub|] == s[i..i + |sub|];
  }

  /** An occurrence in the tail is one in the whole, one further on. */
  lemma OccursUnshift(s: string, sub: string, i: int)
    requires |s| > 0 && OccursAt(s[1..], sub, i)
    ensures OccursAt(s, sub, i + 1)
  {
    assert s[i + 1..i + 1 + |sub|] == s[1..][i..i + |sub|];
  }

  /** Appending text never destroys an occurrence. */
  lemma {:induction false} ContainsAppend(a: string, b: string, sub: string)
    requires Contains(a, sub)
    ensures Contains(a + b, sub)
    decreases |a|
  {
    if StartsWith(a, sub) {
      assert (a + b)[..|sub|] == a[..|sub|];
    } else {
      ContainsAppend(a[1..], b, sub);
      assert (a + b)[1..] == a[1..] + b;
    }
  }

  /** A string contains whatever was appended to it. */
  lemma {:induction false} ContainsSuffix(a: string, b: string)
    ensures Contains(a + b, b)
    decreases |a|
  {
    if |a| == 0 {
      assert a + b == b;
      assert b[..|b|] == b;
    } else {
      ContainsSuffix(a[1..], b);
      assert (a + b)[1..] == a[1..] + b;
    }
  }

  /** Position of the first `c` in `s` at or after `from` (`s.find(c, from)`). */
  function IndexOf(s: string, c: char, from: nat): (r: Option<nat>)
    requires from <= |s|
    ensures r.Some? ==> from <= r.value < |s| && s[r.value] == c
                        && forall i :: from <= i < r.value ==> s[i] != c
    ensures r.None? ==> forall i :: from <= i < |s| ==> s[i] != c
    decreases |s| - from
  {
    if from == |s| then None
    else if s[from] == c then Some(from)
    else IndexOf(s, c, from + 1)
  }

  /** Number of occurrences of character `c` in `s`. */
  function Count(s: string, c: char): nat {
    if |s| == 0 then 0 else (if s[0] == c then 1 else 0) + Count(s[1..], c)
  }

  /** `sep.join(parts)`. */
  function Join(parts: seq<string>, sep: string): string {
    if |parts| == 0 then ""
    else if |parts| == 1 then parts[0]
    else parts[0] + sep + Join(parts[1..], sep)
  }

  /** `s.split(c)` for a one-character separator. */
  function Split(s: string, c: char): (parts: seq<string>)
    ensures |parts| >= 1
  {
    if |s| == 0 then [""]
    else if s[0] == c then [""] + Split(s[1..], c)
    else
      var rest := Split(s[1..], c);
      [[s[0]] + rest[0]] + rest[1..]
  }

  /** Splitting and re-joining gives back the original string. */
  lemma {:induction false} SplitJoin(s: string, c: char)
    ensures Join(Split(s, c), [c]) == s
  {
    if |s| == 0 {
    } else if s[0] == c {
      SplitJoin(s[1..], c);
      var rest := Split(s[1..], c);
      assert ([""] + rest)[1..] == rest;
      assert s == [c] + s[1..];
    } else {
      SplitJoin(s[1..], c);
      var rest := Split(s[1..], c);
      var parts := [[s[0]] + rest[0]] + rest[1..];
      if |rest| > 1 {
        assert parts[1..] == rest[1..];
      }
      assert s == [s[0]] + s[1..];
    }
  }

  /** No piece of a split holds the separator. */
  lemma {:induction false} SplitPiecesClean(s: string, c: char)
    ensures forall i :: 0 <= i < |Split(s, c)| ==> c !in Split(s, c)[i]
  {
    if |s| == 0 {
    } else if s[0] == c {
      SplitPiecesClean(s[1..], c);
      var rest := Split(s[1..], c);
      assert forall i :: 1 <= i < |rest| + 1 ==> ([""] + rest)[i] == rest[i - 1];
    } else {
      SplitPiecesClean(s[1..], c);
      var rest := Split(s[1..], c);
      var parts := [[s[0]] + rest[0]] + rest[1..];
      assert forall i :: 1 <= i < |parts| ==> parts[i] == rest[i];
    }
  }

  /** Every character of a piece of a split comes from the split string. */
  lemma {:induction false} SplitPiecesWithin(s: string, c: char, x: char)
    requires x !in s
    ensures forall i :: 0 <= i < |Split(s, c)| ==> x !in Split(s, c)[i]
  {
    if |s| == 0 {
    } else if s[0] == c {
      SplitPiecesWithin(s[1..], c, x);
      var rest := Split(s[1..], c);
      assert forall i :: 1 <= i < |rest| + 1 ==> ([""] + rest)[i] == rest[i - 1];
    } else {
      SplitPiecesWithin(s[1..], c, x);
      var rest := Split(s[1..], c);
      var parts := [[s[0]] + rest[0]] + rest[1..];
      assert forall i :: 1 <= i < |parts| ==> parts[i] == rest[i];
    }
  }

  /** A split has one piece more than there are separators. */
  lemma {:induction false} SplitCount(s: string, c: char)
    ensures |Split(s, c)| == Count(s, c) + 1
  {
    if |s| > 0 {
      SplitCount(s[1..], c);
    }
  }

  /** A line splits into exactly two pieces iff it holds exactly one separator. */
  lemma SplitTwo(s: string, c: char)
    ensures |Split(s, c)| == 2 <==> Count(s, c) == 1
  {
    SplitCount(s, c);
  }

  /** Splitting a string that holds exactly one separator around it. */
  lemma {:induction false} SplitAround(a: string, b: string, c: char)
    requires c !in a && c !in b
    ensures Split(a + [c] + b, c) == [a, b]
  {
    if |a| == 0 {
      assert a + [c] + b == [c] + b;
      assert ([c] + b)[1..] == b;
      SplitNone(b, c);
    } else {
      SplitAround(a[1..], b, c);
      assert (a + [c] + b)[1..] == a[1..] + [c] + b;
      assert [a[0]] + a[1..] == a;
    }
  }

  /** Splitting at the first separator: the text before it, then the rest's pieces. */
  lemma {:induction false} SplitAtFirst(a: string, b: string, c: char)
    requires c !in a
    ensures Split(a + [c] + b, c) == [a] + Split(b, c)
  {
    if |a| == 0 {
      assert a + [c] + b == [c] + b;
      assert ([c] + b)[1..] == b;
    } else {
      SplitAtFirst(a[1..], b, c);
      assert (a + [c] + b)[1..] == a[1..] + [c] + b;
      assert [a[0]] + a[1..] == a;
    }
  }

  /** A string without the separator splits into itself. */
  lemma {:induction false} SplitNone(s: string, c: char)
    requires c !in s
    ensures Split(s, c) == [s]
  {
    if |s| > 0 {
      SplitNone(s[1..], c);
      assert [s[0]] + s[1..] == s;
    }
  }

  function DigitChar(d: nat): char
    requires d < 10
  {
    ('0' as int + d) as char
  }

  predicate IsDigit(c: char) {
    '0' <= c <= '9'
  }

  function DigitValue(c: char): nat
    requires IsDigit(c)
  {
    c as int - '0' as int
  }

  /** Decimal digits of a natural number, most significant first. */
  function NatToString(n: nat): (r: string)
    ensures |r| >= 1
    ensures forall i :: 0 <= i < |r| ==> IsDigit(r[i])
  {
    if n < 10 then [DigitChar(n)] else NatToString(n / 10) + [DigitChar(n % 10)]
  }

  /** `str(n)` for a Python int. */
  function IntToString(n: int): string {
    if n < 0 then "-" + NatToString(-n) else NatToString(n)
  }

  /** Value of a non-empty run of decimal digits, read left to right. */
  function DigitsValue(s: string): nat
    requires forall i :: 0 <= i < |s| ==> IsDigit(s[i])
  {
    if |s| == 0 then 0 else DigitsValue(s[..|s| - 1]) * 10 + DigitValue(s[|s| - 1])
  }

  predicate AllDigits(s: string) {
    |s| >= 1 && forall i :: 0 <= i < |s| ==> IsDigit(s[i])
  }

  /** `int(s)` for a base-10 string: surrounding whitespace, an optional
      sign, then one or more digits; anything else is a ValueError.  Python
      2's parser also skips whitespace between the sign and the digits, so
      `int('- 5') == -5`. */
  function ParseInt(s: string): (r: Result<int>)
    ensures r.Ok? <==> (var t := Strip(s);
                        AllDigits(t) || (|t| >= 1 && (t[0] == '-' || t[0] == '+') && AllDigits(TrimLeft(t[1..], Whitespace))))
    ensures r.Err? ==> r == Err(InvalidInt(s))
  {
    match ParseSigned(Strip(s))
    case Some(n) => Ok(n)
    case None => Err(InvalidInt(s))
  }

  /** The value of stripped text: an optional sign, whitespace, then one or
      more digits. */
  function ParseSigned(t: string): (r: Option<int>)
    ensures r.Some? <==> AllDigits(t) || (|t| >= 1 && (t[0] == '-' || t[0] == '+') && AllDigits(TrimLeft(t[1..], Whitespace)))
  {
    if AllDigits(t) then Some(DigitsValue(t))
    else if |t| >= 1 && t[0] == '-' && AllDigits(TrimLeft(t[1..], Whitespace)) then
      Some(0 - DigitsValue(TrimLeft(t[1..], Whitespace)) as int)
    else if |t| >= 1 && t[0] == '+' && AllDigits(TrimLeft(t[1..], Whitespace)) then
      Some(DigitsValue(TrimLeft(t[1..], Whitespace)))
    else None
  }

  /** Whitespace after the sign is skipped, as Python 2's `int()` does. */
  lemma SpaceAfterSign(d: string)
    requires AllDigits(d)
    ensures ParseInt(['-', ' '] + d) == Ok(0 - DigitsValue(d))
  {
    var t := ['-', ' '] + d;
    SignSpaceDigits(t, d);
    SignedStripped(t, d);
  }

  lemma SignedStripped(t: string, d: string)
    requires AllDigits(d) && t == ['-', ' '] + d
    ensures Strip(t) == t
  {
    var c := d[|d| - 1];
    assert t[|t| - 1] == c;
    assert '0' <= c <= '9';
    assert c !in Whitespace by {
      assert c != ' ' && c != '\t' && c != '\n' && c != '\r' && c != 11 as char && c != 12 as char;
    }
    assert t[0] !in Whitespace;
    StripCharsFixed(t, Whitespace);
  }

  lemma SignSpaceDigits(t: string, d: string)
    requires AllDigits(d) && t == ['-', ' '] + d
    ensures ParseSigned(t) == Some(0 - DigitsValue(d))
  {
    var u := [' '] + d;
    assert t[0] == '-' && t[1..] == u by {
      assert t == ['-'] + u;
    }
    assert TrimLeft(u, Whitespace) == d by {
      TrimLeftSkip(' ', d, Whitespace);
      DigitsUntrimmed(d);
    }
    assert !AllDigits(t) by {
      assert t[0] == '-';
    }
    NegativeParses(t, d);
  }

  /** Digits have nothing for `lstrip()` to remove. */
  lemma DigitsUntrimmed(d: string)
    requires AllDigits(d)
    ensures TrimLeft(d, Whitespace) == d
  {
    var c := d[0];
    assert '0' <= c <= '9';
    assert c !in Whitespace by {
      assert c != ' ' && c != '\t' && c != '\n' && c != '\r' && c != 11 as char && c != 12 as char;
    }
  }

  lemma {:induction false} NatToStringValue(n: nat)
    ensures DigitsValue(NatToString(n)) == n
  {
    if n >= 10 {
      NatToStringValue(n / 10);
      var r := NatToString(n);
      assert r[..|r| - 1] == NatToString(n / 10);
    }
  }

  /** The decimal rendering has no surrounding whitespace. */
  lemma IntToStringTrimmed(n: int)
    ensures Trimmed(IntToString(n), Whitespace) && Strip(IntToString(n)) == IntToString(n)
  {
    var s := IntToString(n);
    var d := NatToString(if n < 0 then -n else n);
    assert s[|s| - 1] == d[|d| - 1];
    assert IsDigit(s[|s| - 1]);
    assert s[0] == '-' || IsDigit(s[0]);
    assert Trimmed(s, Whitespace);
    StripCharsFixed(s, Whitespace);
  }

  /** `int(str(n)) == n`: the decimal rendering of a port or size reads back. */
  lemma IntToStringRoundTrip(n: int)
    ensures ParseInt(IntToString(n)) == Ok(n)
  {
    IntToStringTrimmed(n);
    SignedRoundTrip(n);
  }

  lemma SignedRoundTrip(n: int)
    ensures ParseSigned(IntToString(n)) == Some(n)
  {
    if n < 0 {
      NegativeRoundTrip(n);
    } else {
      NatToStringValue(n);
      DigitsParse(NatToString(n));
    }
  }

  lemma NegativeRoundTrip(n: int)
    requires n < 0
    ensures ParseSigned(IntToString(n)) == Some(n)
  {
    var d := NatToString(-n);
    var t := IntToString(n);
    NegativeShape(n);
    assert |t| >= 1 && t[0] == '-' && t[1..] == d && AllDigits(d) && !AllDigits(t);
    NatToStringValue(-n);
    assert DigitsValue(d) == -n;
    DigitsUntrimmed(d);
    NegativeParses(t, d);
    assert ParseSigned(t) == Some(0 - DigitsValue(d));
  }

  lemma DigitsParse(d: string)
    requires AllDigits(d)
    ensures ParseSigned(d) == Some(DigitsValue(d))
  {
  }

  /** Minus, optional whitespace, digits: the negated value of the digits. */
  lemma NegativeParses(t: string, d: string)
    requires |t| >= 1 && t[0] == '-' && TrimLeft(t[1..], Whitespace) == d && AllDigits(d) && !AllDigits(t)
    ensures ParseSigned(t) == Some(0 - DigitsValue(d))
  {
  }

  /** A negative number's text: a minus sign, then the digits of its magnitude. */
  lemma NegativeShape(n: int)
    requires n < 0
    ensures var s := IntToString(n);
            && |s| >= 1 && s[0] == '-' && s[1..] == NatToString(-n)
            && !AllDigits(s) && AllDigits(NatToString(-n))
  {
    var s := IntToString(n);
    assert s == "-" + NatToString(-n);
    assert !IsDigit(s[0]);
  }
}

=== FILE: yarn.dfy ===
/** The YARN handlers (`YARN`): the resource manager, node manager and job
    history daemons, the properties written to `yarn-site.xml` and
    `mapred-site.xml`, and the one-shot install of the TeraSort demo.
 */
module Yarn {
  import opened Results
  import opened Text
  import opened PropMaps
  import DistConfigs
  import opened HadoopEnv
  import opened HadoopBase
  import opened Services

  const YarnScript := "sbin/yarn-daemon.sh"
  const JobhistoryScript := "sbin/mr-jobhistory-daemon.sh"

  // ---------------------------------------------------------------------
  // Daemons
  // ---------------------------------------------------------------------

  /** `_yarn_daemon(command, service)`. */
  function YarnDaemon(h: Host, w: World, b: Base, command: string, service: string): (r: Outcome)
    ensures IssuedDaemon(h, w, r, b, "yarn", YarnScript, command, service)
  {
    Daemon(h, w, b, "yarn", YarnScript, command, service)
  }

  /** `_jobhistory_daemon(command, service)`. */
  function JobhistoryDaemon(h: Host, w: World, b: Base, command: string, service: string): (r: Outcome)
    ensures IssuedDaemon(h, w, r, b, "mapred", JobhistoryScript, command, service)
  {
    Daemon(h, w, b, "mapred", JobhistoryScript, command, service)
  }

  function StopResourcemanager(h: Host, w: World, b: Base): (r: Outcome)
    ensures IssuedDaemon(h, w, r, b, "yarn", YarnScript, "stop", "resourcemanager")
  {
    YarnDaemon(h, w, b, "stop", "resourcemanager")
  }

  function StartResourcemanager(h: Host, w: World, b: Base): (r: Outcome)
    ensures "ResourceManager" in w.running ==> r == Done(h)
    ensures "ResourceManager" !in w.running ==> IssuedDaemon(h, w, r, b, "yarn", YarnScript, "start", "resourcemanager")
  {
    if "ResourceManager" in w.running then Done(h) else YarnDaemon(h, w, b, "start", "resourcemanager")
  }

  function StopNodemanager(h: Host, w: World, b: Base): (r: Outcome)
    ensures IssuedDaemon(h, w, r, b, "yarn", YarnScript, "stop", "nodemanager")
  {
    YarnDaemon(h, w, b, "stop", "nodemanager")
  }

  function StartNodemanager(h: Host, w: World, b: Base): (r: Outcome)
    ensures "NodeManager" in w.running ==> r == Done(h)
    ensures "NodeManager" !in w.running ==> IssuedDaemon(h, w, r, b, "yarn", YarnScript, "start", "nodemanager")
  {
    if "NodeManager" in w.running then Done(h) else YarnDaemon(h, w, b, "start", "nodemanager")
  }

  function StopJobhistory(h: Host, w: World, b: Base): (r: Outcome)
    ensures IssuedDaemon(h, w, r, b, "mapred", JobhistoryScript, "stop", "historyserver")
  {
    JobhistoryDaemon(h, w, b, "stop", "historyserver")
  }

  /** `start_jobhistory`: unlike the other start handlers this one always
      starts the server, stopping a running one first. */
  function StartJobhistory(h: Host, w: World, b: Base): (r: Outcome)
    ensures r.host == h.(log := r.host.log)
    ensures |r.host.log| >= |h.log| && r.host.log[..|h.log|] == h.log
    ensures "JobHistoryServer" !in w.running ==> IssuedDaemon(h, w, r, b, "mapred", JobhistoryScript, "start", "historyserver")
    ensures r.Done? ==>
              && DirPath(b, "hadoop").Ok? && DirPath(b, "hadoop_conf").Ok?
              && |r.host.log| == |h.log| + (if "JobHistoryServer" in w.running then 2 else 1)
              && RunsAs(r.host.log[|r.host.log| - 1], "mapred", DaemonWords(b, JobhistoryScript, "start", "historyserver"))
    ensures r.Done? && "JobHistoryServer" in w.running ==>
              RunsAs(r.host.log[|h.log|], "mapred", DaemonWords(b, JobhistoryScript, "stop", "historyserver"))
    ensures "JobHistoryServer" in w.running ==>
              var stop := StopJobhistory(h, w, b);
              && (stop.Failed? ==> r == stop)
              && (stop.Done? ==> IssuedDaemon(stop.host, w, r, b, "mapred", JobhistoryScript, "start", "historyserver")
                                 && |r.host.log| == |h.log| + 2)
  {
    var h1 :- if "JobHistoryServer" in w.running then StopJobhistory(h, w, b) else Done(h);
    StartAfterStop(h, h1, w, b);
    JobhistoryDaemon(h1, w, b, "start", "historyserver")
  }

  /** A successful stop changed only the log, so the start that follows is
      not stopped either. */
  lemma StartAfterStop(h: Host, h1: Host, w: World, b: Base)
    requires h1 == h.(log := h1.log)
    ensures DaemonBlocker(h1, b) == DaemonBlocker(h, b)
  {
    RunBlockerStable(h, h1, b);
  }

  // ---------------------------------------------------------------------
  // Base configuration
  // ---------------------------------------------------------------------

  const YarnSiteXml := "yarn-site.xml"
  const MapredSiteXml := "mapred-site.xml"

  /** The address the server side listens on: every interface. */
  const Wildcard := "0.0.0.0"

  /** `'{}:{}'.format(host, port)`. */
  function Address(host: string, port: string): string {
    host + ":" + port
  }

  /** The job history log URL: a server configured for every interface
      points its clients at `localhost` instead. */
  function LogServerUrl(host: string, rmLog: Option<int>): string {
    Address(if host == Wildcard then "localhost" else host, PortText(rmLog)) + "/jobhistory/logs/"
  }

  function YarnSite(host: string, port: string, rmLog: Option<int>): seq<Assignment> {
    [(Some("yarn.nodemanager.aux-services"), PStr("mapreduce_shuffle")),
     (Some("yarn.resourcemanager.hostname"), PStr(host)),
     (Some("yarn.resourcemanager.address"), PStr(Address(host, port))),
     (Some("yarn.log.server.url"), PStr(LogServerUrl(host, rmLog)))]
  }

  function MapredSite(host: string, jobhistory: Option<int>): seq<Assignment> {
    [(Some("mapreduce.jobhistory.address"), PStr(Address(host, PortText(jobhistory)))),
     (Some("mapreduce.framework.name"), PStr("yarn"))]
  }

  lemma YarnSiteClean(host: string, port: string, rmLog: Option<int>)
    ensures WellNamed(YarnSite(host, port, rmLog))
  {
    var ps := YarnSite(host, port, rmLog);
    var n0, n1, n2, n3 := ps[0].0.value, ps[1].0.value, ps[2].0.value, ps[3].0.value;
    assert n0[5] == 'n' && n1[5] == 'r' && n2[5] == 'r' && n3[5] == 'l';
    assert |n1| == 29 && |n2| == 28;
  }

  lemma ShuffleNormal()
    ensures NormVal(PStr("mapreduce_shuffle")) == PStr("mapreduce_shuffle")
  {
    assert Clean("mapreduce_shuffle");
    CleanNormal("mapreduce_shuffle");
  }

  lemma MapredSiteClean(host: string, jobhistory: Option<int>)
    ensures WellNamed(MapredSite(host, jobhistory)) && Clean("yarn")
  {
  }

  /** The host part of the log URL (the text before its first colon) never
      names the wildcard address: it is the configured host, or `localhost`
      exactly when the host is the wildcard. */
  lemma LogServerUrlHost(host: string, rmLog: Option<int>)
    requires ':' !in host
    ensures var head := Split(LogServerUrl(host, rmLog), ':')[0];
            && head != Wildcard
            && (head == "localhost" <==> host == Wildcard || host == "localhost")
            && (host != Wildcard ==> head == host)
  {
    var hp := if host == Wildcard then "localhost" else host;
    var rest := PortText(rmLog) + "/jobhistory/logs/";
    assert LogServerUrl(host, rmLog) == hp + [':'] + rest;
    SplitAtFirst(hp, rest, ':');
  }

  /** `configure_yarn_base(host, port)`: the `yarn-site.xml` session, then
      the `mapred-site.xml` session.  The `rm_log` and `jobhistory` ports are
      looked up inside the sessions, after their files were opened.  Only
      the two files change. */
  function ConfigureYarnBase(h: Host, b: Base, host: string, port: string): (r: Outcome)
    ensures r.host == h.(xml := r.host.xml)
    ensures r.Done? <==> DirPath(b, "hadoop_conf").Ok? && Slash(DirPath(b, "hadoop_conf").value, YarnSiteXml) in h.xml
                         && Slash(DirPath(b, "hadoop_conf").value, MapredSiteXml) in h.xml
                         && DistConfigs.Port(b.dc, "rm_log").Ok? && DistConfigs.Port(b.dc, "jobhistory").Ok?
    ensures r.Done? ==> r.host.xml.Keys == h.xml.Keys
    ensures r.Done? ==>
              forall p :: (p in h.xml && p != Slash(DirPath(b, "hadoop_conf").value, YarnSiteXml)
                           && p != Slash(DirPath(b, "hadoop_conf").value, MapredSiteXml)) ==> r.host.xml[p] == h.xml[p]
    ensures r.Done? ==> IsNormal(r.host.xml[Slash(DirPath(b, "hadoop_conf").value, YarnSiteXml)])
                        && IsNormal(r.host.xml[Slash(DirPath(b, "hadoop_conf").value, MapredSiteXml)])
  {
    var conf := DirPath(b, "hadoop_conf");
    if conf.Err? then Fail(conf, h)
    else
      SlashInjective(conf.value, YarnSiteXml, MapredSiteXml);
      var yarn := Slash(conf.value, YarnSiteXml);
      if yarn !in h.xml then Failed(IOError(yarn), h)
      else
        var rmLog := DistConfigs.Port(b.dc, "rm_log");
        if rmLog.Err? then Fail(rmLog, h)
        else
          var h1 := EditXml(h, yarn, YarnSite(host, port, rmLog.value)).host;
          var mapred := Slash(conf.value, MapredSiteXml);
          if mapred !in h1.xml then Failed(IOError(mapred), h1)
          else
            var jobhistory := DistConfigs.Port(b.dc, "jobhistory");
            if jobhistory.Err? then Fail(jobhistory, h1)
            else EditXml(h1, mapred, MapredSite(host, jobhistory.value))
  }

  /** What `yarn-site.xml` reads back as after its session: the shuffle
      service, and the host, address and log URL in written form. */
  lemma YarnSiteValues(h: Host, path: string, host: string, port: string, rmLog: Option<int>)
    requires path in h.xml && IsNormal(h.xml[path])
    ensures var site := Snapshot(EditXml(h, path, YarnSite(host, port, rmLog)).host.xml[path]);
            && Some("yarn.nodemanager.aux-services") in site
            && site[Some("yarn.nodemanager.aux-services")] == PStr("mapreduce_shuffle")
            && Some("yarn.resourcemanager.hostname") in site
            && site[Some("yarn.resourcemanager.hostname")] == NormVal(PStr(host))
            && Some("yarn.resourcemanager.address") in site
            && site[Some("yarn.resourcemanager.address")] == NormVal(PStr(Address(host, port)))
            && Some("yarn.log.server.url") in site
            && site[Some("yarn.log.server.url")] == NormVal(PStr(LogServerUrl(host, rmLog)))
  {
    var site := Snapshot(EditXml(h, path, YarnSite(host, port, rmLog)).host.xml[path]);
    assert Some("yarn.nodemanager.aux-services") in site
           && site[Some("yarn.nodemanager.aux-services")] == PStr("mapreduce_shuffle") by {
      YarnSiteAt(h, path, host, port, rmLog, 0);
      ShuffleNormal();
    }
    assert Some("yarn.resourcemanager.hostname") in site
           && site[Some("yarn.resourcemanager.hostname")] == NormVal(PStr(host)) by {
      YarnSiteAt(h, path, host, port, rmLog, 1);
    }
    assert Some("yarn.resourcemanager.address") in site
           && site[Some("yarn.resourcemanager.address")] == NormVal(PStr(Address(host, port))) by {
      YarnSiteAt(h, path, host, port, rmLog, 2);
    }
    assert Some("yarn.log.server.url") in site
           && site[Some("yarn.log.server.url")] == NormVal(PStr(LogServerUrl(host, rmLog))) by {
      YarnSiteAt(h, path, host, port, rmLog, 3);
    }
  }

  lemma YarnSiteAt(h: Host, path: string, host: string, port: string, rmLog: Option<int>, i: int)
    requires path in h.xml && IsNormal(h.xml[path]) && 0 <= i < 4
    ensures var ps := YarnSite(host, port, rmLog);
            var site := Snapshot(EditXml(h, path, ps).host.xml[path]);
            ps[i].0 in site && site[ps[i].0] == NormVal(ps[i].1)
  {
    YarnSiteClean(host, port, rmLog);
    EditXmlStr(h, path, YarnSite(host, port, rmLog), i);
  }

  /** What `mapred-site.xml` reads back as after its session. */
  lemma MapredSiteValues(h: Host, path: string, host: string, jobhistory: Option<int>)
    requires path in h.xml && IsNormal(h.xml[path])
    ensures var site := Snapshot(EditXml(h, path, MapredSite(host, jobhistory)).host.xml[path]);
            && Some("mapreduce.jobhistory.address") in site
            && site[Some("mapreduce.jobhistory.address")] == NormVal(PStr(Address(host, PortText(jobhistory))))
            && Some("mapreduce.framework.name") in site && site[Some("mapreduce.framework.name")] == PStr("yarn")
  {
    var ps := MapredSite(host, jobhistory);
    MapredSiteClean(host, jobhistory);
    EditXmlValue(h, path, ps, 0);
    EditXmlText(h, path, ps, 1);
  }

  /** What the two files read back as after `configure_yarn_base`, when
      both were written by an earlier session. */
  lemma ConfigureYarnBaseValues(h: Host, b: Base, host: string, port: string)
    requires ConfigureYarnBase(h, b, host, port).Done?
    requires IsNormal(h.xml[Slash(DirPath(b, "hadoop_conf").value, YarnSiteXml)])
    requires IsNormal(h.xml[Slash(DirPath(b, "hadoop_conf").value, MapredSiteXml)])
    ensures var x := ConfigureYarnBase(h, b, host, port).host.xml;
            var yarn := Snapshot(x[Slash(DirPath(b, "hadoop_conf").value, YarnSiteXml)]);
            var mapred := Snapshot(x[Slash(DirPath(b, "hadoop_conf").value, MapredSiteXml)]);
            && Some("yarn.log.server.url") in yarn
            && yarn[Some("yarn.log.server.url")] == NormVal(PStr(LogServerUrl(host, DistConfigs.Port(b.dc, "rm_log").value)))
            && Some("mapreduce.jobhistory.address") in mapred
            && mapred[Some("mapreduce.jobhistory.address")]
               == NormVal(PStr(Address(host, PortText(DistConfigs.Port(b.dc, "jobhistory").value))))
            && Some("mapreduce.framework.name") in mapred && mapred[Some("mapreduce.framework.name")] == PStr("yarn")
  {
    var conf := DirPath(b, "hadoop_conf").value;
    var yarn := Slash(conf, YarnSiteXml);
    var mapred := Slash(conf, MapredSiteXml);
    SlashInjective(conf, YarnSiteXml, MapredSiteXml);
    var rmLog := DistConfigs.Port(b.dc, "rm_log").value;
    var jobhistory := DistConfigs.Port(b.dc, "jobhistory").value;
    var h1 := EditXml(h, yarn, YarnSite(host, port, rmLog)).host;
    assert ConfigureYarnBase(h, b, host, port) == EditXml(h1, mapred, MapredSite(host, jobhistory));
    YarnSiteValues(h, yarn, host, port, rmLog);
    MapredSiteValues(h1, mapred, host, jobhistory);
  }

  // ---------------------------------------------------------------------
  // Server and client configuration
  // ---------------------------------------------------------------------

  /** `configure_resourcemanager`: the base properties for the wildcard
      address and the `resourcemanager` port, then the web UI address. */
  function ConfigureResourcemanager(h: Host, b: Base): (r: Outcome)
    ensures r.host == h.(xml := r.host.xml)
    ensures r.Done? <==> DistConfigs.Port(b.dc, "resourcemanager").Ok?
                         && ConfigureYarnBase(h, b, Wildcard, PortText(DistConfigs.Port(b.dc, "resourcemanager").value)).Done?
                         && DistConfigs.Port(b.dc, "rm_webapp_http").Ok?
  {
    var port := DistConfigs.Port(b.dc, "resourcemanager");
    if port.Err? then Fail(port, h)
    else
      var h1 :- ConfigureYarnBase(h, b, Wildcard, PortText(port.value));
      var web := DistConfigs.Port(b.dc, "rm_webapp_http");
      if web.Err? then Fail(web, h1)
      else EditXml(h1, Slash(DirPath(b, "hadoop_conf").value, YarnSiteXml), ResourcemanagerSite(web.value))
  }

  function ResourcemanagerSite(web: Option<int>): seq<Assignment> {
    [(Some("yarn.resourcemanager.webapp.address"), PStr(ListenAll(web)))]
  }

  lemma ResourcemanagerSiteClean(web: Option<int>)
    ensures WellNamed(ResourcemanagerSite(web))
  {
  }

  /** A resource manager configured for every interface points its
      clients at `localhost` for the job history logs. */
  lemma LocalUrl(rmLog: Option<int>)
    ensures LogServerUrl(Wildcard, rmLog) == "localhost:" + PortText(rmLog) + "/jobhistory/logs/"
  {
    var t := PortText(rmLog);
    assert Address("localhost", t) + "/jobhistory/logs/" == "localhost" + ":" + t + "/jobhistory/logs/";
  }

  /** That URL is in written form. */
  lemma LocalUrlClean(rmLog: Option<int>)
    ensures Clean(LogServerUrl(Wildcard, rmLog))
  {
    var u := LogServerUrl(Wildcard, rmLog);
    assert u[0] == 'l';
    assert u[|u| - 1] == '/';
  }

  /** What `yarn-site.xml` reads back as after `configure_resourcemanager`
      on a file written before: clients are pointed at `localhost` for the
      job history logs, and the web UI listens on every interface. */
  lemma ResourcemanagerValues(h: Host, b: Base)
    requires ConfigureResourcemanager(h, b).Done?
    requires IsNormal(h.xml[Slash(DirPath(b, "hadoop_conf").value, YarnSiteXml)])
    ensures var site := Snapshot(ConfigureResourcemanager(h, b).host.xml[Slash(DirPath(b, "hadoop_conf").value, YarnSiteXml)]);
            && Some("yarn.log.server.url") in site
            && site[Some("yarn.log.server.url")]
               == PStr("localhost:" + PortText(DistConfigs.Port(b.dc, "rm_log").value) + "/jobhistory/logs/")
            && Some("yarn.resourcemanager.webapp.address") in site
            && site[Some("yarn.resourcemanager.webapp.address")] == PStr(ListenAll(DistConfigs.Port(b.dc, "rm_webapp_http").value))
  {
    var port := PortText(DistConfigs.Port(b.dc, "resourcemanager").value);
    var path := Slash(DirPath(b, "hadoop_conf").value, YarnSiteXml);
    var rmLog := DistConfigs.Port(b.dc, "rm_log").value;
    var web := DistConfigs.Port(b.dc, "rm_webapp_http").value;
    var h1 := ConfigureYarnBase(h, b, Wildcard, port).host;
    assert ConfigureResourcemanager(h, b) == EditXml(h1, path, ResourcemanagerSite(web));
    ResourcemanagerUrl(h, b, port, path, rmLog);
    ResourcemanagerWeb(h1, path, web);
    ResourcemanagerKeepsUrl(h1, path, web);
  }

  lemma ResourcemanagerKeepsUrl(h: Host, path: string, web: Option<int>)
    requires path in h.xml && IsNormal(h.xml[path]) && Some("yarn.log.server.url") in Snapshot(h.xml[path])
    ensures var site := Snapshot(EditXml(h, path, ResourcemanagerSite(web)).host.xml[path]);
            Some("yarn.log.server.url") in site && site[Some("yarn.log.server.url")] == Snapshot(h.xml[path])[Some("yarn.log.server.url")]
  {
    ResourcemanagerSiteClean(web);
    EditXmlKeeps(h, path, ResourcemanagerSite(web), Some("yarn.log.server.url"));
  }

  lemma ResourcemanagerUrl(h: Host, b: Base, port: string, path: string, rmLog: Option<int>)
    requires ConfigureYarnBase(h, b, Wildcard, port).Done?
    requires path == Slash(DirPath(b, "hadoop_conf").value, YarnSiteXml) && IsNormal(h.xml[path])
    requires rmLog == DistConfigs.Port(b.dc, "rm_log").value
    ensures var site := Snapshot(ConfigureYarnBase(h, b, Wildcard, port).host.xml[path]);
            && Some("yarn.log.server.url") in site
            && site[Some("yarn.log.server.url")] == PStr("localhost:" + PortText(rmLog) + "/jobhistory/logs/")
  {
    var conf := DirPath(b, "hadoop_conf").value;
    var mapred := Slash(conf, MapredSiteXml);
    SlashInjective(conf, YarnSiteXml, MapredSiteXml);
    var h1 := EditXml(h, path, YarnSite(Wildcard, port, rmLog)).host;
    var jobhistory := DistConfigs.Port(b.dc, "jobhistory").value;
    assert ConfigureYarnBase(h, b, Wildcard, port) == EditXml(h1, mapred, MapredSite(Wildcard, jobhistory));
    assert ConfigureYarnBase(h, b, Wildcard, port).host.xml[path] == h1.xml[path];
    YarnSiteValues(h, path, Wildcard, port, rmLog);
    LocalUrlClean(rmLog);
    CleanNormal(LogServerUrl(Wildcard, rmLog));
    LocalUrl(rmLog);
  }

  lemma ResourcemanagerWeb(h: Host, path: string, web: Option<int>)
    requires path in h.xml && IsNormal(h.xml[path])
    ensures var site := Snapshot(EditXml(h, path, ResourcemanagerSite(web)).host.xml[path]);
            && Some("yarn.resourcemanager.webapp.address") in site
            && site[Some("yarn.resourcemanager.webapp.address")] == PStr(ListenAll(web))
  {
    ResourcemanagerSiteClean(web);
    ListenAllClean(web);
    EditXmlText(h, path, ResourcemanagerSite(web), 0);
  }

  /** `configure_jobhistory`: the base properties for the wildcard address
      and the `resourcemanager` port, then the job history server's own
      addresses, both on every interface. */
  function ConfigureJobhistory(h: Host, b: Base): (r: Outcome)
    ensures r.host == h.(xml := r.host.xml)
    ensures r.Done? <==> DistConfigs.Port(b.dc, "resourcemanager").Ok?
                         && ConfigureYarnBase(h, b, Wildcard, PortText(DistConfigs.Port(b.dc, "resourcemanager").value)).Done?
                         && DistConfigs.Port(b.dc, "jh_webapp_http").Ok?
  {
    var port := DistConfigs.Port(b.dc, "resourcemanager");
    if port.Err? then Fail(port, h)
    else
      var h1 :- ConfigureYarnBase(h, b, Wildcard, PortText(port.value));
      // the base configuration has already looked up the `jobhistory` port
      var jobhistory := DistConfigs.Port(b.dc, "jobhistory").value;
      var web := DistConfigs.Port(b.dc, "jh_webapp_http");
      if web.Err? then Fail(web, h1)
      else EditXml(h1, Slash(DirPath(b, "hadoop_conf").value, MapredSiteXml), JobhistorySite(jobhistory, web.value))
  }

  function JobhistorySite(jobhistory: Option<int>, web: Option<int>): seq<Assignment> {
    [(Some("mapreduce.jobhistory.address"), PStr(ListenAll(jobhistory))),
     (Some("mapreduce.jobhistory.webapp.address"), PStr(ListenAll(web)))]
  }

  lemma JobhistorySiteClean(jobhistory: Option<int>, web: Option<int>)
    ensures WellNamed(JobhistorySite(jobhistory, web))
  {
  }

  /** What `mapred-site.xml` reads back as after `configure_jobhistory`:
      both server addresses on every interface, and the framework left as
      the base configuration set it. */
  lemma JobhistoryValues(h: Host, b: Base)
    requires ConfigureJobhistory(h, b).Done?
    requires IsNormal(h.xml[Slash(DirPath(b, "hadoop_conf").value, MapredSiteXml)])
    ensures var site := Snapshot(ConfigureJobhistory(h, b).host.xml[Slash(DirPath(b, "hadoop_conf").value, MapredSiteXml)]);
            && Some("mapreduce.jobhistory.address") in site
            && site[Some("mapreduce.jobhistory.address")] == PStr(ListenAll(DistConfigs.Port(b.dc, "jobhistory").value))
            && Some("mapreduce.jobhistory.webapp.address") in site
            && site[Some("mapreduce.jobhistory.webapp.address")] == PStr(ListenAll(DistConfigs.Port(b.dc, "jh_webapp_http").value))
            && Some("mapreduce.framework.name") in site && site[Some("mapreduce.framework.name")] == PStr("yarn")
  {
    var port := PortText(DistConfigs.Port(b.dc, "resourcemanager").value);
    var path := Slash(DirPath(b, "hadoop_conf").value, MapredSiteXml);
    var jobhistory := DistConfigs.Port(b.dc, "jobhistory").value;
    var web := DistConfigs.Port(b.dc, "jh_webapp_http").value;
    var h1 := ConfigureYarnBase(h, b, Wildcard, port).host;
    assert ConfigureJobhistory(h, b) == EditXml(h1, path, JobhistorySite(jobhistory, web));
    JobhistoryFramework(h, b, port, path);
    JobhistoryAddresses(h1, path, jobhistory, web);
    JobhistoryKeepsFramework(h1, path, jobhistory, web);
  }

  lemma JobhistoryKeepsFramework(h: Host, path: string, jobhistory: Option<int>, web: Option<int>)
    requires path in h.xml && IsNormal(h.xml[path]) && Some("mapreduce.framework.name") in Snapshot(h.xml[path])
    ensures var site := Snapshot(EditXml(h, path, JobhistorySite(jobhistory, web)).host.xml[path]);
            && Some("mapreduce.framework.name") in site
            && site[Some("mapreduce.framework.name")] == Snapshot(h.xml[path])[Some("mapreduce.framework.name")]
  {
    JobhistorySiteClean(jobhistory, web);
    EditXmlKeeps(h, path, JobhistorySite(jobhistory, web), Some("mapreduce.framework.name"));
  }

  lemma JobhistoryFramework(h: Host, b: Base, port: string, path: string)
    requires ConfigureYarnBase(h, b, Wildcard, port).Done?
    requires path == Slash(DirPath(b, "hadoop_conf").value, MapredSiteXml) && IsNormal(h.xml[path])
    ensures var site := Snapshot(ConfigureYarnBase(h, b, Wildcard, port).host.xml[path]);
            Some("mapreduce.framework.name") in site && site[Some("mapreduce.framework.name")] == PStr("yarn")
  {
    var conf := DirPath(b, "hadoop_conf").value;
    var yarn := Slash(conf, YarnSiteXml);
    SlashInjective(conf, YarnSiteXml, MapredSiteXml);
    var rmLog := DistConfigs.Port(b.dc, "rm_log").value;
    var h1 := EditXml(h, yarn, YarnSite(Wildcard, port, rmLog)).host;
    var jobhistory := DistConfigs.Port(b.dc, "jobhistory").value;
    assert ConfigureYarnBase(h, b, Wildcard, port) == EditXml(h1, path, MapredSite(Wildcard, jobhistory));
    MapredSiteValues(h1, path, Wildcard, jobhistory);
  }

  lemma JobhistoryAddresses(h: Host, path: string, jobhistory: Option<int>, web: Option<int>)
    requires path in h.xml && IsNormal(h.xml[path])
    ensures var site := Snapshot(EditXml(h, path, JobhistorySite(jobhistory, web)).host.xml[path]);
            && Some("mapreduce.jobhistory.address") in site
            && site[Some("mapreduce.jobhistory.address")] == PStr(ListenAll(jobhistory))
            && Some("mapreduce.jobhistory.webapp.address") in site
            && site[Some("mapreduce.jobhistory.webapp.address")] == PStr(ListenAll(web))
  {
    JobhistorySiteClean(jobhistory, web);
    ListenAllClean(jobhistory);
    ListenAllClean(web);
    EditXmlText(h, path, JobhistorySite(jobhistory, web), 0);
    EditXmlText(h, path, JobhistorySite(jobhistory, web), 1);
  }

  // ---------------------------------------------------------------------
  // Demo
  // ---------------------------------------------------------------------

  const DemoFlag := "yarn.client.demo.installed"
  const DemoSource := "scripts/terasort.sh"
  const DemoTarget := "/home/ubuntu/terasort.sh"
  /** `0o755`. */
  const DemoMode := 493

  /** `install_demo`: once per unit, the TeraSort script copied into the
      `ubuntu` home, made executable and handed to `ubuntu:hadoop`; a
      failed copy leaves everything as it was. */
  function InstallDemo(h: Host): (r: Outcome)
    ensures DemoFlag in h.flags ==> r == Done(h)
    ensures DemoFlag !in h.flags ==> (r.Failed? <==> DemoSource !in h.files)
    ensures r.Failed? ==> r == Failed(IOError(DemoSource), h)
    ensures r.host.kv == h.kv && r.host.xml == h.xml
    ensures r.Done? ==> r.host.flags == h.flags + {DemoFlag}
    ensures r.Done? && DemoFlag !in h.flags ==>
              && r.host.files == h.files[DemoTarget := h.files[DemoSource]]
              && r.host.log == h.log + [Copy(DemoSource, DemoTarget), Chmod(DemoTarget, DemoMode),
                                        Chown(DemoTarget, "ubuntu", "hadoop")]
  {
    if DemoFlag in h.flags then Done(h)
    else if DemoSource !in h.files then Failed(IOError(DemoSource), h)
    else
      var h1 := Record(h.(files := h.files[DemoTarget := h.files[DemoSource]]), Copy(DemoSource, DemoTarget));
      var h2 := Record(Record(h1, Chmod(DemoTarget, DemoMode)), Chown(DemoTarget, "ubuntu", "hadoop"));
      Done(h2.(flags := h2.flags + {DemoFlag}))
  }

  /** Once installed, installing the demo again changes nothing. */
  lemma InstallDemoOnce(h: Host)
    requires InstallDemo(h).Done?
    ensures InstallDemo(InstallDemo(h).host) == InstallDemo(h)
  {
  }

  /** The installed script is the demo's content, whatever the target held. */
  lemma InstallDemoCopies(h: Host)
    requires DemoFlag !in h.flags && InstallDemo(h).Done?
    ensures DemoTarget in InstallDemo(h).host.files && InstallDemo(h).host.files[DemoTarget] == h.files[DemoSource]
    ensures forall p :: p in h.files && p != DemoTarget ==>
              p in InstallDemo(h).host.files && InstallDemo(h).host.files[p] == h.files[p]
  {
  }
}
